=== FILE: README.md ===
# oh-my-opencode core, modelled in Dafny

This project models the bookkeeping core of the oh-my-opencode plugin for OpenCode and proves properties of it.

**Background-task lifecycle** (`src/features/background-agent/`). The model keeps one immutable
`Tasks.Scheduler` record that holds:

- the task registry;
- the idle-deferral timers;
- the completion timers;
- the sub-agent session index;
- the per-key launch queues.

Each handler is a pure transition. It returns the new record and the sequence of calls it makes to
injected collaborators (`Tasks.Effect`): release a concurrency key, cancel a task, clear
notifications, clean up pending-by-parent, emit an idle event, try to complete a task. The registry
invariant `Tasks.Valid` has three parts. Every task is filed under its own id. Timers exist only for
registered tasks. Queues are non-empty and duplicate-free, and hold only registered pending tasks
filed under their own queue key. Every handler is proved to preserve it under the preconditions listed in "## Left out": tearing down a queued pending task and pruning a task with an armed timer break it.
The modelled handlers are:

- the event router (`EventRouter`);
- the debounced idle evaluator (`IdleEvaluator`);
- the idempotent teardown (`Cleanup`);
- the stale-task pruner (`StalePruner`).

**Hooks and caches:**

- the preemptive-compaction hook, with its 78% threshold (`PreemptiveCompaction`);
- the context-window monitor, with its 70% threshold and one reminder per session
  (`ContextWindowMonitor`);
- the todo-continuation session store, with its ten-minute time-to-live (`SessionStateStore`);
- the transcript cache of the Claude Code hook bridge (`TranscriptCache`);
- the rules injector's parse cache and its dedup/sort loop (`RulesInjector`).

**Configuration:**

- plugin-config merging and partial parsing (`PluginConfig`);
- agent-override application order (`AgentOverrides`);
- config-source skill discovery (`SkillSourceDiscovery`).

**Small pure functions:**

- the release script's version arithmetic, dist tags, error classification and batching (`Publish`);
- planner-agent detection (`SourceDetector`);
- the session agent resolver (`SessionAgentResolver`);
- the desktop i18n store (`I18n`).

**Encoders:**

- the HTTP Basic header of the OpenCode server, built on UTF-8 (`Utf8`) and the Base 64 encoding of
  section 4 of RFC 4648 (`Base64`);
- its injection into an SDK client (`ServerAuth`);
- the PNG chunk writer of the desktop icon script (`Png`). It uses the CRC-32 of section 5.5 of the
  W3C PNG specification (ISO/IEC 15948) and the chunk layout of section 5.3.

**How the model stands in for the runtime.** JavaScript values are the datatype `Js.JsValue`. An
untyped event payload is one such value, so a malformed payload is an ordinary input. The following
become parameters:

- clocks;
- timer handles;
- the results of awaited calls;
- collaborators the code calls but does not define (`findBySession`, `getAllDescendantTasks`,
  `deepMerge`, the zod schema's `safeParse`, `picomatch`, `isGptModel`, `path.resolve`/`join`, file
  reads).

Each of these is an uninterpreted function or value, and no behaviour is assumed of it beyond what a
lemma's `requires` states. A JavaScript `throw` is the `Thrown` case of `Base.Result`.

Shared vocabulary lives in these modules:

- `Base`: `Option`, `Result`, bytes;
- `Js`: values, truthiness, property reads;
- `Strings`: prefix, contains, `split`/`join`, lower case, decimal rendering;
- `Seqs`: duplicate-free union, insertion sort, first-occurrence removal;
- `Tasks`: the scheduler record and its invariant.

## Model

| member | source | states |
|---|---|---|
| Tasks.QueueKey | src/features/background-agent/stale-task-pruner.ts:56-58 | the queue key is `provider/model` when the task has a model, otherwise the agent name |
| Tasks.Lookup | src/features/background-agent/background-event-handler.ts:60-61 | a session designates a task only when `findBySession` names an id that is registered, and then it is that registry entry |
| Js.GetString | src/features/background-agent/background-event-handler.ts:12-15 | `getString` yields a value exactly when the property holds a string, and it is that string |
| Js.Coalesce | src/features/background-agent/background-event-handler.ts:105-108 | `??` keeps a value that is neither `null` nor `undefined`, and otherwise takes the fallback |
| Cleanup.CleanupTaskAfterSessionEnds | src/features/background-agent/session-task-cleanup.ts:4-46 | after teardown the task has no completion or idle-deferral timer; its key is released exactly when held and a releaser exists, and it is then cleared; pending-by-parent cleanup and notification clearing always run; the task leaves the registry and its session leaves the index; queues are untouched |
| Cleanup.CleanupIdempotent | src/features/background-agent/session-task-cleanup.ts:4-46 | a second teardown of the task it returned changes no map and releases no key |
| Cleanup.CleanupPreservesValid | src/features/background-agent/session-task-cleanup.ts:23-45 | teardown keeps the scheduler invariant |
| StalePruner.SpliceFromQueue | src/features/background-agent/stale-task-pruner.ts:59-68 | only the first entry with the task id is removed from that key's queue; other entries keep their order; an emptied queue is deleted; other keys are untouched |
| StalePruner.OnTaskPruned | src/features/background-agent/stale-task-pruner.ts:32-75 | the pruned task ends in `error` with the given message and `completedAt`; a held key is released once and cleared; a task pending before the prune is spliced from its queue; it leaves the registry and the session index; timers are untouched |
| StalePruner.SpliceKeepsQueuesWellFormed | src/features/background-agent/stale-task-pruner.ts:55-72 | removing a pending task from the registry and splicing it from its queue keeps every queue non-empty, duplicate-free and made of registered pending tasks |
| StalePruner.OnTaskPrunedPreservesValid | src/features/background-agent/stale-task-pruner.ts:32-75 | pruning a registered task that has no timers keeps the scheduler invariant |
| StalePruner.PrunedTimerOutlivesTask | src/features/background-agent/stale-task-pruner.ts:32-75 | pruning a task that has an armed idle-deferral or completion timer leaves a timer entry for an unregistered task |
| StalePruner.PruneStaleState | src/features/background-agent/stale-task-pruner.ts:12-77 | every victim leaves the registry; every other task stays exactly as it was; no cancel is requested; the held keys of the registered victims are released once each, in sweep order; exactly the victims' sessions leave the session index; the timer maps are untouched |
| StalePruner.VictimKeysHeld | src/features/background-agent/stale-task-pruner.ts:49-52 | every key the sweep releases is held by a registered victim |
| StalePruner.UnqueuedRemoveFirst | src/features/background-agent/stale-task-pruner.ts:59-68 | in a duplicate-free queue, splicing out the first entry for a task is removing the task |
| StalePruner.PruneStaleStateQueues | src/features/background-agent/stale-task-pruner.ts:55-68 | on well-formed queues the sweep leaves every queue with exactly its non-victim entries, in order, and deletes the queues it empties |
| StalePruner.PruneStaleStatePreservesValid | src/features/background-agent/stale-task-pruner.ts:12-77 | a prune sweep over timer-free victims keeps the scheduler invariant |
| EventRouter.CountToolCall | src/features/background-agent/background-event-handler.ts:73-78 | absent progress starts from zero calls; one tool part adds exactly one call and records the tool and time |
| EventRouter.SessionTask | src/features/background-agent/background-event-handler.ts:56-61 | a task is found only for a record payload with a non-empty string `sessionID` that resolves to a registered task |
| EventRouter.OnPartUpdated | src/features/background-agent/background-event-handler.ts:55-80 | a malformed or unmatched payload changes nothing; a matched task loses its idle-deferral timer whatever the part; its tool-call count rises by one exactly when the part is a tool part; nothing else changes |
| EventRouter.PartUpdatedPreservesValid | src/features/background-agent/background-event-handler.ts:55-80 | part updates keep the scheduler invariant |
| EventRouter.ToolCallsCountToolParts | src/features/background-agent/background-event-handler.ts:69-79 | over any run of part updates for one task, its tool-call count rises by exactly the number of tool parts |
| EventRouter.RestTimerGone | src/features/background-agent/background-event-handler.ts:63-67 | after any non-empty run of part updates for a task, it has no idle-deferral timer |
| EventRouter.ErrorMessage | src/features/background-agent/background-event-handler.ts:103-108 | the message is `error.data.message` if a string, else `error.message` if a string, else `Session error` |
| EventRouter.OnSessionError | src/features/background-agent/background-event-handler.ts:95-123 | only a running task changes: it ends in `error` with the message and `completedAt`, and is torn down — its key released when held and a releaser exists, the pending-by-parent cleanup called, only its own timers and session index entry removed, the queues untouched; otherwise the state and calls are unchanged |
| EventRouter.SessionErrorPreservesValid | src/features/background-agent/background-event-handler.ts:95-123 | session errors keep the scheduler invariant |
| EventRouter.DeletedTargetIds | src/features/background-agent/background-event-handler.ts:132-140 | the targets are the direct task and all registered descendants, each id once, the direct task first |
| EventRouter.CancelCall | src/features/background-agent/background-event-handler.ts:143-154 | cancel is requested exactly for running or pending tasks |
| EventRouter.TearDownAll | src/features/background-agent/background-event-handler.ts:142-165 | cancels go to the live targets, cleanup runs for every target whatever its status, keys held are released when a releaser exists, and every target leaves every map |
| EventRouter.OnSessionDeleted | src/features/background-agent/background-event-handler.ts:125-166 | a malformed payload or an empty target set changes nothing; otherwise every target is cancelled if live and torn down: the targets' held keys are released in target order, exactly their timers and sessions are removed, the queues are untouched, and the outcome is the whole-sequence teardown `TearDownAll` |
| EventRouter.SessionDeletedPreservesValid | src/features/background-agent/background-event-handler.ts:125-166 | deleting a session whose targets have no queue entries keeps the scheduler invariant |
| EventRouter.HandleBackgroundEvent | src/features/background-agent/background-event-handler.ts:17-167 | non-record payloads and unknown event types are no-ops; only a deleted session cancels; only a session error marks a task errored; the other events release no key; each of the four known event types on a record payload gives exactly the state and effects of its own handler |
| EventRouter.HandleBackgroundEventPreservesValid | src/features/background-agent/background-event-handler.ts:17-167 | routing any event keeps the scheduler invariant |
| IdleEvaluator.IdleTarget | src/features/background-agent/session-idle-event-handler.ts:29-36 | an idle event acts only on a registered running task with `startedAt` set, found through a non-empty `sessionID` |
| IdleEvaluator.HandleSessionIdle | src/features/background-agent/session-idle-event-handler.ts:10-93 | without a target nothing happens; before the minimum idle time a deferral timer of `minIdle − elapsed` is armed unless one exists; afterwards validation starts; only the idle-deferral map can change |
| IdleEvaluator.HandleSessionIdlePreservesValid | src/features/background-agent/session-idle-event-handler.ts:38-56 | idle handling keeps the scheduler invariant |
| IdleEvaluator.RepeatedIdleArmsOneTimer | src/features/background-agent/session-idle-event-handler.ts:39-55 | any run of early idle events for a task leaves it with exactly one deferral timer, armed by the first |
| IdleEvaluator.LaterIdlesAbsorbed | src/features/background-agent/session-idle-event-handler.ts:41-54 | while a deferral is pending, further early idle events change nothing |
| IdleEvaluator.FireIdleDeferral | src/features/background-agent/session-idle-event-handler.ts:47-51 | firing removes the timer entry before re-emitting idle for the session |
| IdleEvaluator.FiredDeferralIsEvaluatedAfresh | src/features/background-agent/session-idle-event-handler.ts:47-51 | after the timer fires, the re-emitted idle is handled again from scratch and can arm a new deferral |
| IdleEvaluator.IdleContinuation | src/features/background-agent/session-idle-event-handler.ts:58-92 | completion is requested exactly when output is valid, todos are complete, and the task was running at both checks; a rejection is swallowed |
| IdleEvaluator.ResumeIdle | src/features/background-agent/session-idle-event-handler.ts:58-92 | the continuation never changes task state and requests completion with source `session.idle event` only in the case above |
| TokenUsage.ActualLimit | src/hooks/preemptive-compaction.ts:1-7 | the limit is the 1M window for `anthropic` under the 1M flag and 200000 otherwise, always positive |
| TokenUsage.NumOrZero | src/hooks/preemptive-compaction.ts:61 | `?? 0` on a numeric field: its number, or 0 |
| TokenUsage.FinishedAssistantUsage | src/hooks/preemptive-compaction.ts:109-116 | usage is read only from a finished assistant message with non-empty `sessionID` and `providerID` and truthy `tokens`; `modelID` defaults to the empty string |
| TokenUsage.DeletedSessionId | src/hooks/preemptive-compaction.ts:89-96 | a deleted event names a session only through a non-empty string `info.id` |
| PreemptiveCompaction.Initial | src/hooks/preemptive-compaction.ts:41-43 | the hook starts with no session in progress, none compacted and no cached tokens |
| PreemptiveCompaction.StartCompaction | src/hooks/preemptive-compaction.ts:45-69 | summarize is requested exactly when the session is neither compacted nor in progress, has cached usage with `100·total ≥ 78·limit`, and a non-empty model id; the session is then in progress; otherwise nothing changes |
| PreemptiveCompaction.FinishCompaction | src/hooks/preemptive-compaction.ts:71-83 | in-progress is cleared on success and failure; only success marks the session compacted |
| PreemptiveCompaction.OnSessionDeleted | src/hooks/preemptive-compaction.ts:89-97 | a deleted session leaves the in-progress set, the compacted set and the token cache |
| PreemptiveCompaction.OnMessageUpdated | src/hooks/preemptive-compaction.ts:99-117 | only finished assistant usage is cached, under its session |
| PreemptiveCompaction.HandleEvent | src/hooks/preemptive-compaction.ts:86-118 | other events are no-ops; a deletion with a session id removes it from the in-progress set, the compacted set and the cache; a finished assistant message overwrites its session's cached usage and never touches the session sets; a payload without those fields changes nothing |
| PreemptiveCompaction.NoConcurrentCompaction | src/hooks/preemptive-compaction.ts:50 | a second tool call while a compaction is in progress requests nothing |
| PreemptiveCompaction.CompactedStaysCompacted | src/hooks/preemptive-compaction.ts:50 | a compacted session stays compacted through any events that do not delete it, and is never summarized again |
| PreemptiveCompaction.RetryOnlyAfterFailure | src/hooks/preemptive-compaction.ts:69-83 | after a failed summarize the session can be summarized again; after a successful one it cannot |
| ContextWindowMonitor.ReminderText | src/hooks/context-window-monitor.ts:62-63 | the appended text starts with a blank line, the directive and the reminder body |
| ContextWindowMonitor.AfterTool | src/hooks/context-window-monitor.ts:34-64 | the output is only ever extended; it changes exactly when the session was not reminded, has cached `anthropic` usage and `100·total ≥ 70·limit`, and the session is then marked reminded; otherwise the state is unchanged |
| ContextWindowMonitor.HandleEvent | src/hooks/context-window-monitor.ts:66-93 | a deletion clears the reminded mark and the cache for the id; a finished assistant message caches its usage; everything else is a no-op |
| ContextWindowMonitor.RunTools | src/hooks/context-window-monitor.ts:34-64 | a run of tool calls produces one output per call |
| ContextWindowMonitor.AtMostOneReminder | src/hooks/context-window-monitor.ts:40-54 | across any run of tool calls a session gets at most one reminder, and none if it was already reminded |
| SessionStateStore.GetState | src/hooks/todo-continuation-enforcer/session-state.ts:41-51 | returns the existing state or inserts an empty one, and refreshes the access time |
| SessionStateStore.GetExistingState | src/hooks/todo-continuation-enforcer/session-state.ts:53-60 | never inserts; finds exactly the known ids, refreshing their access time |
| SessionStateStore.Stopped | src/hooks/todo-continuation-enforcer/session-state.ts:66-78 | a stopped countdown has no timer or interval, `inFlight` false and no start time, and other fields are kept |
| SessionStateStore.ClearedHandles | src/hooks/todo-continuation-enforcer/session-state.ts:67-75 | the handles cleared are exactly the timer and interval that were set, in that order |
| SessionStateStore.CancelCountdown | src/hooks/todo-continuation-enforcer/session-state.ts:62-79 | unknown ids are a no-op; a known id's countdown is stopped and nothing else changes |
| SessionStateStore.Cleanup | src/hooks/todo-continuation-enforcer/session-state.ts:81-84 | the id is absent afterwards and only it is removed |
| SessionStateStore.PruneSweep | src/hooks/todo-continuation-enforcer/session-state.ts:27-35 | the sweep keeps exactly the entries with `now − lastAccessedAt ≤ TTL`, unchanged, and the handles it clears are exactly the countdown handles of the expired entries |
| SessionStateStore.CancelAllCountdowns | src/hooks/todo-continuation-enforcer/session-state.ts:86-90 | every known countdown is stopped and no id is added or removed |
| SessionStateStore.Shutdown | src/hooks/todo-continuation-enforcer/session-state.ts:92-96 | the store ends empty; the handles reported cleared are exactly the timers and intervals the store held |
| SessionStateStore.GetStateThenExisting | src/hooks/todo-continuation-enforcer/session-state.ts:41-60 | after `getState`, `getExistingState` finds the same state |
| SessionStateStore.AccessProtectsFromPrune | src/hooks/todo-continuation-enforcer/session-state.ts:28-34 | an entry accessed within the TTL survives the sweep; after `cleanup` or `shutdown` it is unknown |
| TranscriptCache.PartEntries | src/hooks/claude-code-hooks/transcript.ts:125-141 | the loop throws exactly when some part is nullish, and yields at most one entry per part |
| TranscriptCache.PartEntriesMembers | src/hooks/claude-code-hooks/transcript.ts:125-141 | every entry comes from a completed tool part with a truthy input, and every such part yields its entry |
| TranscriptCache.PartEntriesSingle | src/hooks/claude-code-hooks/transcript.ts:126-140 | a single part throws if nullish, yields its one entry if it is a completed tool call with an input, and nothing otherwise |
| TranscriptCache.PartEntriesAppend | src/hooks/claude-code-hooks/transcript.ts:125-141 | the entries of concatenated parts are those of the first run followed by those of the second, so with `PartEntriesSingle` they are one per completed tool part, in part order |
| TranscriptCache.MessageEntries | src/hooks/claude-code-hooks/transcript.ts:123-141 | non-assistant messages contribute nothing; a nullish message throws |
| TranscriptCache.ParseMessagesToEntries | src/hooks/claude-code-hooks/transcript.ts:121-144 | the parse throws exactly when one message does, and messages none of which is an assistant message yield no entries |
| TranscriptCache.ParseSingle | src/hooks/claude-code-hooks/transcript.ts:123-142 | a single message parses to exactly that message's entries |
| TranscriptCache.ParseAppend | src/hooks/claude-code-hooks/transcript.ts:121-144 | parsing concatenated message lists concatenates their entries, so with `ParseSingle` the entries are each message's entries in message order |
| TranscriptCache.LongArrayResponseDropsHistory | src/hooks/claude-code-hooks/transcript.ts:175-181 | as written, an array response of more than 200 messages yields a non-array message list, while the intended reading keeps its entries |
| TranscriptCache.ResponseMessages | src/hooks/claude-code-hooks/transcript.ts:175-177 | as intended (see "## Findings"): the message list is an array response itself, else the `"200"` member, else `data`, else empty |
| TranscriptCache.ReadingsAgreeOffLongArrays | src/hooks/claude-code-hooks/transcript.ts:175-177 | the code as written and the intended reading pick the same message list for every response except an array of more than 200 messages |
| TranscriptCache.BaseEntries | src/hooks/claude-code-hooks/transcript.ts:170-181 | as intended (see "## Findings"): a failed or nullish response throws; an array response yields its parsed entries; a non-array message list yields none |
| TranscriptCache.ClearTranscriptCache | src/hooks/claude-code-hooks/transcript.ts:83-98 | with an id only that session's entry is removed and its temp file unlinked; without one the cache empties and every temp file is unlinked |
| TranscriptCache.BuildTranscriptFromSession | src/hooks/claude-code-hooks/transcript.ts:151-223 | as intended (see "## Findings"), with the intended `BaseEntries`: messages are fetched exactly on a miss or expiry; other sessions' entries are untouched; the written entries are the base entries followed by exactly one entry for the current tool; a failed fetch writes only the current entry |
| TranscriptCache.SecondCallReusesHistory | src/hooks/claude-code-hooks/transcript.ts:165-167 | a second call within five minutes does not fetch and reuses the first call's base entries |
| TranscriptCache.ExpiredEntryRefetches | src/hooks/claude-code-hooks/transcript.ts:100-102 | an entry five minutes old or older is fetched again |
| TranscriptCache.ClearedSessionRefetches | src/hooks/claude-code-hooks/transcript.ts:83-98 | after clearing, the next call for the session fetches again |
| RulesInjector.ResolveFilePath | src/hooks/rules-injector/injector.ts:72-79 | empty gives none; a leading `/` is returned unchanged; anything else is resolved against the workspace |
| RulesInjector.ResolveIdempotent | src/hooks/rules-injector/injector.ts:72-79 | when `resolve` yields absolute paths, resolving a resolved path again returns it unchanged |
| RulesInjector.GetCachedParsedRule | src/hooks/rules-injector/injector.ts:45-70 | the cache is used exactly when mtime and size both match; otherwise the file is read and, when stat succeeded, the cache entry is overwritten; a failed stat leaves the cache as it was |
| RulesInjector.SecondLookupHitsCache | src/hooks/rules-injector/injector.ts:53-55 | a second lookup with the same stat does not read the file |
| RulesInjector.ChangedStatRereads | src/hooks/rules-injector/injector.ts:53-64 | a changed mtime or size forces a re-read |
| RulesInjector.Consider | src/hooks/rules-injector/injector.ts:110-145 | a candidate whose real path is known is skipped untouched; otherwise the rule is looked up through the parse cache, and it is injected exactly when it parses, is a single instructions file or matches, and has a content hash the session has not seen, with its relative path, match reason, body and distance; an injected rule adds its real path and content hash to the session cache |
| RulesInjector.CollectRules | src/hooks/rules-injector/injector.ts:106-146 | each candidate in turn is considered in the session and cache the earlier ones left; the collected rules are exactly those injected, in candidate order; the final session and cache are those the last candidate left; the rules' real paths and hashes were new, pairwise distinct and are now recorded |
| RulesInjector.ProcessFilePathForInjection | src/hooks/rules-injector/injector.ts:94-166 | an empty path does nothing; otherwise the candidates found for the resolved path are collected as by the loop, and the session cache records exactly their real paths and hashes; the output is only appended to, with the collected rules sorted by ascending distance, ties kept in collection order; rules are saved exactly when one was added |
| PluginConfig.UnionList | src/plugin-config.ts:102-107 | a `disabled_*` list is the duplicate-free union of both lists: the base elements first, then the override elements not in the base, each in first-occurrence order |
| PluginConfig.MergeConfigs | src/plugin-config.ts:93-134 | plain keys take the override when present, else the base; `agents`, `categories` and `claude_code` are deep-merged; the five `disabled_*` lists are unions |
| PluginConfig.MergeDisabledIdempotent | src/plugin-config.ts:102-131 | merging a config with itself leaves a duplicate-free `disabled_*` list as it was |
| PluginConfig.ParseConfigPartially | src/plugin-config.ts:14-48 | the full parse is returned when the whole config is valid; otherwise exactly the keys whose section parses with a defined value, and never null |
| PluginConfig.InvalidSectionsDropped | src/plugin-config.ts:25-41 | an invalid or unknown section is absent from the partial result |
| AgentOverrides.ApplyCategoryOverride | src/agents/builtin-agents/agent-overrides.ts:13-36 | an unknown category changes nothing; a truthy model and every defined listed field are copied; no other field changes; the prompt gains the category's append only when it is a string |
| AgentOverrides.AppendCategoryPrompt | src/agents/builtin-agents/agent-overrides.ts:31-33 | a truthy `prompt_append` is added after a newline, and only to a string prompt |
| AgentOverrides.WithoutPromptAppend | src/agents/builtin-agents/agent-overrides.ts:44 | the rest object lacks `prompt_append` and keeps every other field |
| AgentOverrides.MergeAgentConfig | src/agents/builtin-agents/agent-overrides.ts:38-52 | the result is the deep merge of the base and the migrated override without `prompt_append`, whose append goes after a newline on a truthy merged prompt |
| AgentOverrides.ApplyOverrides | src/agents/builtin-agents/agent-overrides.ts:54-71 | no override changes nothing; otherwise the category comes first and the override merge second |
| AgentOverrides.DirectOverrideWins | src/agents/builtin-agents/agent-overrides.ts:60-70 | a non-object field the override sets is final, whatever the category said |
| AgentOverrides.CategoryModelSurvives | src/agents/builtin-agents/agent-overrides.ts:18-22 | a category's truthy model survives when the override sets none |
| AgentOverrides.PromptAppendNeverMerged | src/agents/builtin-agents/agent-overrides.ts:44-49 | `prompt_append` never becomes a field of the merged config |
| SkillSourceDiscovery.ToAbsolutePath | src/features/opencode-skill-loader/config-source-discovery.ts:17-22 | absolute paths are kept; relative ones are joined onto the config directory |
| SkillSourceDiscovery.Extname | src/features/opencode-skill-loader/config-source-discovery.ts:24-26 | the extension is empty or a dot followed by no dot and no slash |
| SkillSourceDiscovery.MarkdownIffSuffix | src/features/opencode-skill-loader/config-source-discovery.ts:24-26 | a path is markdown exactly when its last segment ends in `.md` in any case and is not `.md` alone |
| SkillSourceDiscovery.NormalizePathForGlob | src/features/opencode-skill-loader/config-source-discovery.ts:28-30 | every backslash becomes a slash |
| SkillSourceDiscovery.NormalizeProperties | src/features/opencode-skill-loader/config-source-discovery.ts:28-30 | the normalized path has the input's length, no backslash, keeps every other character, and normalizing is idempotent |
| SkillSourceDiscovery.FilterByGlob | src/features/opencode-skill-loader/config-source-discovery.ts:32-40 | no pattern is the identity, and filtering never adds a skill |
| SkillSourceDiscovery.FilterByGlobKeeps | src/features/opencode-skill-loader/config-source-discovery.ts:32-40 | with a pattern, exactly the skills with a path that matches are kept |
| SkillSourceDiscovery.FilterByGlobAppend | src/features/opencode-skill-loader/config-source-discovery.ts:32-40 | filtering distributes over concatenation |
| SkillSourceDiscovery.ScanDepth | src/features/opencode-skill-loader/config-source-discovery.ts:73 | recursive sources scan to depth 10, others to 0 |
| SkillSourceDiscovery.LoadSourcePath | src/features/opencode-skill-loader/config-source-discovery.ts:42-76 | URLs, missing paths, non-markdown files and other kinds yield nothing; a markdown file yields its loaded skill and a directory its scan at the chosen depth, both through the glob filter; with a pattern every skill returned has a path |
| SkillSourceDiscovery.LoadSource | src/features/opencode-skill-loader/config-source-discovery.ts:86-100 | a string source is non-recursive with no pattern; an object source passes its flags |
| SkillSourceDiscovery.LoadAll | src/features/opencode-skill-loader/config-source-discovery.ts:85-104 | the loaded skills are exactly those of some source |
| SkillSourceDiscovery.LoadAllSingle | src/features/opencode-skill-loader/config-source-discovery.ts:85-104 | one source contributes exactly its own skills |
| SkillSourceDiscovery.LoadAllAppend | src/features/opencode-skill-loader/config-source-discovery.ts:85-104 | the flattened list keeps source order: the skills of `a + b` are those of `a` followed by those of `b` |
| SkillSourceDiscovery.DiscoverConfigSourceSkills | src/features/opencode-skill-loader/config-source-discovery.ts:78-105 | no sources give no skills; otherwise the deduplicated union of all sources |
| SkillSourceDiscovery.UrlSourcesYieldNothing | src/features/opencode-skill-loader/config-source-discovery.ts:13-15 | an `http://` or `https://` source yields no skills |
| SourceDetector.CollapseSeparators | src/hooks/keyword-detector/ultrawork/source-detector.ts:21 | runs of `_`/`-` collapse to single spaces, so no separator remains |
| SourceDetector.IsPlannerAgent | src/hooks/keyword-detector/ultrawork/source-detector.ts:16-23 | false for an absent or empty name; true exactly when the lower-cased name contains `prometheus` or `planner`, or contains `plan` as a whole word once separators are spaces |
| SourceDetector.PlanHereAgrees | src/hooks/keyword-detector/ultrawork/source-detector.ts:21-22 | collapsing separators neither creates nor destroys a whole-word `plan` |
| SourceDetector.PlanWordDetected | src/hooks/keyword-detector/ultrawork/source-detector.ts:21-22 | a name with `plan` between non-alphanumeric neighbours is a planner |
| SourceDetector.PlannerDetectionIgnoresCase | src/hooks/keyword-detector/ultrawork/source-detector.ts:18 | detection gives the same answer for a name and its lower-case form |
| SourceDetector.GetUltraworkSource | src/hooks/keyword-detector/ultrawork/source-detector.ts:33-49 | planner wins; `gpt` is chosen exactly for a non-planner with a non-empty GPT model id; otherwise default |
| SessionAgentResolver.FirstAgent | src/plugin/session-agent-resolver.ts:24-28 | the agent of the first message with a truthy `info.agent`; none when no message has one; a nullish message throws |
| SessionAgentResolver.ResolveSessionAgent | src/plugin/session-agent-resolver.ts:16-36 | a failed call or missing `data` gives none; a found agent comes from some message |
| SessionAgentResolver.LaterMessagesIgnored | src/plugin/session-agent-resolver.ts:24-28 | messages after the first carrying an agent do not affect the result |
| Publish.BaseVersion | script/publish.ts:40 | the base version has no `-` and is a prefix of the version |
| Publish.BumpVersion | script/publish.ts:38-50 | the bumped version always has three dot-separated parts, with the parts below the bumped one zero |
| Publish.BumpDiscardsPrerelease | script/publish.ts:40 | a prerelease suffix does not affect the bump |
| Publish.BumpSemver | script/publish.ts:42-49 | major gives (M+1).0.0, minor gives M.(m+1).0, patch gives M.m.(p+1) |
| Publish.NewVersion | script/publish.ts:389-391 | a non-empty `VERSION` wins; otherwise the bump `BUMP` names, patch when it is unset or empty; a `BUMP` naming no kind gives no version |
| Publish.BumpOf | script/publish.ts:42-49 | exactly `major`, `minor` and `patch` select a case of the switch |
| Publish.GetDistTag | script/publish.ts:178-183 | none exactly when the version has no `-`; otherwise a non-empty tag with no `-` or `.` |
| Publish.DistTagOfPrerelease | script/publish.ts:180-182 | the tag is the first dot-segment after the first `-`, or `next` when that segment is empty |
| Publish.MatchBeta | script/publish.ts:90 | a match is `x.y.z-beta.N` with numeric parts |
| Publish.MatchBetaComplete | script/publish.ts:90-92 | every `x.y.z-beta.N` version matches with its base and number |
| Publish.FindPreviousTag | script/publish.ts:88-101 | a version without `-` has no previous tag; a proposed tag is `base-beta.(N−1)` with N−1 ≥ 1 and exists |
| Publish.PreviousBetaTag | script/publish.ts:90-100 | for `x.y.z-beta.N` the previous tag is `x.y.z-beta.(N−1)` exactly when N ≥ 2 and that tag exists |
| Publish.ErrorText | script/publish.ts:218 | the error text is stderr when non-empty, else the message, else empty |
| Publish.PublishPackage | script/publish.ts:200-247 | republish of an existing version or a conflict error is success with `alreadyPublished`; E403 is success only if the registry confirms the version; every other error fails with its text |
| Publish.OtherErrorsFail | script/publish.ts:243-245 | an error naming no conflict and no E403 is a failure |
| Publish.Batches | script/publish.ts:264-266 | batches are non-empty, at most the batch size, all but the last full, and their concatenation is the package list in order |
| Publish.FailedPackages | script/publish.ts:283-294 | the failures are exactly the packages whose publish did not succeed |
| Publish.FailedPackagesAppend | script/publish.ts:283-294 | the failures keep the package order: those of `a + b` are those of `a` followed by those of `b` |
| Publish.PublishAllPackages | script/publish.ts:249-315 | with platforms skipped only the main package is attempted; any platform failure stops before the main package; all published exactly when every package succeeded |
| I18n.Initial | desktop/renderer/i18n.js:6-7 | the store starts in a supported language (Chinese) with no listeners |
| I18n.T | desktop/renderer/i18n.js:202-206 | an unknown key is itself; a known key gives the current-language text, else the English text, else the key |
| I18n.ApplyToElement | desktop/renderer/i18n.js:224-228 | an element's text is replaced only when its key translates to something other than the key |
| I18n.ApplyToDom | desktop/renderer/i18n.js:223-244 | every marked element is translated, one for one |
| I18n.ApplyToDomIdempotent | desktop/renderer/i18n.js:223-244 | applying translations twice is the same as once |
| I18n.SetLang | desktop/renderer/i18n.js:212-217 | a code outside zh/en/ko changes nothing and notifies no one; a valid code is adopted, the page retranslated and every listener notified |
| I18n.OnChange | desktop/renderer/i18n.js:220 | a listener is appended; language and translations are kept |
| I18n.Init | desktop/renderer/i18n.js:247-252 | a saved language is adopted only if it is zh, en or ko; the page is then translated |
| I18n.SetLangThenT | desktop/renderer/i18n.js:205-216 | after switching to a language, a key that has text in it translates to that text |
| I18n.SetSameLangKeepsStore | desktop/renderer/i18n.js:212-216 | re-setting the current language keeps the store but still notifies every listener |
| Utf8.Encode | src/shared/opencode-server-auth.ts:15 | the UTF-8 bytes of a text, one to four per character |
| Utf8.DecodeEncode | src/shared/opencode-server-auth.ts:15 | decoding the UTF-8 bytes gives the text back |
| Utf8.EncodeInjective | src/shared/opencode-server-auth.ts:15 | different texts have different encodings |
| Base64.EncodeLength | src/shared/opencode-server-auth.ts:15 | the Base 64 text is four characters per started group of three bytes |
| Base64.DecodeEncode | src/shared/opencode-server-auth.ts:15 | decoding the Base 64 text gives the bytes back |
| Base64.EncodeAlphabet | src/shared/opencode-server-auth.ts:15 | the text uses only the alphabet, with `=` only in the last two places |
| ServerAuth.GetServerBasicAuthHeader | src/shared/opencode-server-auth.ts:8-18 | no header exactly when the password is unset or empty; otherwise `Basic ` then a token that decodes to the UTF-8 of `username:password`, with the username defaulting to `opencode` only when unset |
| ServerAuth.CredentialsRecoverable | src/shared/opencode-server-auth.ts:14-17 | a server splitting the decoded token at the first `:` gets back the username and the password |
| ServerAuth.Intercept | src/shared/opencode-server-auth.ts:81-86 | the interceptor sets `Authorization` only when the request has no non-empty one, and touches no other header |
| ServerAuth.WrappedFetchHeaders | src/shared/opencode-server-auth.ts:34-37 | a wrapped fetch always sends the header, keeping the other headers |
| ServerAuth.InterceptIdempotent | src/shared/opencode-server-auth.ts:81-86 | running the interceptor twice is the same as once |
| ServerAuth.InternalClient | src/shared/opencode-server-auth.ts:41-48 | an internal client is `client._client` when that is a record |
| ServerAuth.InjectInternal | src/shared/opencode-server-auth.ts:164-181 | the four strategies all carry the header; a throw ends the run with a logged failure; with nothing throwing, `log` is called exactly when no strategy applied |
| ServerAuth.InjectServerAuthIntoClient | src/shared/opencode-server-auth.ts:158-190 | without a password no change is made; every change carries the header; the top-level fetch is used exactly when there is no internal client; every path returns normally |
| ServerAuth.AllStrategiesTried | src/shared/opencode-server-auth.ts:164-181 | a working `setConfig` and interceptor are both used, one after the other |
| Png.StepBitConditional | desktop/assets/create-icons.js:86 | the masked step equals the generator's conditional XOR with 0xEDB88320 |
| Png.ShiftByte | desktop/assets/create-icons.js:85-87 | the inner loop performs eight reflected shift steps |
| Png.Crc32 | desktop/assets/create-icons.js:81-90 | the result lies in [0, 2^32) and equals the reference CRC-32 of the buffer |
| Png.FeedAll | desktop/assets/create-icons.js:83-88 | the outer loop leaves the register whose complement is the reference CRC-32 of the whole buffer |
| Png.CrcEmpty | desktop/assets/create-icons.js:82-89 | the CRC of an empty buffer is 0 |
| Png.CrcCheckValue | desktop/assets/create-icons.js:81-90 | the CRC of `123456789` is the standard check value 0xCBF43926 |
| Png.RegisterAppend | desktop/assets/create-icons.js:83-88 | the register after two buffers is the register after the first, continued over the second |
| Png.ReadWrite32 | desktop/assets/create-icons.js:69-70 | a big-endian 32-bit field reads back as the number written |
| Png.WriteRead32 | desktop/assets/create-icons.js:69-70 | every four bytes are the field of the number they read as |
| Png.CreateChunk | desktop/assets/create-icons.js:68-79 | the chunk throws exactly when the data length does not fit 32 bits; otherwise it is 12 bytes longer than the data for a 4-byte type |
| Png.ParseCreateChunk | desktop/assets/create-icons.js:68-79 | a reader recovers the type and data of a chunk and the bytes after it |
| Png.ChunkFields | desktop/assets/create-icons.js:69-78 | the length field is the data length and the CRC field covers the type and data, not the length |
| Png.IendChunkBytes | desktop/assets/create-icons.js:63 | the IEND chunk is the fixed 12 bytes ending in AE 42 60 82 |
| Png.IhdrData | desktop/assets/create-icons.js:13-20 | IHDR data is 13 bytes with the size big-endian at offsets 0 and 4, then depth 8, colour type 6 and three zeros; an out-of-range size throws |
| Png.CreateMinimalPng | desktop/assets/create-icons.js:8-66 | the file starts with the 8-byte PNG signature |
| Png.ParseWriteChunks | desktop/assets/create-icons.js:65 | concatenated chunks parse back into the same chunks |
| Png.ParseMinimalPng | desktop/assets/create-icons.js:8-66 | after the signature the file is exactly the IHDR, IDAT and IEND chunks with their data |
| Strings.JoinSplitIsReplace | src/features/opencode-skill-loader/config-source-discovery.ts:29 | `split(c).join(d)` replaces every `c` with `d` |
| Strings.JoinSplit | script/publish.ts:40-41 | joining a split on its separator gives the text back |
| Strings.DecimalRoundTrip | script/publish.ts:44-48 | a rendered number reads back as itself |
| Seqs.Dedup | src/plugin-config.ts:103-106 | `[...new Set(xs)]` is duplicate-free and has exactly the elements of `xs` |
| Seqs.DedupPrefix | src/plugin-config.ts:103-106 | deduplicating a concatenation starts with the deduplicated first part |
| Seqs.DedupAppend | src/plugin-config.ts:103-106 | deduplicating `a + b` gives `a`'s values first, then `b`'s values not in `a`, each once, in their first-occurrence order |
| Seqs.SortBy | src/hooks/rules-injector/injector.ts:150 | the sort is a permutation ordered by distance |
| Seqs.SortByStable | src/hooks/rules-injector/injector.ts:150 | the sort is stable: the elements of each distance keep their input order |
| Seqs.RemoveFirst | src/features/background-agent/stale-task-pruner.ts:59-64 | `splice(indexOf(x), 1)` removes the first `x` and keeps the rest in order |
| Seqs.RemoveFirstDistinct | src/features/background-agent/stale-task-pruner.ts:59-64 | in a duplicate-free queue the splice removes the id entirely |

## Left out

- Real time and timers: `Date.now`, `setTimeout`, `setInterval` and `clearTimeout` are a clock parameter and timer entries in maps. Timer callbacks are explicit transitions (`IdleEvaluator.FireIdleDeferral`, `SessionStateStore.PruneSweep`).
- Promise interleaving: each `await` in the idle evaluator is a separate step, taking the task's status at that point and the awaited result as inputs. `cancelTask` and `tryCompleteTask` are recorded as calls; their own effects belong to the concurrency manager and the task manager, which are not part of this model.
- `findBySession`, `getAllDescendantTasks` and the stale-task selection of `task-poller` are parameters that return task ids. An id absent from the registry counts as no match.
- EventRouter.SessionDeletedPreservesValid: it requires that no target of the deletion is a pending task. The router removes a pending task from `tasks` but not from its launch queue, and relies on `cancelTask` for that; `cancelTask` is not part of this model.
- Cleanup.CleanupPreservesValid: it requires that the task is not pending. `cleanupTaskAfterSessionEnds` deletes the task from `tasks` but never touches the launch queues, so tearing down a queued pending task leaves its id in a queue and breaks the invariant that every queued id is a registered task.
- EventRouter.HandleBackgroundEventPreservesValid: it requires that a `session.deleted` event names no pending task among its targets, for the same reason as `EventRouter.SessionDeletedPreservesValid` above: the deletion path removes a pending task from `tasks` but not from its launch queue.
- FinishedAssistantUsage (`TokenUsage.FinishedAssistantUsage`): session, provider and model ids are strings. The hooks test only truthiness, so a truthy non-string `sessionID` or `providerID` (a number, say) is cached by the source under that value and ignored by the model, and a non-string `modelID` is read as absent.
- DeletedSessionId (`TokenUsage.DeletedSessionId`): a truthy non-string `info.id`, which the hooks delete from their maps, names no session here, because the model's session maps are keyed by strings.
- StalePruner.OnTaskPrunedPreservesValid: it requires the pruned task to have no timers. The pruner, unlike teardown, does not clear the timer maps, and `StalePruner.PrunedTimerOutlivesTask` shows the invariant fails without this requirement. A leftover idle-deferral timer re-emits idle for a session whose task is gone, which is then ignored.
- SourceDetector.IsPlannerAgent: lower-casing (`Strings.ToLower`) maps only `A`-`Z`. JavaScript's `toLowerCase` is full Unicode, so names containing characters such as U+212A (Kelvin sign, lower-cased to `k`) or U+0130 can get a different answer.
- ParseMessagesToEntries (`TranscriptCache.ParseMessagesToEntries`): its own contract states when the parse throws and the case with no assistant message; the entries and their order are stated by `TranscriptCache.ParseSingle` and `TranscriptCache.ParseAppend`, and within a message by `TranscriptCache.PartEntriesSingle` and `TranscriptCache.PartEntriesAppend`.
- TranscriptCache.ResponseMessages: it is the intended reading, not the code as written; it differs only on an array response of more than 200 messages (see "## Findings").
- BaseEntries (`TranscriptCache.BaseEntries`): it reads the message list as intended, so it departs from transcript.ts on an array response of more than 200 messages (see "## Findings").
- BuildTranscriptFromSession (`TranscriptCache.BuildTranscriptFromSession`): its fetch path uses the intended `BaseEntries`, so it departs from transcript.ts on an array response of more than 200 messages (see "## Findings").
- Logging (`log`, `console.*`) and the text of log messages are left out, except where the message is itself the output, as in `ServerAuth.LogMessage`.
- Floating point: percentages, `toFixed` and `toLocaleString` in the context monitor are left out, so the reminder's status line is a parameter. The 70% and 78% ratios are compared by integer cross-multiplication. The icon's circle and gradient pixel math (`Math.sqrt`, `Math.round`) and zlib compression are left out; the compressed IDAT bytes are a parameter.
- ContextWindowMonitor.ReminderText: the system directive text comes from `shared/system-directive`, which is not part of this model, so it is a parameter.
- The zod schema, `deepMerge`, `migrateAgentConfig`, `resolvePromptAppend`, `picomatch`, `isGptModel`, `deduplicateSkillsByName`, `loadSkillsFromDir`, `loadSkillFromPath`, `parseRuleFrontmatter`, `findRuleFiles`, `shouldApplyRule`, `createContentHash` and the file system are uninterpreted parameters.
- `rules-injector/matcher.ts` is not part of this model. Duplicate checks are set membership on the session cache.
- The dynamic truncator is a parameter returning the truncated text and a flag. The truncation notice is part of each rule block.
- File I/O in the transcript cache: temp-file names, `writeFileSync` success and `unlinkSync` are parameters or recorded paths. JSON rendering of entries is left out: an entry is the tool-use record it would serialise.
- I18n: the translation table is a parameter rather than the 200-line literal. DOM elements are a sequence of keyed elements; the four attribute kinds are one `attr` tag.
- Publish: `Number(...)` parsing is modelled on digit strings only. Any other component is `NaN`, and a missing one is `undefined`; they render as `NaN` and `undefined`. The registry check, `npm publish`, `git rev-parse` and `gh` are inputs. `fetchPreviousVersion`, `updatePackageVersion`, the changelog and the contributor list are left out because they are I/O on files, the network and git.
- Utf8.Encode: lone surrogates are left out because Dafny's `char` is a Unicode scalar value. Node would encode a lone surrogate as U+FFFD.
- Png.CreateChunk: the chunk type is given as its ASCII bytes, which is what `Buffer.from(type, "ascii")` yields for the four-letter names used.
- Png.CreateMinimalPng: the IDAT payload is a parameter, since zlib is left out. The size limit of `Buffer.alloc` for the pixel buffer (create-icons.js:25) is not modelled: a size whose `(size * 4 + 1) * size` exceeds the runtime's maximum buffer length throws a RangeError in the script, while the model returns the file. The icon-writing part of the script (`fs.writeFileSync`) is left out.
- ServerAuth: which client methods throw, and what `getConfig()` returns, are parameters. The wrapped fetch's network call is left out.
- The session-state store prunes entries by a sweep taken at one instant. The interval's `unref` has no counterpart.

## Findings

| source | as written | input that shows it | evidently intended | confidence | as-written member | corrected member |
|---|---|---|---|---|---|---|
| src/hooks/claude-code-hooks/transcript.ts:175-181 | `response["200"]` is read first even when the response is an array, where `"200"` is the index of the 201st message | an array response of 201 or more messages whose 201st is an object: that one message is taken as the message list, which is not an array, so the base entries are empty and the session history is dropped | `"200"` is the status-keyed member of an object response; an array response is the message list itself | medium, not executed | TranscriptCache.LongArrayResponseDropsHistory | TranscriptCache.ResponseMessages |

=== FILE: agentoverrides.dfy ===
/**
 * Applying a user's agent override to a built-in agent's configuration
 * (agents/builtin-agents/agent-overrides.ts): the category first, then the
 * direct override. `migrateAgentConfig`, `deepMerge`, `resolvePromptAppend`
 * and JavaScript's string coercion are parameters with no assumed behaviour.
 */
module AgentOverrides {
  import opened Base
  import opened Js

  /** An agent configuration, a category configuration or an override: a plain object. */
  type Fields = map<string, JsValue>

  /** The collaborators the file calls into. */
  datatype Env = Env(
    migrate: Fields -> Fields,               // migrateAgentConfig
    deepMerge: (Fields, Fields) -> Fields,   // deepMerge(base, override)
    resolve: (JsValue, Option<string>) -> string,  // resolvePromptAppend(text, directory?)
    toText: JsValue -> string)               // String(v), for `+` and property keys

  /** The category fields copied whenever they are not `undefined`. */
  const CopiedFields: set<string> :=
    {"variant", "temperature", "reasoningEffort", "textVerbosity", "thinking", "top_p", "maxTokens"}

  /** `result[k]` is exactly what `source[k]` was, present or absent. */
  predicate SameField(result: Fields, source: Fields, k: string) {
    (k in result <==> k in source) && (k in source ==> result[k] == source[k])
  }

  /** The category exists, has a truthy `prompt_append`, and the prompt is a string. */
  predicate CategoryAppends(config: Fields, categoryName: string, categories: map<string, Fields>) {
    && categoryName in categories
    && Truthy(Get(JsObj(categories[categoryName]), "prompt_append"))
    && Get(JsObj(config), "prompt").JsStr?
  }

  /** The prompt after the category: extended when `CategoryAppends`, untouched otherwise. */
  predicate PromptAfterCategory(config: Fields, categoryName: string, categories: map<string, Fields>,
                                r: Fields, env: Env) {
    if CategoryAppends(config, categoryName, categories) then
      "prompt" in r && r["prompt"] == JsStr(Get(JsObj(config), "prompt").s + "\n"
                                            + env.resolve(categories[categoryName]["prompt_append"], None))
    else SameField(r, config, "prompt")
  }

  /** The category's value for `k` takes effect: a truthy `model`, or a listed field that is not `undefined`. */
  predicate Takes(category: Fields, k: string) {
    var v := Get(JsObj(category), k);
    (k == "model" && Truthy(v)) || (k in CopiedFields && v != JsUndefined)
  }

  /** The assignments `result.k = categoryConfig.k` for the fields `ks`, in order. */
  function CopyFields(config: Fields, category: Fields, ks: seq<string>): (r: Fields)
    ensures forall k :: k in ks && Takes(category, k) ==> k in r && r[k] == category[k]
    ensures forall k :: !(k in ks && Takes(category, k)) ==> SameField(r, config, k)
  {
    if |ks| == 0 then config
    else
      var k := ks[|ks| - 1];
      var before := CopyFields(config, category, ks[..|ks| - 1]);
      assert forall j :: j in ks ==> j == k || j in ks[..|ks| - 1];
      assert forall j :: j in ks[..|ks| - 1] ==> j in ks;
      if Takes(category, k) then before[k := category[k]] else before
  }

  /**
   * `applyCategoryOverride(config, categoryName, mergedCategories)`: an
   * unknown category changes nothing; a truthy `model` and every other listed
   * field that is not `undefined` overwrite; a truthy `prompt_append` is
   * added on a new line to a string prompt.
   */
  function ApplyCategoryOverride(config: Fields, categoryName: string, categories: map<string, Fields>,
                                 env: Env): (r: Fields)
    ensures categoryName !in categories ==> r == config
    ensures categoryName in categories ==>
              var category := categories[categoryName];
              && (Truthy(Get(JsObj(category), "model")) ==> "model" in r && r["model"] == category["model"])
              && (!Truthy(Get(JsObj(category), "model")) ==> SameField(r, config, "model"))
              && (forall k :: k in CopiedFields && Get(JsObj(category), k) != JsUndefined ==> k in r && r[k] == category[k])
              && (forall k :: k in CopiedFields && Get(JsObj(category), k) == JsUndefined ==> SameField(r, config, k))
    // nothing outside the listed fields and the prompt changes
    ensures forall k :: k !in CopiedFields && k != "model" && k != "prompt" ==> SameField(r, config, k)
    ensures PromptAfterCategory(config, categoryName, categories, r, env)
  {
    if categoryName !in categories then config
    else
      var category := categories[categoryName];
      var copied := CopyFields(config, category, AssignedFields);
      CategoryFields(config, category, env);
      CategoryPrompt(config, category, env);
      AppendCategoryPrompt(copied, category, env)
  }

  /** Every field but the prompt after `applyCategoryOverride` with a known category. */
  lemma CategoryFields(config: Fields, category: Fields, env: Env)
    ensures var r := AppendCategoryPrompt(CopyFields(config, category, AssignedFields), category, env);
            && (Truthy(Get(JsObj(category), "model")) ==> "model" in r && r["model"] == category["model"])
            && (!Truthy(Get(JsObj(category), "model")) ==> SameField(r, config, "model"))
            && (forall k :: k in CopiedFields && Get(JsObj(category), k) != JsUndefined ==> k in r && r[k] == category[k])
            && (forall k :: k in CopiedFields && Get(JsObj(category), k) == JsUndefined ==> SameField(r, config, k))
            && (forall k :: k !in CopiedFields && k != "model" && k != "prompt" ==> SameField(r, config, k))
  {
    CategoryModel(config, category, env);
    CategoryListed(config, category, env);
    CategoryOthers(config, category, env);
  }

  /** The model after `applyCategoryOverride` with a known category. */
  lemma CategoryModel(config: Fields, category: Fields, env: Env)
    ensures var r := AppendCategoryPrompt(CopyFields(config, category, AssignedFields), category, env);
            && (Truthy(Get(JsObj(category), "model")) ==> "model" in r && r["model"] == category["model"])
            && (!Truthy(Get(JsObj(category), "model")) ==> SameField(r, config, "model"))
  {
    ModelAssigned(config, category);
  }

  /** The listed fields after `applyCategoryOverride` with a known category. */
  lemma CategoryListed(config: Fields, category: Fields, env: Env)
    ensures var r := AppendCategoryPrompt(CopyFields(config, category, AssignedFields), category, env);
            && (forall k :: k in CopiedFields && Get(JsObj(category), k) != JsUndefined ==> k in r && r[k] == category[k])
            && (forall k :: k in CopiedFields && Get(JsObj(category), k) == JsUndefined ==> SameField(r, config, k))
  {
    var copied := CopyFields(config, category, AssignedFields);
    var r := AppendCategoryPrompt(copied, category, env);
    ListedAssigned(config, category);
    CopiedNotPrompt();
    forall k | k in CopiedFields ensures SameField(r, copied, k) {
      assert k != "prompt";
    }
  }

  /** The prompt is not one of the copied fields. */
  lemma CopiedNotPrompt()
    ensures forall k :: k in CopiedFields ==> k != "prompt"
  {
  }

  /** The fields `applyCategoryOverride` does not assign, prompt aside. */
  lemma CategoryOthers(config: Fields, category: Fields, env: Env)
    ensures var r := AppendCategoryPrompt(CopyFields(config, category, AssignedFields), category, env);
            forall k :: k !in CopiedFields && k != "model" && k != "prompt" ==> SameField(r, config, k)
  {
    OthersKept(config, category);
  }

  /** The prompt after `applyCategoryOverride` with a known category. */
  lemma CategoryPrompt(config: Fields, category: Fields, env: Env)
    ensures var r := AppendCategoryPrompt(CopyFields(config, category, AssignedFields), category, env);
            && (Truthy(Get(JsObj(category), "prompt_append")) && Get(JsObj(config), "prompt").JsStr? ==>
                  "prompt" in r && r["prompt"] == JsStr(Get(JsObj(config), "prompt").s + "\n"
                                                        + env.resolve(category["prompt_append"], None)))
            && (!(Truthy(Get(JsObj(category), "prompt_append")) && Get(JsObj(config), "prompt").JsStr?) ==>
                  SameField(r, config, "prompt"))
  {
    CopiedAssignedFields(config, category);
  }

  /** The assignments of `applyCategoryOverride` before the prompt line, field by field. */
  lemma CopiedAssignedFields(config: Fields, category: Fields)
    ensures var copied := CopyFields(config, category, AssignedFields);
            && (Truthy(Get(JsObj(category), "model")) ==> "model" in copied && copied["model"] == category["model"])
            && (!Truthy(Get(JsObj(category), "model")) ==> SameField(copied, config, "model"))
            && (forall k :: k in CopiedFields && Get(JsObj(category), k) != JsUndefined ==> k in copied && copied[k] == category[k])
            && (forall k :: k in CopiedFields && Get(JsObj(category), k) == JsUndefined ==> SameField(copied, config, k))
            && (forall k :: k !in CopiedFields && k != "model" ==> SameField(copied, config, k))
            && Get(JsObj(copied), "prompt") == Get(JsObj(config), "prompt")
  {
    var copied := CopyFields(config, category, AssignedFields);
    ModelAssigned(config, category);
    ListedAssigned(config, category);
    OthersKept(config, category);
  }

  /** A truthy category `model` is assigned; otherwise the model is untouched. */
  lemma ModelAssigned(config: Fields, category: Fields)
    ensures var copied := CopyFields(config, category, AssignedFields);
            && (Truthy(Get(JsObj(category), "model")) ==> "model" in copied && copied["model"] == category["model"])
            && (!Truthy(Get(JsObj(category), "model")) ==> SameField(copied, config, "model"))
  {
    assert "model" in AssignedFields;
  }

  /** Each listed field is assigned exactly when the category defines it. */
  lemma ListedAssigned(config: Fields, category: Fields)
    ensures var copied := CopyFields(config, category, AssignedFields);
            && (forall k :: k in CopiedFields && Get(JsObj(category), k) != JsUndefined ==> k in copied && copied[k] == category[k])
            && (forall k :: k in CopiedFields && Get(JsObj(category), k) == JsUndefined ==> SameField(copied, config, k))
  {
    AssignedFieldsAre();
  }

  /** Fields outside the assigned ones, the prompt among them, are untouched. */
  lemma OthersKept(config: Fields, category: Fields)
    ensures var copied := CopyFields(config, category, AssignedFields);
            && (forall k :: k !in CopiedFields && k != "model" ==> SameField(copied, config, k))
            && Get(JsObj(copied), "prompt") == Get(JsObj(config), "prompt")
  {
    AssignedFieldsAre();
  }

  /** The fields `applyCategoryOverride` assigns, in the order it assigns them. */
  const AssignedFields: seq<string> :=
    ["model", "variant", "temperature", "reasoningEffort", "textVerbosity", "thinking", "top_p", "maxTokens"]

  /** The assigned fields are the model and the fields copied when defined; the prompt is not one of them. */
  lemma AssignedFieldsAre()
    ensures forall k :: k in AssignedFields <==> k == "model" || k in CopiedFields
    ensures "prompt" !in AssignedFields && "model" != "prompt"
  {
  }

  /** The prompt line of `applyCategoryOverride`: only a truthy `prompt_append` onto a string prompt. */
  function AppendCategoryPrompt(config: Fields, category: Fields, env: Env): (r: Fields)
    ensures forall k :: k != "prompt" ==> SameField(r, config, k)
    ensures Truthy(Get(JsObj(category), "prompt_append")) && Get(JsObj(config), "prompt").JsStr? ==>
              "prompt" in r && r["prompt"] == JsStr(Get(JsObj(config), "prompt").s + "\n"
                                                    + env.resolve(category["prompt_append"], None))
    ensures !(Truthy(Get(JsObj(category), "prompt_append")) && Get(JsObj(config), "prompt").JsStr?) ==> r == config
  {
    var append := Get(JsObj(category), "prompt_append");
    match Get(JsObj(config), "prompt")
    case JsStr(p) => if Truthy(append) then config["prompt" := JsStr(p + "\n" + env.resolve(append, None))] else config
    case _ => config
  }

  /** `const { prompt_append, ...rest } = override`: everything but `prompt_append`. */
  function WithoutPromptAppend(fields: Fields): (r: Fields)
    ensures "prompt_append" !in r
    ensures forall k :: k != "prompt_append" ==> SameField(r, fields, k)
  {
    fields - {"prompt_append"}
  }

  /**
   * `mergeAgentConfig(base, override, directory)`: the migrated override
   * without `prompt_append` is deep-merged over the base; a truthy
   * `prompt_append` is then added on a new line to a truthy merged prompt.
   */
  function MergeAgentConfig(base: Fields, override: Fields, directory: Option<string>, env: Env): (r: Fields)
    ensures var merged := env.deepMerge(base, WithoutPromptAppend(env.migrate(override)));
            && (forall k :: k != "prompt" ==> SameField(r, merged, k))
            && var append := Get(JsObj(env.migrate(override)), "prompt_append");
            && (Truthy(append) && Truthy(Get(JsObj(merged), "prompt")) ==>
                  "prompt" in r && r["prompt"] == JsStr(PromptText(merged["prompt"], env) + "\n" + env.resolve(append, directory)))
            && (!(Truthy(append) && Truthy(Get(JsObj(merged), "prompt"))) ==> r == merged)
  {
    var migrated := env.migrate(override);
    var merged := env.deepMerge(base, WithoutPromptAppend(migrated));
    var append := Get(JsObj(migrated), "prompt_append");
    var prompt := Get(JsObj(merged), "prompt");
    if Truthy(append) && Truthy(prompt) then
      merged["prompt" := JsStr(PromptText(prompt, env) + "\n" + env.resolve(append, directory))]
    else merged
  }

  /** A prompt as `+` reads it: a string as itself, anything else through `String(v)`. */
  function PromptText(v: JsValue, env: Env): string {
    if v.JsStr? then v.s else env.toText(v)
  }

  /** The property key `mergedCategories[category]` looks up. */
  function CategoryKey(v: JsValue, env: Env): string {
    if v.JsStr? then v.s else env.toText(v)
  }

  /**
   * `applyOverrides(config, override, mergedCategories, directory)`: the
   * category named by a truthy `override.category` first, then the override
   * itself.
   */
  function ApplyOverrides(config: Fields, override: Option<Fields>, categories: map<string, Fields>,
                          directory: Option<string>, env: Env): (r: Fields)
    ensures override.None? ==> r == config
    ensures override.Some? && !Truthy(Get(JsObj(override.value), "category")) ==>
              r == MergeAgentConfig(config, override.value, directory, env)
    ensures override.Some? && Truthy(Get(JsObj(override.value), "category")) ==>
              r == MergeAgentConfig(
                     ApplyCategoryOverride(config, CategoryKey(override.value["category"], env), categories, env),
                     override.value, directory, env)
  {
    match override
    case None => config
    case Some(o) =>
      var category := Get(JsObj(o), "category");
      var afterCategory := if Truthy(category) then ApplyCategoryOverride(config, CategoryKey(category, env), categories, env)
                           else config;
      MergeAgentConfig(afterCategory, o, directory, env)
  }

  /** `deepMerge` lets the override's non-object leaves win. */
  ghost predicate OverrideLeavesWin(deepMerge: (Fields, Fields) -> Fields) {
    forall a: Fields, b: Fields, k: string ::
      k in b && !IsRecord(b[k]) ==> k in deepMerge(a, b) && deepMerge(a, b)[k] == b[k]
  }

  /** `deepMerge` keeps every base key the override does not mention. */
  ghost predicate KeepsBaseKeys(deepMerge: (Fields, Fields) -> Fields) {
    forall a: Fields, b: Fields, k: string ::
      k in a && k !in b ==> k in deepMerge(a, b) && deepMerge(a, b)[k] == a[k]
  }

  /**
   * Direct fields win over the category: a non-object value the migrated
   * override sets for any field but the prompt is the final value, whatever
   * the category said.
   */
  lemma DirectOverrideWins(config: Fields, o: Fields, categories: map<string, Fields>,
                           directory: Option<string>, env: Env, k: string)
    requires OverrideLeavesWin(env.deepMerge)
    requires k != "prompt" && k != "prompt_append"
    requires k in env.migrate(o) && !IsRecord(env.migrate(o)[k])
    ensures var r := ApplyOverrides(config, Some(o), categories, directory, env);
            k in r && r[k] == env.migrate(o)[k]
  {
    var category := Get(JsObj(o), "category");
    var afterCategory := if Truthy(category) then ApplyCategoryOverride(config, CategoryKey(category, env), categories, env)
                         else config;
    var rest := WithoutPromptAppend(env.migrate(o));
    assert k in rest && rest[k] == env.migrate(o)[k];
    assert env.deepMerge(afterCategory, rest)[k] == rest[k];
  }

  /** A category's truthy model survives when the override does not set one. */
  lemma CategoryModelSurvives(config: Fields, o: Fields, categories: map<string, Fields>,
                              directory: Option<string>, env: Env)
    requires KeepsBaseKeys(env.deepMerge)
    requires "category" in o && o["category"].JsStr? && o["category"].s != ""
    requires o["category"].s in categories && Truthy(Get(JsObj(categories[o["category"].s]), "model"))
    requires "model" !in env.migrate(o)
    ensures var r := ApplyOverrides(config, Some(o), categories, directory, env);
            "model" in r && r["model"] == categories[o["category"].s]["model"]
  {
    var name := o["category"].s;
    var afterCategory := ApplyCategoryOverride(config, name, categories, env);
    NamedCategoryApplied(config, o, categories, directory, env);
    CategoryModel(config, categories[name], env);
    MergeKeepsField(afterCategory, o, directory, env, "model");
  }

  /** An override naming a category by a non-empty string applies that category before merging. */
  lemma NamedCategoryApplied(config: Fields, o: Fields, categories: map<string, Fields>,
                             directory: Option<string>, env: Env)
    requires "category" in o && o["category"].JsStr? && o["category"].s != ""
    ensures ApplyOverrides(config, Some(o), categories, directory, env)
            == MergeAgentConfig(ApplyCategoryOverride(config, o["category"].s, categories, env), o, directory, env)
  {
    assert CategoryKey(o["category"], env) == o["category"].s;
  }

  /** A field of the base the override does not set, other than the prompt, survives the merge. */
  lemma MergeKeepsField(base: Fields, o: Fields, directory: Option<string>, env: Env, k: string)
    requires KeepsBaseKeys(env.deepMerge)
    requires k != "prompt" && k in base && k !in env.migrate(o)
    ensures k in MergeAgentConfig(base, o, directory, env) && MergeAgentConfig(base, o, directory, env)[k] == base[k]
  {
    var rest := WithoutPromptAppend(env.migrate(o));
    assert k !in rest;
    var merged := env.deepMerge(base, rest);
    assert k in merged && merged[k] == base[k];
  }

  /** `prompt_append` never lands as a field when neither the base nor the merge invents it. */
  lemma PromptAppendNeverMerged(base: Fields, override: Fields, directory: Option<string>, env: Env)
    requires forall a: Fields, b: Fields :: env.deepMerge(a, b).Keys <= a.Keys + b.Keys
    requires "prompt_append" !in base
    ensures "prompt_append" !in MergeAgentConfig(base, override, directory, env)
  {
    var rest := WithoutPromptAppend(env.migrate(override));
    assert env.deepMerge(base, rest).Keys <= base.Keys + rest.Keys;
  }
}

=== FILE: agentresolver.dfy ===
/**
 * Resolving a session's agent from its message history
 * (plugin/session-agent-resolver.ts). The `session.messages` call is a
 * parameter: its response, or `Thrown` when the call fails.
 */
module SessionAgentResolver {
  import opened Base
  import opened Js

  /** `msg.info?.agent` */
  function AgentOf(msg: JsValue): JsValue {
    Get(Get(msg, "info"), "agent")
  }

  /** The loop reaches `msg` and reads an agent from it. */
  predicate CarriesAgent(msg: JsValue) {
    !Nullish(msg) && Truthy(AgentOf(msg))
  }

  /** Message `i` is the first carrying an agent, and every message before it is reached without throwing. */
  predicate AgentFoundAt(messages: seq<JsValue>, i: int) {
    0 <= i < |messages| && CarriesAgent(messages[i])
    && forall j :: 0 <= j < i ==> !Nullish(messages[j]) && !CarriesAgent(messages[j])
  }

  /** Message `i` is `null` or `undefined` and no message before it carries an agent. */
  predicate ThrowsAt(messages: seq<JsValue>, i: int) {
    0 <= i < |messages| && Nullish(messages[i])
    && forall j :: 0 <= j < i ==> !CarriesAgent(messages[j])
  }

  /**
   * The `for ... of` loop over the messages: the first truthy `info.agent`; a
   * `null` or `undefined` message throws on `msg.info` before any later message
   * is looked at.
   */
  function FirstAgent(messages: seq<JsValue>): (r: Result<Option<JsValue>>)
    ensures r.Ok? && r.value.Some? ==> exists i :: AgentFoundAt(messages, i) && r.value.value == AgentOf(messages[i])
    ensures r.Ok? && r.value.None? ==> forall i :: 0 <= i < |messages| ==> !Nullish(messages[i]) && !CarriesAgent(messages[i])
    ensures r.Thrown? ==> exists i :: ThrowsAt(messages, i)
    decreases |messages|
  {
    if |messages| == 0 then Ok(None)
    else if Nullish(messages[0]) then
      assert ThrowsAt(messages, 0);
      Thrown
    else if Truthy(AgentOf(messages[0])) then
      assert AgentFoundAt(messages, 0);
      Ok(Some(AgentOf(messages[0])))
    else
      var rest := FirstAgent(messages[1..]);
      ShiftWitnesses(messages, rest);
      rest
  }

  /** What the loop finds in the tail it finds in the whole, one position further on. */
  lemma ShiftWitnesses(messages: seq<JsValue>, rest: Result<Option<JsValue>>)
    requires |messages| > 0 && !Nullish(messages[0]) && !CarriesAgent(messages[0])
    requires rest.Ok? && rest.value.Some? ==>
               exists i :: AgentFoundAt(messages[1..], i) && rest.value.value == AgentOf(messages[1..][i])
    requires rest.Ok? && rest.value.None? ==>
               forall i :: 0 <= i < |messages[1..]| ==> !Nullish(messages[1..][i]) && !CarriesAgent(messages[1..][i])
    requires rest.Thrown? ==> exists i :: ThrowsAt(messages[1..], i)
    ensures rest.Ok? && rest.value.Some? ==> exists i :: AgentFoundAt(messages, i) && rest.value.value == AgentOf(messages[i])
    ensures rest.Ok? && rest.value.None? ==> forall i :: 0 <= i < |messages| ==> !Nullish(messages[i]) && !CarriesAgent(messages[i])
    ensures rest.Thrown? ==> exists i :: ThrowsAt(messages, i)
  {
    var tail := messages[1..];
    if rest.Ok? && rest.value.Some? {
      var i :| AgentFoundAt(tail, i) && rest.value.value == AgentOf(tail[i]);
      assert forall j :: 1 <= j <= i ==> messages[j] == tail[j - 1];
      assert AgentFoundAt(messages, i + 1);
    }
    if rest.Ok? && rest.value.None? {
      assert forall i :: 1 <= i < |messages| ==> messages[i] == tail[i - 1];
    }
    if rest.Thrown? {
      var i :| ThrowsAt(tail, i);
      assert forall j :: 1 <= j <= i ==> messages[j] == tail[j - 1];
      assert ThrowsAt(messages, i + 1);
    }
  }

  /**
   * `resolveSessionAgent(client, sessionId)`: the agent of the first message
   * carrying one; `undefined` when none does, when `data` is missing, and when
   * anything throws. `data` that is neither an array nor nullish either throws
   * on iteration or iterates values without an `info`, so it yields no agent.
   */
  function ResolveSessionAgent(response: Result<JsValue>): (r: Option<JsValue>)
    ensures response.Thrown? ==> r.None?
    ensures response.Ok? && Nullish(Get(response.value, "data")) ==> r.None?
    ensures r.Some? ==>
              && response.Ok?
              && var data := Get(response.value, "data");
              && data.JsArr?
              && exists i :: AgentFoundAt(data.items, i) && r.value == AgentOf(data.items[i])
    // an agent-carrying message that is reached is always reported
    ensures (&& response.Ok? && !Nullish(response.value) && Get(response.value, "data").JsArr?
             && exists i :: AgentFoundAt(Get(response.value, "data").items, i)) ==> r.Some?
  {
    match response
    case Thrown => None
    case Ok(resp) =>
      if Nullish(resp) then None
      else
        var data := Get(resp, "data");
        if !data.JsArr? then None
        else
          match FirstAgent(data.items)
          case Ok(agent) => agent
          case Thrown => None
  }

  /** Messages after the first one carrying an agent never change the answer. */
  lemma {:induction false} LaterMessagesIgnored(first: seq<JsValue>, later: seq<JsValue>)
    requires FirstAgent(first).Ok? && FirstAgent(first).value.Some?
    ensures FirstAgent(first + later) == FirstAgent(first)
    decreases |first|
  {
    assert (first + later)[0] == first[0];
    if !Nullish(first[0]) && !Truthy(AgentOf(first[0])) {
      assert (first + later)[1..] == first[1..] + later;
      LaterMessagesIgnored(first[1..], later);
    }
  }
}

=== FILE: base.dfy ===
/** Optional values and results shared by every module of the model. */
module Base {

  /** A JavaScript `T | undefined`. */
  datatype Option<+T> = None | Some(value: T) {

    /** The wrapped value, or `default` when absent (JavaScript `??`). */
    function GetOr(default: T): T {
      match this
      case Some(v) => v
      case None => default
    }
  }

  /** The outcome of a call that may throw or reject. */
  datatype Result<+T> = Ok(value: T) | Thrown

  /** An octet of a `Buffer` or `Uint8Array`. */
  type Byte = b: int | 0 <= b < 256

  /** The outcome of an awaited `Promise<boolean>`. */
  datatype AsyncBool = Resolved(b: bool) | Rejected
}

=== FILE: base64.dfy ===
/**
 * The padded Base 64 encoding of section 4 of RFC 4648, as
 * `buffer.toString("base64")` produces it: every three bytes become four
 * characters of the 64-letter alphabet, and a final group of one or two
 * bytes is padded with `=` to four characters.
 */
module Base64 {
  import opened Base

  /** A six-bit group. */
  type Sextet = n: int | 0 <= n < 64

  /** The alphabet of table 1 of RFC 4648: `A`–`Z`, `a`–`z`, `0`–`9`, `+`, `/`. */
  function Symbol(n: Sextet): (c: char)
    ensures c != '='
  {
    if n < 26 then ('A' as int + n) as char
    else if n < 52 then ('a' as int + n - 26) as char
    else if n < 62 then ('0' as int + n - 52) as char
    else if n == 62 then '+'
    else '/'
  }

  /** The value of an alphabet character. */
  function SymbolValue(c: char): (r: Option<Sextet>)
    ensures r.Some? ==> Symbol(r.value) == c
  {
    if 'A' <= c <= 'Z' then Some(c as int - 'A' as int)
    else if 'a' <= c <= 'z' then Some(c as int - 'a' as int + 26)
    else if '0' <= c <= '9' then Some(c as int - '0' as int + 52)
    else if c == '+' then Some(62)
    else if c == '/' then Some(63)
    else None
  }

  /** Each symbol reads back as its value. */
  lemma SymbolRoundTrip(n: Sextet)
    ensures SymbolValue(Symbol(n)) == Some(n)
  {
  }

  /** The encoding. */
  function Encode(bs: seq<Byte>): (r: string)
    ensures |r| == 0 <==> |bs| == 0
    decreases |bs|
  {
    if |bs| == 0 then ""
    else if |bs| == 1 then
      [Symbol(bs[0] / 4), Symbol((bs[0] % 4) * 16), '=', '=']
    else if |bs| == 2 then
      [Symbol(bs[0] / 4), Symbol((bs[0] % 4) * 16 + bs[1] / 16), Symbol((bs[1] % 16) * 4), '=']
    else Group(bs[0], bs[1], bs[2]) + Encode(bs[3..])
  }

  /** Four characters for every started group of three bytes. */
  lemma {:induction false} EncodeLength(bs: seq<Byte>)
    ensures |Encode(bs)| == 4 * ((|bs| + 2) / 3)
    decreases |bs|
  {
    if |bs| >= 3 {
      EncodeLength(bs[3..]);
      assert (|bs| + 2) / 3 == (|bs[3..]| + 2) / 3 + 1;
    }
  }

  /** The four characters of a full three-byte group. */
  function Group(b0: Byte, b1: Byte, b2: Byte): (r: string)
    ensures |r| == 4 && '=' !in r
  {
    [Symbol(b0 / 4), Symbol((b0 % 4) * 16 + b1 / 16), Symbol((b1 % 16) * 4 + b2 / 64), Symbol(b2 % 64)]
  }

  /** The three bytes four sextets carry. */
  function Bytes(i0: Sextet, i1: Sextet, i2: Sextet, i3: Sextet): seq<Byte> {
    [i0 * 4 + i1 / 16, (i1 % 16) * 16 + i2 / 4, (i2 % 4) * 64 + i3]
  }

  /** Decoding: four characters at a time, `=` only in the last group; `None` when malformed. */
  function Decode(s: string): (r: Option<seq<Byte>>)
    decreases |s|
  {
    if |s| == 0 then Some([])
    else if |s| < 4 then None
    else
      var v0, v1, v2, v3 := SymbolValue(s[0]), SymbolValue(s[1]), SymbolValue(s[2]), SymbolValue(s[3]);
      if v0.None? || v1.None? then None
      else if s[2] == '=' && s[3] == '=' then
        if |s| == 4 then Some(Bytes(v0.value, v1.value, 0, 0)[..1]) else None
      else if v2.None? then None
      else if s[3] == '=' then
        if |s| == 4 then Some(Bytes(v0.value, v1.value, v2.value, 0)[..2]) else None
      else if v3.None? then None
      else
        match Decode(s[4..])
        case None => None
        case Some(rest) => Some(Bytes(v0.value, v1.value, v2.value, v3.value) + rest)
  }

  /** The sextets of a group regroup into its bytes. */
  lemma RegroupThree(b0: Byte, b1: Byte, b2: Byte)
    ensures Bytes(b0 / 4, (b0 % 4) * 16 + b1 / 16, (b1 % 16) * 4 + b2 / 64, b2 % 64) == [b0, b1, b2]
  {
    var i1 := (b0 % 4) * 16 + b1 / 16;
    assert i1 / 16 == b0 % 4 && i1 % 16 == b1 / 16;
    var i2 := (b1 % 16) * 4 + b2 / 64;
    assert i2 / 4 == b1 % 16 && i2 % 4 == b2 / 64;
  }

  /** The sextets of a two-byte group regroup into its bytes. */
  lemma RegroupTwo(b0: Byte, b1: Byte)
    ensures Bytes(b0 / 4, (b0 % 4) * 16 + b1 / 16, (b1 % 16) * 4, 0)[..2] == [b0, b1]
  {
    var i1 := (b0 % 4) * 16 + b1 / 16;
    assert i1 / 16 == b0 % 4 && i1 % 16 == b1 / 16;
    var i2 := (b1 % 16) * 4;
    assert i2 / 4 == b1 % 16;
  }

  /** A full group decodes to its three bytes, followed by what the rest decodes to. */
  lemma DecodeGroup(b0: Byte, b1: Byte, b2: Byte, rest: string, tail: seq<Byte>)
    requires Decode(rest) == Some(tail)
    ensures Decode(Group(b0, b1, b2) + rest) == Some([b0, b1, b2] + tail)
  {
    var g := Group(b0, b1, b2);
    var s := g + rest;
    SymbolRoundTrip(b0 / 4);
    SymbolRoundTrip((b0 % 4) * 16 + b1 / 16);
    SymbolRoundTrip((b1 % 16) * 4 + b2 / 64);
    SymbolRoundTrip(b2 % 64);
    RegroupThree(b0, b1, b2);
    assert s[..4] == g && s[4..] == rest;
    assert s[2] != '=' && s[3] != '=';
  }

  /** A final single byte decodes from its two symbols and `==`. */
  lemma DecodeOne(b0: Byte)
    ensures Decode(Encode([b0])) == Some([b0])
  {
    SymbolRoundTrip(b0 / 4);
    SymbolRoundTrip((b0 % 4) * 16);
    var e := Encode([b0]);
    assert e == [Symbol(b0 / 4), Symbol((b0 % 4) * 16), '=', '='];
    assert Bytes(b0 / 4, (b0 % 4) * 16, 0, 0)[0] == b0;
    assert Bytes(b0 / 4, (b0 % 4) * 16, 0, 0)[..1] == [b0];
    assert |e| == 4 && e[2] == '=' && e[3] == '=';
    assert SymbolValue(e[0]) == Some(b0 / 4) && SymbolValue(e[1]) == Some((b0 % 4) * 16);
    assert Decode(e) == Some(Bytes(b0 / 4, (b0 % 4) * 16, 0, 0)[..1]);
  }

  /** A final pair of bytes decodes from its three symbols and `=`. */
  lemma DecodeTwo(b0: Byte, b1: Byte)
    ensures Decode(Encode([b0, b1])) == Some([b0, b1])
  {
    SymbolRoundTrip(b0 / 4);
    SymbolRoundTrip((b0 % 4) * 16 + b1 / 16);
    SymbolRoundTrip((b1 % 16) * 4);
    RegroupTwo(b0, b1);
    var e := Encode([b0, b1]);
    assert e[2] == Symbol((b1 % 16) * 4) && e[2] != '=' && e[3] == '=' && |e| == 4;
  }

  /** Decoding the encoding gives the bytes back. */
  lemma {:induction false} DecodeEncode(bs: seq<Byte>)
    ensures Decode(Encode(bs)) == Some(bs)
    decreases |bs|
  {
    if 1 <= |bs| <= 2 {
      DecodeEncodeTail(bs);
    } else if |bs| >= 3 {
      DecodeEncode(bs[3..]);
      SplitGroup(bs);
      EncodeGroupAppend(bs[0], bs[1], bs[2], bs[3..]);
      DecodeGroup(bs[0], bs[1], bs[2], Encode(bs[3..]), bs[3..]);
    }
  }

  /** A final group of one or two bytes decodes back. */
  lemma DecodeEncodeTail(bs: seq<Byte>)
    requires 1 <= |bs| <= 2
    ensures Decode(Encode(bs)) == Some(bs)
  {
    if |bs| == 1 {
      assert bs == [bs[0]];
      DecodeOne(bs[0]);
    } else {
      assert bs == [bs[0], bs[1]];
      DecodeTwo(bs[0], bs[1]);
    }
  }

  /** Three leading bytes are encoded as one group ahead of the rest. */
  lemma EncodeGroupAppend(b0: Byte, b1: Byte, b2: Byte, tail: seq<Byte>)
    ensures Encode([b0, b1, b2] + tail) == Group(b0, b1, b2) + Encode(tail)
  {
    assert ([b0, b1, b2] + tail)[3..] == tail;
  }

  /** A sequence of at least three bytes is its first three followed by the rest. */
  lemma SplitGroup(bs: seq<Byte>)
    requires |bs| >= 3
    ensures bs == [bs[0], bs[1], bs[2]] + bs[3..]
  {
  }

  /** The encoding uses only the alphabet and `=`, and `=` only at the end. */
  lemma {:induction false} EncodeAlphabet(bs: seq<Byte>)
    ensures forall k :: 0 <= k < |Encode(bs)| && Encode(bs)[k] != '=' ==> SymbolValue(Encode(bs)[k]).Some?
    ensures forall k :: 0 <= k < |Encode(bs)| - 2 ==> Encode(bs)[k] != '='
    decreases |bs|
  {
    if |bs| >= 3 {
      EncodeAlphabet(bs[3..]);
      var e := Encode(bs);
      var t := Encode(bs[3..]);
      assert forall k :: 4 <= k < |e| ==> e[k] == t[k - 4];
      forall n: Sextet ensures SymbolValue(Symbol(n)).Some? {
        SymbolRoundTrip(n);
      }
    } else if |bs| > 0 {
      forall n: Sextet ensures SymbolValue(Symbol(n)).Some? {
        SymbolRoundTrip(n);
      }
    }
  }
}

=== FILE: cleanup.dfy ===
/**
 * The teardown every terminal transition of a background task runs
 * (session-task-cleanup.ts): cancel its timers, hand its concurrency key back,
 * notify the pending-by-parent and notification stores, and drop it from the
 * registry and the sub-agent session index.
 */
module Cleanup {
  import opened Base
  import opened Js
  import opened Tasks

  /** The new maps, the task object as the routine leaves it, and the calls made. */
  datatype Teardown = Teardown(state: Scheduler, task: Task, effects: seq<Effect>)

  /** `cleanupTaskAfterSessionEnds`; `hasReleaser` says whether `releaseConcurrencyKey` was supplied. */
  function CleanupTaskAfterSessionEnds(s: Scheduler, task: Task, hasReleaser: bool): (r: Teardown)
    // both timer maps forget the task
    ensures task.id !in r.state.completionTimers && task.id !in r.state.idleDeferralTimers
    ensures r.state.completionTimers == s.completionTimers - {task.id}
    ensures r.state.idleDeferralTimers == s.idleDeferralTimers - {task.id}
    // the key is released exactly when it is held and a releaser exists, and is then cleared
    ensures Releases(r.effects) == if HoldsKey(task) && hasReleaser then [task.concurrencyKey.value] else []
    ensures hasReleaser ==> !HoldsKey(r.task)
    ensures !HoldsKey(task) || !hasReleaser ==> r.task == task
    ensures r.task == task.(concurrencyKey := r.task.concurrencyKey)
    // the collaborators are told on every call
    ensures CleanupPendingByParent(task.id) in r.effects
    ensures Cleared(r.effects) == [task.id]
    ensures Cancels(r.effects) == []
    // registry and session index forget the task; nothing else changes
    ensures r.state.tasks == s.tasks - {task.id}
    ensures r.state.subagentSessions ==
              if NonEmpty(task.sessionID) then s.subagentSessions - {task.sessionID.value} else s.subagentSessions
    ensures r.state.queuesByKey == s.queuesByKey
  {
    var release := HoldsKey(task) && hasReleaser;
    var task' := if release then task.(concurrencyKey := None) else task;
    var calls := (if release then [ReleaseKey(task.concurrencyKey.GetOr(""))] else [])
                 + [CleanupPendingByParent(task.id), ClearNotifications(task.id)];
    var sessions := if NonEmpty(task.sessionID) then s.subagentSessions - {task.sessionID.value}
                    else s.subagentSessions;
    var s' := s.(completionTimers := s.completionTimers - {task.id},
                 idleDeferralTimers := s.idleDeferralTimers - {task.id},
                 tasks := s.tasks - {task.id},
                 subagentSessions := sessions);
    TeardownCalls(release, task.concurrencyKey.GetOr(""), task.id, task.id);
    Teardown(s', task', calls)
  }

  /**
   * What a teardown's call trace says about releases, cancels and notification
   * clearing; the pending-by-parent and notification calls may name different ids.
   */
  lemma TeardownCalls(release: bool, key: string, parentId: TaskId, clearedId: TaskId)
    ensures var calls := (if release then [ReleaseKey(key)] else [])
                         + [CleanupPendingByParent(parentId), ClearNotifications(clearedId)];
            && Releases(calls) == (if release then [key] else [])
            && Cancels(calls) == []
            && Cleared(calls) == [clearedId]
  {
    var releaseCalls := if release then [ReleaseKey(key)] else [];
    ProjectionsAppend(releaseCalls, [CleanupPendingByParent(parentId)] + [ClearNotifications(clearedId)]);
    ProjectionsAppend([CleanupPendingByParent(parentId)], [ClearNotifications(clearedId)]);
    ProjectionsSingle(CleanupPendingByParent(parentId));
    ProjectionsSingle(ClearNotifications(clearedId));
    ProjectionsSingle(ReleaseKey(key));
    assert [CleanupPendingByParent(parentId), ClearNotifications(clearedId)]
        == [CleanupPendingByParent(parentId)] + [ClearNotifications(clearedId)];
  }

  /** A second teardown of the same task object changes no map and releases nothing. */
  lemma CleanupIdempotent(s: Scheduler, task: Task, hasReleaser: bool)
    ensures var first := CleanupTaskAfterSessionEnds(s, task, hasReleaser);
            var second := CleanupTaskAfterSessionEnds(first.state, first.task, hasReleaser);
            && second.state == first.state
            && second.task == first.task
            && Releases(second.effects) == []
  {
    var first := CleanupTaskAfterSessionEnds(s, task, hasReleaser);
    var second := CleanupTaskAfterSessionEnds(first.state, first.task, hasReleaser);
    assert first.task.id == task.id;
    assert first.task.sessionID == task.sessionID;
  }

  /** Teardown keeps the scheduler invariant, provided the task is not sitting in a launch queue. */
  lemma CleanupPreservesValid(s: Scheduler, task: Task, hasReleaser: bool)
    requires Valid(s)
    requires task.id in s.tasks ==> s.tasks[task.id].status != Pending
    ensures Valid(CleanupTaskAfterSessionEnds(s, task, hasReleaser).state)
  {
    var s' := CleanupTaskAfterSessionEnds(s, task, hasReleaser).state;
    forall k | k in s'.queuesByKey
      ensures forall i :: 0 <= i < |s'.queuesByKey[k]| ==> s'.queuesByKey[k][i] in s'.tasks
    {
      forall i | 0 <= i < |s'.queuesByKey[k]|
        ensures s'.queuesByKey[k][i] in s'.tasks
      {
        assert s.tasks[s.queuesByKey[k][i]].status == Pending;
      }
    }
  }
}

=== FILE: compaction.dfy ===
/**
 * The preemptive-compaction hook (preemptive-compaction.ts): after each tool
 * call, a session whose cached input usage reaches 78% of its context limit is
 * summarized once. The awaited `summarize` call splits the handler into a
 * start step and a finish step that receives the call's outcome.
 */
module PreemptiveCompaction {
  import opened Base
  import opened Js
  import opened TokenUsage

  const ThresholdPercent: int := 78

  /** A cached `message.updated` reading: provider, model (`""` when absent) and token usage. */
  datatype CachedUsage = CachedUsage(providerID: string, modelID: string, tokens: JsValue)

  datatype CompactionState = CompactionState(
    inProgress: set<string>,
    compacted: set<string>,
    tokenCache: map<string, CachedUsage>)

  /** The hook as created: nothing in progress, nothing compacted, nothing cached. */
  function Initial(): (st: CompactionState)
    ensures st.inProgress == {} && st.compacted == {} && st.tokenCache == map[]
  {
    CompactionState({}, {}, map[])
  }

  /** The `summarize` request the hook issues. */
  datatype Summarize = Summarize(sessionID: string, providerID: string, modelID: string)

  datatype Started = Started(state: CompactionState, request: Option<Summarize>)

  /** The cached usage of a session has reached the compaction threshold of its provider's limit. */
  predicate OverThreshold(c: CachedUsage, oneMillionContext: bool) {
    AtLeastPercent(TotalInput(c.tokens), ActualLimit(c.providerID, oneMillionContext), ThresholdPercent)
  }

  /** `tool.execute.after` up to the awaited `summarize` call. */
  function StartCompaction(st: CompactionState, sessionID: string, oneMillionContext: bool): (r: Started)
    // summarize is requested exactly for a fresh session with cached usage over the threshold and a model id
    ensures r.request.Some? <==>
              && sessionID !in st.compacted && sessionID !in st.inProgress
              && sessionID in st.tokenCache
              && OverThreshold(st.tokenCache[sessionID], oneMillionContext)
              && st.tokenCache[sessionID].modelID != ""
    ensures r.request.Some? ==>
              && r.request.value == Summarize(sessionID, st.tokenCache[sessionID].providerID,
                                              st.tokenCache[sessionID].modelID)
              && r.state == st.(inProgress := st.inProgress + {sessionID})
    ensures r.request.None? ==> r.state == st
  {
    if sessionID in st.compacted || sessionID in st.inProgress then Started(st, None)
    else if sessionID !in st.tokenCache then Started(st, None)
    else
      var cached := st.tokenCache[sessionID];
      if !OverThreshold(cached, oneMillionContext) then Started(st, None)
      else if cached.modelID == "" then Started(st, None)
      else Started(st.(inProgress := st.inProgress + {sessionID}),
                   Some(Summarize(sessionID, cached.providerID, cached.modelID)))
  }

  /** The `try`/`finally` after `summarize` settles: compacted only on success, never still in progress. */
  function FinishCompaction(st: CompactionState, sessionID: string, succeeded: bool): (r: CompactionState)
    ensures sessionID !in r.inProgress
    ensures r.inProgress == st.inProgress - {sessionID}
    ensures r.compacted == if succeeded then st.compacted + {sessionID} else st.compacted
    ensures r.tokenCache == st.tokenCache
  {
    var compacted := if succeeded then st.compacted + {sessionID} else st.compacted;
    st.(inProgress := st.inProgress - {sessionID}, compacted := compacted)
  }

  /** `session.deleted`: the session is forgotten by all three structures. */
  function OnSessionDeleted(st: CompactionState, props: JsValue): (r: CompactionState)
    ensures DeletedSessionId(props).None? ==> r == st
    ensures DeletedSessionId(props).Some? ==>
              var id := DeletedSessionId(props).value;
              && id !in r.inProgress && id !in r.compacted && id !in r.tokenCache
              && r.inProgress == st.inProgress - {id}
              && r.compacted == st.compacted - {id}
              && r.tokenCache == st.tokenCache - {id}
  {
    match DeletedSessionId(props)
    case None => st
    case Some(id) =>
      CompactionState(st.inProgress - {id}, st.compacted - {id}, st.tokenCache - {id})
  }

  /** `message.updated`: a finished assistant message overwrites its session's cached usage. */
  function OnMessageUpdated(st: CompactionState, props: JsValue): (r: CompactionState)
    ensures r.inProgress == st.inProgress && r.compacted == st.compacted
    ensures FinishedAssistantUsage(props).None? ==> r == st
    ensures FinishedAssistantUsage(props).Some? ==>
              var u := FinishedAssistantUsage(props).value;
              r.tokenCache == st.tokenCache[u.sessionID := CachedUsage(u.providerID, u.modelID.GetOr(""), u.tokens)]
  {
    match FinishedAssistantUsage(props)
    case None => st
    case Some(u) =>
      st.(tokenCache := st.tokenCache[u.sessionID := CachedUsage(u.providerID, u.modelID.GetOr(""), u.tokens)])
  }

  /** The hook's event handler: only the two event types it knows change anything. */
  function HandleEvent(st: CompactionState, kind: string, props: JsValue): (r: CompactionState)
    ensures kind != "session.deleted" && kind != "message.updated" ==> r == st
    ensures kind == "session.deleted" ==> r.tokenCache.Keys <= st.tokenCache.Keys
    ensures kind == "message.updated" ==> r.inProgress == st.inProgress && r.compacted == st.compacted
    // a deletion forgets the session everywhere; a finished assistant message refreshes its usage
    ensures kind == "session.deleted" && DeletedSessionId(props).Some? ==>
              var id := DeletedSessionId(props).value;
              && r.inProgress == st.inProgress - {id}
              && r.compacted == st.compacted - {id}
              && r.tokenCache == st.tokenCache - {id}
    ensures kind == "message.updated" && FinishedAssistantUsage(props).Some? ==>
              var u := FinishedAssistantUsage(props).value;
              r.tokenCache == st.tokenCache[u.sessionID := CachedUsage(u.providerID, u.modelID.GetOr(""), u.tokens)]
    ensures ((kind == "session.deleted" && DeletedSessionId(props).None?)
             || (kind == "message.updated" && FinishedAssistantUsage(props).None?)) ==> r == st
  {
    if kind == "session.deleted" then OnSessionDeleted(st, props)
    else if kind == "message.updated" then OnMessageUpdated(st, props)
    else st
  }

  /** While a summarize call is outstanding, no second one starts for the same session. */
  lemma NoConcurrentCompaction(st: CompactionState, sessionID: string, oneMillionContext: bool)
    requires StartCompaction(st, sessionID, oneMillionContext).request.Some?
    ensures var again := StartCompaction(StartCompaction(st, sessionID, oneMillionContext).state,
                                         sessionID, oneMillionContext);
            again.request.None?
  {
  }

  /**
   * Once a summarize call has succeeded, later tool calls never compact the session
   * again, whatever usage the cache holds, until the session is deleted.
   */
  lemma {:induction false} CompactedStaysCompacted(st: CompactionState, sessionID: string, oneMillionContext: bool,
                                                  events: seq<(string, JsValue)>)
    requires sessionID in st.compacted
    requires forall i :: 0 <= i < |events| ==>
               events[i].0 == "session.deleted" ==> DeletedSessionId(events[i].1) != Some(sessionID)
    ensures sessionID in ReplayEvents(st, events).compacted
    ensures StartCompaction(ReplayEvents(st, events), sessionID, oneMillionContext).request.None?
    decreases |events|
  {
    if |events| > 0 {
      var next := HandleEvent(st, events[0].0, events[0].1);
      assert sessionID in next.compacted;
      CompactedStaysCompacted(next, sessionID, oneMillionContext, events[1..]);
    }
  }

  /** The event handler applied to each event in turn. */
  function ReplayEvents(st: CompactionState, events: seq<(string, JsValue)>): CompactionState
    decreases |events|
  {
    if |events| == 0 then st else ReplayEvents(HandleEvent(st, events[0].0, events[0].1), events[1..])
  }

  /** A failed summarize leaves the session eligible again; a successful one does not. */
  lemma RetryOnlyAfterFailure(st: CompactionState, sessionID: string, oneMillionContext: bool, succeeded: bool)
    requires StartCompaction(st, sessionID, oneMillionContext).request.Some?
    ensures var started := StartCompaction(st, sessionID, oneMillionContext).state;
            var settled := FinishCompaction(started, sessionID, succeeded);
            StartCompaction(settled, sessionID, oneMillionContext).request.Some? <==> !succeeded
  {
  }
}

=== FILE: contextmonitor.dfy ===
/**
 * The context-window monitor hook (context-window-monitor.ts): once an
 * Anthropic session's cached input usage reaches 70% of the actual context
 * limit, one reminder is appended to a tool's output. The status line with
 * the rounded percentages is floating-point formatting and arrives as a
 * parameter; the system-directive header is produced by code outside this
 * model and arrives as one too.
 */
module ContextWindowMonitor {
  import opened Base
  import opened Js
  import opened Strings
  import opened TokenUsage

  const WarningPercent: int := 70

  /** The fixed body of the reminder, after the directive header. */
  const ReminderBody: string :=
    "\n\nYou are using Anthropic Claude with 1M context window.\n"
    + "You have plenty of context remaining - do NOT rush or skip tasks.\n"
    + "Complete your work thoroughly and methodically."

  datatype CachedTokens = CachedTokens(providerID: string, tokens: JsValue)

  datatype MonitorState = MonitorState(reminded: set<string>, tokenCache: map<string, CachedTokens>)

  datatype Checked = Checked(state: MonitorState, output: string)

  /** The text appended to the output: a blank line, the reminder, then the status line. */
  function ReminderText(directive: string, statusLine: string): (r: string)
    ensures IsPrefix("\n\n" + directive + ReminderBody + "\n", r)
  {
    "\n\n" + directive + ReminderBody + "\n" + statusLine
  }

  /** A cached session qualifies for the reminder. */
  predicate NeedsReminder(c: CachedTokens, oneMillionContext: bool) {
    c.providerID == "anthropic"
    && AtLeastPercent(TotalInput(c.tokens), ActualLimit("anthropic", oneMillionContext), WarningPercent)
  }

  /** `tool.execute.after` */
  function AfterTool(st: MonitorState, sessionID: string, output: string, oneMillionContext: bool,
                     directive: string, statusLine: string): (r: Checked)
    // the output is only ever extended, never rewritten
    ensures IsPrefix(output, r.output)
    ensures r.state.tokenCache == st.tokenCache
    ensures r.output != output <==>
              && sessionID !in st.reminded
              && sessionID in st.tokenCache
              && NeedsReminder(st.tokenCache[sessionID], oneMillionContext)
    ensures r.output != output ==>
              && r.output == output + ReminderText(directive, statusLine)
              && r.state.reminded == st.reminded + {sessionID}
    ensures r.output == output ==> r.state == st
  {
    if sessionID in st.reminded || sessionID !in st.tokenCache then Checked(st, output)
    else
      var cached := st.tokenCache[sessionID];
      if cached.providerID != "anthropic" then Checked(st, output)
      else if !NeedsReminder(cached, oneMillionContext) then Checked(st, output)
      else Checked(st.(reminded := st.reminded + {sessionID}), output + ReminderText(directive, statusLine))
  }

  /** `session.deleted` clears the reminder mark and the cached tokens; `message.updated` caches usage. */
  function HandleEvent(st: MonitorState, kind: string, props: JsValue): (r: MonitorState)
    ensures kind == "session.deleted" && DeletedSessionId(props).Some? ==>
              var id := DeletedSessionId(props).value;
              r.reminded == st.reminded - {id} && r.tokenCache == st.tokenCache - {id}
    ensures kind == "message.updated" && FinishedAssistantUsage(props).Some? ==>
              var u := FinishedAssistantUsage(props).value;
              r.reminded == st.reminded && r.tokenCache == st.tokenCache[u.sessionID := CachedTokens(u.providerID, u.tokens)]
    ensures (!(kind == "session.deleted" && DeletedSessionId(props).Some?)
             && !(kind == "message.updated" && FinishedAssistantUsage(props).Some?)) ==> r == st
  {
    if kind == "session.deleted" then
      match DeletedSessionId(props)
      case Some(id) => MonitorState(st.reminded - {id}, st.tokenCache - {id})
      case None => st
    else if kind == "message.updated" then
      match FinishedAssistantUsage(props)
      case Some(u) => st.(tokenCache := st.tokenCache[u.sessionID := CachedTokens(u.providerID, u.tokens)])
      case None => st
    else st
  }

  /** The tool calls of one session, in order, each given its own output and status line. */
  function RunTools(st: MonitorState, sessionID: string, outputs: seq<string>, oneMillionContext: bool,
                    directive: string, statusLines: seq<string>): (r: (MonitorState, seq<string>))
    requires |statusLines| == |outputs|
    ensures |r.1| == |outputs|
    decreases |outputs|
  {
    if |outputs| == 0 then (st, [])
    else
      var first := AfterTool(st, sessionID, outputs[0], oneMillionContext, directive, statusLines[0]);
      var rest := RunTools(first.state, sessionID, outputs[1..], oneMillionContext, directive, statusLines[1..]);
      (rest.0, [first.output] + rest.1)
  }

  /** Over any run of tool calls, a session is reminded at most once. */
  lemma {:induction false} AtMostOneReminder(st: MonitorState, sessionID: string, outputs: seq<string>,
                                            oneMillionContext: bool, directive: string, statusLines: seq<string>)
    requires |statusLines| == |outputs|
    ensures var r := RunTools(st, sessionID, outputs, oneMillionContext, directive, statusLines);
            forall i, j :: 0 <= i < j < |outputs| && r.1[i] != outputs[i] ==> r.1[j] == outputs[j]
    ensures var r := RunTools(st, sessionID, outputs, oneMillionContext, directive, statusLines);
            sessionID in st.reminded ==> forall i :: 0 <= i < |outputs| ==> r.1[i] == outputs[i]
    decreases |outputs|
  {
    if |outputs| > 0 {
      var first := AfterTool(st, sessionID, outputs[0], oneMillionContext, directive, statusLines[0]);
      AtMostOneReminder(first.state, sessionID, outputs[1..], oneMillionContext, directive, statusLines[1..]);
      var r := RunTools(st, sessionID, outputs, oneMillionContext, directive, statusLines);
      var rest := RunTools(first.state, sessionID, outputs[1..], oneMillionContext, directive, statusLines[1..]);
      assert forall k :: 1 <= k < |outputs| ==> r.1[k] == rest.1[k - 1];
      if first.output != outputs[0] {
        assert sessionID in first.state.reminded;
      }
    }
  }
}

=== FILE: events.dfy ===
/**
 * The background-task event router (background-event-handler.ts): tool-part
 * progress, idle delegation, session errors and the cascading teardown of a
 * deleted session's tasks. Payloads arrive as untyped JavaScript values; a
 * malformed one is a silent no-op.
 */
module EventRouter {
  import opened Base
  import opened Js
  import opened Seqs
  import opened Tasks
  import opened Cleanup
  import opened IdleEvaluator

  const PartUpdated: string := "message.part.updated"
  const SessionIdle: string := "session.idle"
  const SessionError: string := "session.error"
  const SessionDeleted: string := "session.deleted"

  /** The fallback error text when the payload names none. */
  const DefaultErrorMessage: string := "Session error"
  /** The `source` and `reason` given to `cancelTask` for a deleted session. */
  const DeletedSource: string := "session.deleted"
  const DeletedReason: string := "Session deleted"

  /** An event; a missing `properties` is `JsUndefined`. */
  datatype Event = Event(kind: string, properties: JsValue)

  /** The new maps, the calls made, and the task a session error marked (as cleanup left it). */
  datatype Outcome = Outcome(state: Scheduler, effects: seq<Effect>, errored: Option<Task>)

  // ---------------------------------------------------------------- part updated

  /** The number of tool calls recorded on a task; absent progress counts none. */
  function ToolCalls(t: Task): int {
    if t.progress.Some? then t.progress.value.toolCalls else 0
  }

  /** `type === "tool" || tool`: a part that counts as a tool call. */
  predicate IsToolPart(props: JsValue) {
    GetString(props, "type") == Some("tool") || NonEmpty(GetString(props, "tool"))
  }

  /** The progress record after one more tool call; absent progress starts from zero calls. */
  function CountToolCall(p: Option<Progress>, tool: Option<string>, now: int): (r: Progress)
    ensures r.toolCalls == (if p.Some? then p.value.toolCalls else 0) + 1
    ensures r.lastTool == tool && r.lastUpdate == now
  {
    var base := p.GetOr(Progress(0, None, now));
    Progress(base.toolCalls + 1, tool, now)
  }

  /** The registered task a part-updated or error payload's `sessionID` designates. */
  function SessionTask(s: Scheduler, props: JsValue, find: SessionId -> Option<TaskId>): (r: Option<Task>)
    ensures r.Some? <==> IsRecord(props) && NonEmpty(GetString(props, "sessionID"))
                         && Lookup(s, find, GetString(props, "sessionID").value).Some?
    ensures r.Some? ==> r == Lookup(s, find, GetString(props, "sessionID").value)
  {
    if !IsRecord(props) then None
    else
      var sid := GetString(props, "sessionID");
      if !NonEmpty(sid) then None else Lookup(s, find, sid.value)
  }

  /** `message.part.updated` */
  function OnPartUpdated(s: Scheduler, props: JsValue, find: SessionId -> Option<TaskId>, now: int): (r: Step)
    ensures r.effects == []
    ensures SessionTask(s, props, find).None? ==> r == Unchanged(s)
    ensures SessionTask(s, props, find).Some? ==>
              var task := SessionTask(s, props, find).value;
              // the registry entry the task object lives in
              var key := find(GetString(props, "sessionID").value).value;
              // the deferral is dropped whatever kind of part arrived
              && r.state.idleDeferralTimers == s.idleDeferralTimers - {task.id}
              && r.state.completionTimers == s.completionTimers
              && r.state.subagentSessions == s.subagentSessions
              && r.state.queuesByKey == s.queuesByKey
              && r.state.tasks.Keys == s.tasks.Keys
              && (!IsToolPart(props) ==> r.state.tasks == s.tasks)
              && (IsToolPart(props) ==>
                    && r.state.tasks == s.tasks[key := r.state.tasks[key]]
                    && ToolCalls(r.state.tasks[key]) == ToolCalls(task) + 1
                    && r.state.tasks[key].progress.Some?
                    && r.state.tasks[key].progress.value.lastTool == GetString(props, "tool")
                    && r.state.tasks[key].progress.value.lastUpdate == now
                    && r.state.tasks[key] == task.(progress := r.state.tasks[key].progress))
  {
    match SessionTask(s, props, find)
    case None => Unchanged(s)
    case Some(task) =>
      var key := find(GetString(props, "sessionID").value).value;
      var s1 := s.(idleDeferralTimers := s.idleDeferralTimers - {task.id});
      if IsToolPart(props) then
        var task' := task.(progress := Some(CountToolCall(task.progress, GetString(props, "tool"), now)));
        Step(s1.(tasks := s1.tasks[key := task']), [])
      else Step(s1, [])
  }

  /** A part update touches neither status nor queue key, so the scheduler invariant survives it. */
  lemma PartUpdatedPreservesValid(s: Scheduler, props: JsValue, find: SessionId -> Option<TaskId>, now: int)
    requires Valid(s)
    ensures Valid(OnPartUpdated(s, props, find, now).state)
  {
    var r := OnPartUpdated(s, props, find, now).state;
    if SessionTask(s, props, find).Some? {
      var task := SessionTask(s, props, find).value;
      var key := find(GetString(props, "sessionID").value).value;
      assert task.id == key;
      if IsToolPart(props) {
        assert QueueKey(r.tasks[key]) == QueueKey(task);
      }
    }
  }

  /** The part payloads, delivered in order at one clock reading. */
  function ReplayParts(s: Scheduler, parts: seq<JsValue>, find: SessionId -> Option<TaskId>, now: int): Scheduler
    decreases |parts|
  {
    if |parts| == 0 then s
    else ReplayParts(OnPartUpdated(s, parts[0], find, now).state, parts[1..], find, now)
  }

  /** How many of the payloads count as tool calls. */
  function CountToolParts(parts: seq<JsValue>): nat
    decreases |parts|
  {
    if |parts| == 0 then 0 else (if IsToolPart(parts[0]) then 1 else 0) + CountToolParts(parts[1..])
  }

  /**
   * Over a run of part updates for one session, the task's tool-call count rises
   * by exactly the number of tool parts, and its deferral timer is gone.
   */
  lemma {:induction false} ToolCallsCountToolParts(s: Scheduler, parts: seq<JsValue>, find: SessionId -> Option<TaskId>,
                                                   sid: SessionId, now: int)
    requires RegistryKeyed(s)
    requires sid != "" && find(sid).Some? && find(sid).value in s.tasks
    requires forall i :: 0 <= i < |parts| ==> IsRecord(parts[i]) && GetString(parts[i], "sessionID") == Some(sid)
    ensures var id := find(sid).value;
            var after := ReplayParts(s, parts, find, now);
            && RegistryKeyed(after)
            && id in after.tasks
            && ToolCalls(after.tasks[id]) == ToolCalls(s.tasks[id]) + CountToolParts(parts)
            && (|parts| > 0 ==> id !in after.idleDeferralTimers)
    decreases |parts|
  {
    if |parts| > 0 {
      var id := find(sid).value;
      var next := OnPartUpdated(s, parts[0], find, now).state;
      assert SessionTask(s, parts[0], find) == Some(s.tasks[id]);
      assert RegistryKeyed(next);
      ToolCallsCountToolParts(next, parts[1..], find, sid, now);
      if |parts| > 1 {
        RestTimerGone(next, parts[1..], find, sid, now);
      }
    }
  }

  /** Once the timer is gone, further part updates do not bring it back. */
  lemma {:induction false} RestTimerGone(s: Scheduler, parts: seq<JsValue>, find: SessionId -> Option<TaskId>,
                                         sid: SessionId, now: int)
    requires find(sid).Some? && find(sid).value !in s.idleDeferralTimers
    ensures find(sid).value !in ReplayParts(s, parts, find, now).idleDeferralTimers
    decreases |parts|
  {
    if |parts| > 0 {
      RestTimerGone(OnPartUpdated(s, parts[0], find, now).state, parts[1..], find, sid, now);
    }
  }

  // ---------------------------------------------------------------- session error

  /** `data.message ?? error.message ?? "Session error"`, each read only from a record holding a string. */
  function ErrorMessage(props: JsValue): (m: string)
    ensures var err := Get(props, "error");
            var data := Get(err, "data");
            && (GetString(data, "message").Some? ==> m == GetString(data, "message").value)
            && (GetString(data, "message").None? && GetString(err, "message").Some? ==>
                  m == GetString(err, "message").value)
            && (GetString(data, "message").None? && GetString(err, "message").None? ==> m == DefaultErrorMessage)
  {
    var err := Get(props, "error");
    var data := if IsRecord(err) then Get(err, "data") else JsUndefined;
    var fromData := if IsRecord(data) then GetString(data, "message") else None;
    var fromError := if IsRecord(err) then GetString(err, "message") else None;
    if fromData.Some? then fromData.value
    else if fromError.Some? then fromError.value
    else DefaultErrorMessage
  }

  /** `session.error`: only a running task is failed and torn down. */
  function OnSessionError(s: Scheduler, props: JsValue, find: SessionId -> Option<TaskId>,
                          hasReleaser: bool, now: int): (r: Outcome)
    ensures SessionTask(s, props, find).None? || SessionTask(s, props, find).value.status != Running
            ==> r == Outcome(s, [], None)
    ensures SessionTask(s, props, find).Some? && SessionTask(s, props, find).value.status == Running ==>
              var task := SessionTask(s, props, find).value;
              && r.errored.Some?
              && r.errored.value.id == task.id
              && r.errored.value.status == Error
              && r.errored.value.error == Some(ErrorMessage(props))
              && r.errored.value.completedAt == Some(now)
              && r.state.tasks == s.tasks - {task.id}
              && task.id !in r.state.idleDeferralTimers && task.id !in r.state.completionTimers
              // the teardown touches only this task's timers and session
              && r.state.idleDeferralTimers == s.idleDeferralTimers - {task.id}
              && r.state.completionTimers == s.completionTimers - {task.id}
              && r.state.subagentSessions ==
                   (if NonEmpty(task.sessionID) then s.subagentSessions - {task.sessionID.value} else s.subagentSessions)
              && Releases(r.effects) == (if HoldsKey(task) && hasReleaser then [task.concurrencyKey.value] else [])
              && (hasReleaser ==> !HoldsKey(r.errored.value))
              && CleanupPendingByParent(task.id) in r.effects
              && Cleared(r.effects) == [task.id]
              && Cancels(r.effects) == []
              && r.state.queuesByKey == s.queuesByKey
  {
    match SessionTask(s, props, find)
    case None => Outcome(s, [], None)
    case Some(task) =>
      if task.status != Running then Outcome(s, [], None)
      else
        var failed := task.(status := Error, error := Some(ErrorMessage(props)), completedAt := Some(now));
        var t := CleanupTaskAfterSessionEnds(s, failed, hasReleaser);
        Outcome(t.state, t.effects, Some(t.task))
  }

  /** Failing a running task keeps the scheduler invariant: a running task is never queued. */
  lemma SessionErrorPreservesValid(s: Scheduler, props: JsValue, find: SessionId -> Option<TaskId>,
                                   hasReleaser: bool, now: int)
    requires Valid(s)
    ensures Valid(OnSessionError(s, props, find, hasReleaser, now).state)
  {
    var target := SessionTask(s, props, find);
    if target.Some? && target.value.status == Running {
      var task := target.value;
      assert task.id in s.tasks && s.tasks[task.id] == task;
      var failed := task.(status := Error, error := Some(ErrorMessage(props)), completedAt := Some(now));
      CleanupPreservesValid(s, failed, hasReleaser);
    }
  }

  // ---------------------------------------------------------------- session deleted

  /** The ids among `ids` that the registry knows, in order. */
  function RegisteredIds(s: Scheduler, ids: seq<TaskId>): (r: seq<TaskId>)
    ensures forall i :: 0 <= i < |r| ==> r[i] in s.tasks
    ensures forall id :: id in r <==> id in ids && id in s.tasks
    decreases |ids|
  {
    if |ids| == 0 then []
    else (if ids[0] in s.tasks then [ids[0]] else []) + RegisteredIds(s, ids[1..])
  }

  /**
   * The ids a deleted session cascades to: its own task first, then its
   * descendants, each once at its first position (a JavaScript `Map` keyed by id).
   */
  function DeletedTargetIds(s: Scheduler, sid: SessionId, find: SessionId -> Option<TaskId>,
                            descendants: SessionId -> seq<TaskId>): (r: seq<TaskId>)
    ensures NoDuplicates(r)
    ensures forall i :: 0 <= i < |r| ==> r[i] in s.tasks
    ensures forall id :: id in r <==>
              id in s.tasks && (find(sid) == Some(id) || id in descendants(sid))
    ensures Lookup(s, find, sid).Some? ==> |r| > 0 && r[0] == find(sid).value
  {
    var direct := match Lookup(s, find, sid) case Some(_) => [find(sid).value] case None => [];
    var all := direct + RegisteredIds(s, descendants(sid));
    var r := Dedup(all);
    assert forall id :: id in r <==> id in all;
    if |direct| > 0 then
      DedupPrefix(direct, RegisteredIds(s, descendants(sid)));
      assert Dedup(direct) == direct;
      r
    else r
  }

  function Ids(ts: seq<Task>): (r: seq<TaskId>)
    ensures |r| == |ts| && forall i :: 0 <= i < |ts| ==> r[i] == ts[i].id
  {
    seq(|ts|, i requires 0 <= i < |ts| => ts[i].id)
  }

  /** The ids of the running or pending tasks, in order: the ones worth cancelling. */
  function LiveIds(ts: seq<Task>): (r: seq<TaskId>)
    decreases |ts|
  {
    if |ts| == 0 then []
    else (if ts[0].status == Running || ts[0].status == Pending then [ts[0].id] else []) + LiveIds(ts[1..])
  }

  /** The concurrency keys held by the tasks, in order. */
  function HeldKeys(ts: seq<Task>): (r: seq<string>)
    decreases |ts|
  {
    if |ts| == 0 then [] else (if HoldsKey(ts[0]) then [ts[0].concurrencyKey.value] else []) + HeldKeys(ts[1..])
  }

  /** The set of the tasks' ids. */
  function IdSet(ts: seq<Task>): set<TaskId> {
    set i | 0 <= i < |ts| :: ts[i].id
  }

  /** The non-empty session ids of the tasks. */
  function SessionSet(ts: seq<Task>): set<SessionId> {
    set i | 0 <= i < |ts| && NonEmpty(ts[i].sessionID) :: ts[i].sessionID.value
  }

  /** The calls made for one target before its teardown. */
  function CancelCall(t: Task): (r: seq<Effect>)
    ensures Cancels(r) == (if t.status == Running || t.status == Pending then [t.id] else [])
    ensures Releases(r) == [] && Cleared(r) == []
  {
    var r := if t.status == Running || t.status == Pending
             then [CancelTask(t.id, DeletedSource, DeletedReason, true)] else [];
    ProjectionsSingle(CancelTask(t.id, DeletedSource, DeletedReason, true));
    r
  }

  /** Each target in turn: cancel it when it is live, then tear it down whatever its status. */
  function TearDownAll(s: Scheduler, targets: seq<Task>, hasReleaser: bool): (r: Step)
    ensures Cancels(r.effects) == LiveIds(targets)
    ensures Cleared(r.effects) == Ids(targets)
    ensures Releases(r.effects) == if hasReleaser then HeldKeys(targets) else []
    ensures r.state.tasks == s.tasks - IdSet(targets)
    ensures r.state.idleDeferralTimers == s.idleDeferralTimers - IdSet(targets)
    ensures r.state.completionTimers == s.completionTimers - IdSet(targets)
    ensures r.state.subagentSessions == s.subagentSessions - SessionSet(targets)
    ensures r.state.queuesByKey == s.queuesByKey
    decreases |targets|
  {
    if |targets| == 0 then Unchanged(s)
    else
      var down := CleanupTaskAfterSessionEnds(s, targets[0], hasReleaser);
      var rest := TearDownAll(down.state, targets[1..], hasReleaser);
      TearDownTrace(targets, hasReleaser, down.effects, rest.effects);
      TearDownMaps(s, targets, hasReleaser, rest.state);
      Step(rest.state, CancelCall(targets[0]) + down.effects + rest.effects)
  }

  /** The call trace of one cancel-and-teardown followed by the rest's trace projects as the whole sequence's. */
  lemma TearDownTrace(targets: seq<Task>, hasReleaser: bool, downEffects: seq<Effect>, restEffects: seq<Effect>)
    requires |targets| > 0
    requires var t := targets[0];
             && Releases(downEffects) == (if HoldsKey(t) && hasReleaser then [t.concurrencyKey.value] else [])
             && Cleared(downEffects) == [t.id] && Cancels(downEffects) == []
    requires Cancels(restEffects) == LiveIds(targets[1..])
    requires Cleared(restEffects) == Ids(targets[1..])
    requires Releases(restEffects) == if hasReleaser then HeldKeys(targets[1..]) else []
    ensures var all := CancelCall(targets[0]) + downEffects + restEffects;
            && Cancels(all) == LiveIds(targets)
            && Cleared(all) == Ids(targets)
            && Releases(all) == if hasReleaser then HeldKeys(targets) else []
  {
    var t := targets[0];
    TraceCancels(t, downEffects, restEffects);
    TraceCleared(t, downEffects, restEffects);
    TraceReleases(t, hasReleaser, downEffects, restEffects);
    IdsCons(targets);
  }

  /** The cancellations of a cancel-and-teardown trace followed by another trace. */
  lemma TraceCancels(t: Task, downEffects: seq<Effect>, restEffects: seq<Effect>)
    requires Cancels(downEffects) == []
    ensures Cancels(CancelCall(t) + downEffects + restEffects)
            == (if t.status == Running || t.status == Pending then [t.id] else []) + Cancels(restEffects)
  {
    CancelsAppend(CancelCall(t), downEffects);
    CancelsAppend(CancelCall(t) + downEffects, restEffects);
    assert Cancels(CancelCall(t)) + [] == Cancels(CancelCall(t));
  }

  /** The cleared ids of a cancel-and-teardown trace followed by another trace. */
  lemma TraceCleared(t: Task, downEffects: seq<Effect>, restEffects: seq<Effect>)
    requires Cleared(downEffects) == [t.id]
    ensures Cleared(CancelCall(t) + downEffects + restEffects) == [t.id] + Cleared(restEffects)
  {
    ClearedAppend(CancelCall(t), downEffects);
    ClearedAppend(CancelCall(t) + downEffects, restEffects);
    assert [] + [t.id] == [t.id];
  }

  /** The released keys of a cancel-and-teardown trace followed by another trace. */
  lemma TraceReleases(t: Task, hasReleaser: bool, downEffects: seq<Effect>, restEffects: seq<Effect>)
    requires Releases(downEffects) == (if HoldsKey(t) && hasReleaser then [t.concurrencyKey.value] else [])
    ensures Releases(CancelCall(t) + downEffects + restEffects) == Releases(downEffects) + Releases(restEffects)
  {
    ReleasesAppend(CancelCall(t), downEffects);
    ReleasesAppend(CancelCall(t) + downEffects, restEffects);
    assert [] + Releases(downEffects) == Releases(downEffects);
  }

  /** The maps after one teardown followed by the rest's are the maps with every target removed. */
  lemma TearDownMaps(s: Scheduler, targets: seq<Task>, hasReleaser: bool, restState: Scheduler)
    requires |targets| > 0
    requires var down := CleanupTaskAfterSessionEnds(s, targets[0], hasReleaser).state;
             && restState.tasks == down.tasks - IdSet(targets[1..])
             && restState.idleDeferralTimers == down.idleDeferralTimers - IdSet(targets[1..])
             && restState.completionTimers == down.completionTimers - IdSet(targets[1..])
             && restState.subagentSessions == down.subagentSessions - SessionSet(targets[1..])
             && restState.queuesByKey == down.queuesByKey
    ensures restState.tasks == s.tasks - IdSet(targets)
    ensures restState.idleDeferralTimers == s.idleDeferralTimers - IdSet(targets)
    ensures restState.completionTimers == s.completionTimers - IdSet(targets)
    ensures restState.subagentSessions == s.subagentSessions - SessionSet(targets)
    ensures restState.queuesByKey == s.queuesByKey
  {
    SetsOfCons(targets);
  }

  /** How the id sequence, id set and session set of a sequence split at its first element. */
  lemma SetsOfCons(ts: seq<Task>)
    requires |ts| > 0
    ensures Ids(ts) == [ts[0].id] + Ids(ts[1..])
    ensures IdSet(ts) == {ts[0].id} + IdSet(ts[1..])
    ensures SessionSet(ts) == (if NonEmpty(ts[0].sessionID) then {ts[0].sessionID.value} else {}) + SessionSet(ts[1..])
  {
    IdsCons(ts);
    IdSetCons(ts);
    SessionSetCons(ts);
  }

  lemma IdsCons(ts: seq<Task>)
    requires |ts| > 0
    ensures Ids(ts) == [ts[0].id] + Ids(ts[1..])
  {
    assert forall i :: 0 <= i < |ts| - 1 ==> ts[1..][i] == ts[i + 1];
  }

  lemma IdSetCons(ts: seq<Task>)
    requires |ts| > 0
    ensures IdSet(ts) == {ts[0].id} + IdSet(ts[1..])
  {
    forall id | id in IdSet(ts) ensures id in {ts[0].id} + IdSet(ts[1..]) {
      var i :| 0 <= i < |ts| && ts[i].id == id;
      if i > 0 { assert ts[1..][i - 1].id == id; }
    }
    forall id | id in IdSet(ts[1..]) ensures id in IdSet(ts) {
      var i :| 0 <= i < |ts[1..]| && ts[1..][i].id == id;
      assert ts[i + 1].id == id;
    }
  }

  lemma SessionSetCons(ts: seq<Task>)
    requires |ts| > 0
    ensures SessionSet(ts) == (if NonEmpty(ts[0].sessionID) then {ts[0].sessionID.value} else {}) + SessionSet(ts[1..])
  {
    forall x | x in SessionSet(ts)
      ensures x in (if NonEmpty(ts[0].sessionID) then {ts[0].sessionID.value} else {}) + SessionSet(ts[1..])
    {
      var i :| 0 <= i < |ts| && NonEmpty(ts[i].sessionID) && ts[i].sessionID.value == x;
      if i > 0 { assert ts[1..][i - 1].sessionID.value == x; }
    }
    forall x | x in SessionSet(ts[1..]) ensures x in SessionSet(ts) {
      var i :| 0 <= i < |ts[1..]| && NonEmpty(ts[1..][i].sessionID) && ts[1..][i].sessionID.value == x;
      assert ts[i + 1] == ts[1..][i];
    }
  }

  /** `session.deleted`: cancel and tear down the session's task and all its descendants. */
  function OnSessionDeleted(s: Scheduler, props: JsValue, find: SessionId -> Option<TaskId>,
                            descendants: SessionId -> seq<TaskId>, hasReleaser: bool): (r: Step)
    ensures !IsRecord(props) || !NonEmpty(GetString(Get(props, "info"), "id")) ==> r == Unchanged(s)
    ensures IsRecord(props) && NonEmpty(GetString(Get(props, "info"), "id")) ==>
              var sid := GetString(Get(props, "info"), "id").value;
              var ids := DeletedTargetIds(s, sid, find, descendants);
              && (|ids| == 0 ==> r == Unchanged(s))
              && Cancels(r.effects) == LiveIds(TasksOfIds(s, ids))
              // the targets' keys are released in target order; only their timers and sessions go
              && Releases(r.effects) == (if hasReleaser then HeldKeys(TasksOfIds(s, ids)) else [])
              && r.state.idleDeferralTimers == s.idleDeferralTimers - IdSet(TasksOfIds(s, ids))
              && r.state.completionTimers == s.completionTimers - IdSet(TasksOfIds(s, ids))
              && r.state.subagentSessions == s.subagentSessions - SessionSet(TasksOfIds(s, ids))
              && r.state.queuesByKey == s.queuesByKey
              && (|ids| > 0 ==> r == TearDownAll(s, TasksOfIds(s, ids), hasReleaser))
              // with the registry keyed by task id, every target and nothing else is torn down
              && (RegistryKeyed(s) ==>
                    && Cleared(r.effects) == ids
                    && (forall id :: id in ids ==> id !in r.state.tasks)
                    && (forall id :: id in s.tasks && id !in ids ==> id in r.state.tasks && r.state.tasks[id] == s.tasks[id])
                    && (forall id :: id in ids ==> id !in r.state.idleDeferralTimers && id !in r.state.completionTimers))
  {
    var info := Get(props, "info");
    var sid := GetString(info, "id");
    if !IsRecord(props) || !NonEmpty(sid) then Unchanged(s)
    else
      var ids := DeletedTargetIds(s, sid.value, find, descendants);
      if |ids| == 0 then Unchanged(s)
      else
        TearDownIds(s, ids, hasReleaser);
        TearDownAll(s, TasksOfIds(s, ids), hasReleaser)
  }

  /** The registered tasks under `ids`, in order. */
  function TasksOfIds(s: Scheduler, ids: seq<TaskId>): (targets: seq<Task>)
    requires forall i :: 0 <= i < |ids| ==> ids[i] in s.tasks
    ensures |targets| == |ids| && forall i :: 0 <= i < |ids| ==> targets[i] == s.tasks[ids[i]]
  {
    seq(|ids|, i requires 0 <= i < |ids| => s.tasks[ids[i]])
  }

  /** Tearing down the tasks registered under `ids` clears exactly those ids, when the registry is keyed. */
  lemma TearDownIds(s: Scheduler, ids: seq<TaskId>, hasReleaser: bool)
    requires forall i :: 0 <= i < |ids| ==> ids[i] in s.tasks
    ensures var r := TearDownAll(s, TasksOfIds(s, ids), hasReleaser);
            RegistryKeyed(s) ==>
              && Cleared(r.effects) == ids
              && (forall id :: id in ids ==> id !in r.state.tasks)
              && (forall id :: id in s.tasks && id !in ids ==> id in r.state.tasks && r.state.tasks[id] == s.tasks[id])
              && (forall id :: id in ids ==> id !in r.state.idleDeferralTimers && id !in r.state.completionTimers)
  {
    var targets := TasksOfIds(s, ids);
    if RegistryKeyed(s) {
      TargetsOfIds(s, ids, targets);
      forall id ensures id in IdSet(targets) <==> id in ids {
        if id in ids {
          var i :| 0 <= i < |ids| && ids[i] == id;
          assert targets[i].id == id;
        }
      }
    }
  }

  /** Tasks looked up by distinct registered ids carry those ids, when the registry is keyed. */
  lemma TargetsOfIds(s: Scheduler, ids: seq<TaskId>, targets: seq<Task>)
    requires forall i :: 0 <= i < |ids| ==> ids[i] in s.tasks
    requires |targets| == |ids| && forall i :: 0 <= i < |ids| ==> targets[i] == s.tasks[ids[i]]
    ensures RegistryKeyed(s) ==> Ids(targets) == ids
    ensures forall id :: id in ids ==> id in s.tasks
  {
  }

  /** A deleted session keeps the scheduler invariant when none of its targets sits pending in a launch queue. */
  lemma SessionDeletedPreservesValid(s: Scheduler, props: JsValue, find: SessionId -> Option<TaskId>,
                                     descendants: SessionId -> seq<TaskId>, hasReleaser: bool)
    requires Valid(s)
    requires IsRecord(props) && NonEmpty(GetString(Get(props, "info"), "id")) ==>
               var sid := GetString(Get(props, "info"), "id").value;
               forall id :: id in s.tasks && s.tasks[id].status == Pending ==>
                 find(sid) != Some(id) && id !in descendants(sid)
    ensures Valid(OnSessionDeleted(s, props, find, descendants, hasReleaser).state)
  {
    var r := OnSessionDeleted(s, props, find, descendants, hasReleaser).state;
    if IsRecord(props) && NonEmpty(GetString(Get(props, "info"), "id")) {
      var sid := GetString(Get(props, "info"), "id").value;
      var ids := DeletedTargetIds(s, sid, find, descendants);
      forall k | k in r.queuesByKey
        ensures forall i :: 0 <= i < |r.queuesByKey[k]| ==> r.queuesByKey[k][i] in r.tasks
      {
        forall i | 0 <= i < |r.queuesByKey[k]| ensures r.queuesByKey[k][i] in r.tasks {
          var id := s.queuesByKey[k][i];
          assert s.tasks[id].status == Pending;
          assert id !in ids;
        }
      }
    }
  }

  // ---------------------------------------------------------------- routing

  /** `handleBackgroundEvent`: dispatch on the event type; the clock and idle threshold are parameters. */
  function HandleBackgroundEvent(s: Scheduler, ev: Event, find: SessionId -> Option<TaskId>,
                                 descendants: SessionId -> seq<TaskId>, hasReleaser: bool,
                                 now: int, minIdleMs: int): (r: Outcome)
    // a payload that is not a record, or an event of another type, is ignored
    ensures !IsRecord(ev.properties) ==> r == Outcome(s, [], None)
    ensures ev.kind !in {PartUpdated, SessionIdle, SessionError, SessionDeleted} ==> r == Outcome(s, [], None)
    // only a deleted session cancels; only a session error marks a task failed
    ensures Cancels(r.effects) != [] ==> ev.kind == SessionDeleted
    ensures r.errored.Some? ==> ev.kind == SessionError && r.errored.value.status == Error
    // part updates and idles never drop a task, a completion timer or a concurrency key
    ensures ev.kind != SessionError && ev.kind != SessionDeleted ==>
              && r.state.tasks.Keys == s.tasks.Keys
              && r.state.completionTimers == s.completionTimers
              && r.state.queuesByKey == s.queuesByKey
              && Releases(r.effects) == []
    // each known event type on a record payload is handed to its own handler
    ensures IsRecord(ev.properties) && ev.kind == PartUpdated ==>
              var step := OnPartUpdated(s, ev.properties, find, now);
              r.state == step.state && r.effects == step.effects && r.errored.None?
    ensures IsRecord(ev.properties) && ev.kind == SessionIdle ==>
              var idle := HandleSessionIdle(s, ev.properties, find, now, minIdleMs);
              r.state == idle.state && r.effects == idle.effects && r.errored.None?
    ensures IsRecord(ev.properties) && ev.kind == SessionError ==>
              r == OnSessionError(s, ev.properties, find, hasReleaser, now)
    ensures IsRecord(ev.properties) && ev.kind == SessionDeleted ==>
              var step := OnSessionDeleted(s, ev.properties, find, descendants, hasReleaser);
              r.state == step.state && r.effects == step.effects && r.errored.None?
  {
    var props := ev.properties;
    if !IsRecord(props) then Outcome(s, [], None)
    else if ev.kind == PartUpdated then
      var step := OnPartUpdated(s, props, find, now);
      Outcome(step.state, step.effects, None)
    else if ev.kind == SessionIdle then
      var idle := HandleSessionIdle(s, props, find, now, minIdleMs);
      ValidationTraceQuiet(idle.effects);
      Outcome(idle.state, idle.effects, None)
    else if ev.kind == SessionError then OnSessionError(s, props, find, hasReleaser, now)
    else if ev.kind == SessionDeleted then
      var step := OnSessionDeleted(s, props, find, descendants, hasReleaser);
      Outcome(step.state, step.effects, None)
    else Outcome(s, [], None)
  }

  /** The idle evaluator's synchronous trace (at most a validation request) cancels and releases nothing. */
  lemma ValidationTraceQuiet(es: seq<Effect>)
    requires es == [] || (|es| == 1 && es[0].ValidateOutput?)
    ensures Cancels(es) == [] && Releases(es) == []
  {
    if es != [] {
      ProjectionsSingle(es[0]);
    }
  }

  /** Every event keeps the scheduler invariant, except a deleted session whose targets include a queued task. */
  lemma HandleBackgroundEventPreservesValid(s: Scheduler, ev: Event, find: SessionId -> Option<TaskId>,
                                            descendants: SessionId -> seq<TaskId>, hasReleaser: bool,
                                            now: int, minIdleMs: int)
    requires Valid(s)
    requires ev.kind == SessionDeleted && IsRecord(ev.properties)
             && NonEmpty(GetString(Get(ev.properties, "info"), "id")) ==>
               var sid := GetString(Get(ev.properties, "info"), "id").value;
               forall id :: id in s.tasks && s.tasks[id].status == Pending ==>
                 find(sid) != Some(id) && id !in descendants(sid)
    ensures Valid(HandleBackgroundEvent(s, ev, find, descendants, hasReleaser, now, minIdleMs).state)
  {
    var props := ev.properties;
    if IsRecord(props) {
      if ev.kind == PartUpdated {
        PartUpdatedPreservesValid(s, props, find, now);
      } else if ev.kind == SessionIdle {
        HandleSessionIdlePreservesValid(s, props, find, now, minIdleMs);
      } else if ev.kind == SessionError {
        SessionErrorPreservesValid(s, props, find, hasReleaser, now);
      } else if ev.kind == SessionDeleted {
        SessionDeletedPreservesValid(s, props, find, descendants, hasReleaser);
      }
    }
  }
}

=== FILE: i18n.dfy ===
/**
 * The desktop renderer's translation store (desktop/renderer/i18n.js): the
 * current language, the change listeners, key lookup with fallbacks and the
 * `data-i18n*` attribute pass over the page. The translation table is a
 * parameter; the page is a sequence of tagged elements.
 */
module I18n {
  import opened Base

  /** The supported language codes. */
  const Languages: seq<string> := ["zh", "en", "ko"]

  predicate IsLanguage(code: string) {
    code in Languages
  }

  /** Key to language code to text; a language may be missing or empty. */
  type Translations = map<string, map<string, string>>

  /** A registered `onChange` listener, by identity. */
  type Listener = nat

  datatype Store = Store(lang: string, listeners: seq<Listener>, translations: Translations)

  /** A listener called with the new language code. */
  datatype Notification = Notified(listener: Listener, code: string)

  /** The four attributes `applyToDOM` looks at and the property each one sets. */
  datatype Attr = TextContent | InnerHtml | Placeholder | Title

  /** An element carrying a translation key in one of the attributes. */
  datatype Element = Element(attr: Attr, key: string, content: string)

  /** The store as the module creates it: Chinese, no listeners. */
  function Initial(translations: Translations): (s: Store)
    ensures Valid(s) && s.listeners == []
  {
    Store("zh", [], translations)
  }

  /** The current language is always one of the supported codes. */
  predicate Valid(s: Store) {
    IsLanguage(s.lang)
  }

  /** The text at `lang` when present and non-empty (`entry[lang] || ...`). */
  predicate HasText(entry: map<string, string>, lang: string) {
    lang in entry && entry[lang] != ""
  }

  /** `t(key)` */
  function T(s: Store, key: string): (r: string)
    ensures key !in s.translations ==> r == key
    ensures key in s.translations && HasText(s.translations[key], s.lang) ==> r == s.translations[key][s.lang]
    ensures (&& key in s.translations && !HasText(s.translations[key], s.lang)
             && HasText(s.translations[key], "en")) ==> r == s.translations[key]["en"]
    ensures (&& key in s.translations && !HasText(s.translations[key], s.lang)
             && !HasText(s.translations[key], "en")) ==> r == key
    // the result is the key itself or a non-empty translation of it
    ensures r == key || (key in s.translations && exists l :: l in s.translations[key] && s.translations[key][l] == r && r != "")
  {
    if key !in s.translations then key
    else
      var entry := s.translations[key];
      if HasText(entry, s.lang) then entry[s.lang]
      else if HasText(entry, "en") then entry["en"]
      else key
  }

  /** A key with no text in any language reads as itself, whatever the language. */
  lemma UntranslatedKeyIsItself(s: Store, key: string)
    requires key in s.translations ==> forall l :: l in s.translations[key] ==> s.translations[key][l] == ""
    ensures T(s, key) == key
  {
  }

  /** One element after the attribute pass: set when `t` finds a translation, kept otherwise. */
  function ApplyToElement(s: Store, el: Element): (r: Element)
    ensures r.attr == el.attr && r.key == el.key
    ensures T(s, el.key) != el.key ==> r.content == T(s, el.key)
    ensures T(s, el.key) == el.key ==> r == el
  {
    var text := T(s, el.key);
    if text != el.key then el.(content := text) else el
  }

  /** `applyToDOM()` over every tagged element of the page. */
  function ApplyToDom(s: Store, page: seq<Element>): (r: seq<Element>)
    ensures |r| == |page|
    ensures forall i :: 0 <= i < |page| ==> r[i] == ApplyToElement(s, page[i])
  {
    seq(|page|, i requires 0 <= i < |page| => ApplyToElement(s, page[i]))
  }

  /** A second pass in the same language changes nothing. */
  lemma ApplyToDomIdempotent(s: Store, page: seq<Element>)
    ensures ApplyToDom(s, ApplyToDom(s, page)) == ApplyToDom(s, page)
  {
  }

  /** What the `lang` setter leaves behind. */
  datatype LangChange = LangChange(store: Store, page: seq<Element>, notified: seq<Notification>)

  /**
   * `set lang(code)`: an unsupported code is ignored; a supported one becomes
   * the language, the page is re-translated and every listener is called
   * with the code in registration order.
   */
  function SetLang(s: Store, code: string, page: seq<Element>): (r: LangChange)
    ensures !IsLanguage(code) ==> r == LangChange(s, page, [])
    ensures IsLanguage(code) ==> r.store == s.(lang := code) && r.page == ApplyToDom(r.store, page)
    ensures IsLanguage(code) ==> |r.notified| == |s.listeners|
                                 && forall i :: 0 <= i < |s.listeners| ==> r.notified[i] == Notified(s.listeners[i], code)
    ensures Valid(s) ==> Valid(r.store)
  {
    if !IsLanguage(code) then LangChange(s, page, [])
    else
      var next := s.(lang := code);
      LangChange(next, ApplyToDom(next, page),
                 seq(|s.listeners|, i requires 0 <= i < |s.listeners| => Notified(s.listeners[i], code)))
  }

  /** `onChange(fn)`: the listener joins the end of the list. */
  function OnChange(s: Store, fn: Listener): (r: Store)
    ensures r.lang == s.lang && r.translations == s.translations
    ensures r.listeners == s.listeners + [fn]
  {
    s.(listeners := s.listeners + [fn])
  }

  /** `init(savedLang)`: a saved supported code is adopted; the page is translated either way. */
  function Init(s: Store, savedLang: Option<string>, page: seq<Element>): (r: (Store, seq<Element>))
    ensures savedLang.Some? && IsLanguage(savedLang.value) ==> r.0 == s.(lang := savedLang.value)
    ensures !(savedLang.Some? && IsLanguage(savedLang.value)) ==> r.0 == s
    ensures r.1 == ApplyToDom(r.0, page)
    ensures Valid(s) ==> Valid(r.0)
  {
    var next := if savedLang.Some? && savedLang.value != "" && IsLanguage(savedLang.value)
                then s.(lang := savedLang.value) else s;
    (next, ApplyToDom(next, page))
  }

  /** Setting a supported language and then any lookup reads that language first. */
  lemma SetLangThenT(s: Store, code: string, page: seq<Element>, key: string)
    requires IsLanguage(code) && key in s.translations && HasText(s.translations[key], code)
    ensures T(SetLang(s, code, page).store, key) == s.translations[key][code]
  {
  }

  /** Setting the language already in force notifies the listeners again but keeps the store. */
  lemma SetSameLangKeepsStore(s: Store, page: seq<Element>)
    requires Valid(s)
    ensures SetLang(s, s.lang, page).store == s
    ensures |SetLang(s, s.lang, page).notified| == |s.listeners|
  {
  }
}

=== FILE: idle.dfy ===
/**
 * The debounced idle-completion evaluator (session-idle-event-handler.ts).
 * An idle signal for a running task that started less than `minIdleMs` ago
 * arms one deferral timer; later idles are checked for real output, then for
 * open todos, and only then is completion requested. The evaluator's
 * asynchronous continuation is modelled as one step per await, each reading
 * the task's status at the moment the await resumes.
 */
module IdleEvaluator {
  import opened Base
  import opened Js
  import opened Tasks

  /** The `source` the evaluator passes to `tryCompleteTask`. */
  const IdleCompletionSource: string := "session.idle event"

  datatype IdleOutcome =
    | Ignored
    | Deferred(delayMs: int)
    | AlreadyDeferred
    | Validating

  datatype IdleResult = IdleResult(state: Scheduler, outcome: IdleOutcome, effects: seq<Effect>)

  /** The running task with a start time that an idle event's `sessionID` designates, if any. */
  function IdleTarget(s: Scheduler, props: JsValue, find: SessionId -> Option<TaskId>): (r: Option<Task>)
    ensures r.Some? <==>
              && NonEmpty(GetString(props, "sessionID"))
              && Lookup(s, find, GetString(props, "sessionID").value).Some?
              && Lookup(s, find, GetString(props, "sessionID").value).value.status == Running
              && Lookup(s, find, GetString(props, "sessionID").value).value.startedAt.Some?
    ensures r.Some? ==> r == Lookup(s, find, GetString(props, "sessionID").value)
  {
    var sid := GetString(props, "sessionID");
    if !NonEmpty(sid) then None
    else
      match Lookup(s, find, sid.value)
      case None => None
      case Some(task) =>
        if task.status != Running || task.startedAt.None? then None else Some(task)
  }

  /** `handleSessionIdleBackgroundEvent`, up to the point where the asynchronous checks begin. */
  function HandleSessionIdle(s: Scheduler, props: JsValue, find: SessionId -> Option<TaskId>, now: int, minIdleMs: int)
    : (r: IdleResult)
    // only the idle-deferral map can change
    ensures r.state.tasks == s.tasks && r.state.completionTimers == s.completionTimers
    ensures r.state.subagentSessions == s.subagentSessions && r.state.queuesByKey == s.queuesByKey
    // nothing happens without a running, started task
    ensures IdleTarget(s, props, find).None? ==> r == IdleResult(s, Ignored, [])
    ensures IdleTarget(s, props, find).Some? ==>
              var task := IdleTarget(s, props, find).value;
              var elapsed := now - task.startedAt.value;
              var sid := GetString(props, "sessionID").value;
              if elapsed < minIdleMs then
                r.effects == [] &&
                if task.id in s.idleDeferralTimers then
                  // a pending deferral absorbs the repeated signal
                  r == IdleResult(s, AlreadyDeferred, [])
                else
                  // exactly one new timer, for the time still missing
                  && r.outcome == Deferred(minIdleMs - elapsed)
                  && minIdleMs - elapsed > 0
                  && r.state.idleDeferralTimers == s.idleDeferralTimers[task.id := Deferral(sid, minIdleMs - elapsed)]
              else
                r == IdleResult(s, Validating, [ValidateOutput(sid)])
  {
    match IdleTarget(s, props, find)
    case None => IdleResult(s, Ignored, [])
    case Some(task) =>
      var sid := GetString(props, "sessionID").value;
      var elapsed := now - task.startedAt.value;
      if elapsed < minIdleMs then
        if task.id in s.idleDeferralTimers then IdleResult(s, AlreadyDeferred, [])
        else
          var remaining := minIdleMs - elapsed;
          IdleResult(s.(idleDeferralTimers := s.idleDeferralTimers[task.id := Deferral(sid, remaining)]),
                     Deferred(remaining), [])
      else IdleResult(s, Validating, [ValidateOutput(sid)])
  }

  /** The evaluator never arms a timer for an unregistered task, so it keeps the scheduler invariant. */
  lemma HandleSessionIdlePreservesValid(s: Scheduler, props: JsValue, find: SessionId -> Option<TaskId>,
                                        now: int, minIdleMs: int)
    requires Valid(s)
    ensures Valid(HandleSessionIdle(s, props, find, now, minIdleMs).state)
  {
    var r := HandleSessionIdle(s, props, find, now, minIdleMs);
    if IdleTarget(s, props, find).Some? {
      var task := IdleTarget(s, props, find).value;
      assert task.id in s.tasks;
    }
  }

  /** However often an early idle repeats, the task has one deferral timer, armed by the first signal. */
  lemma {:induction false} RepeatedIdleArmsOneTimer(s: Scheduler, props: JsValue, find: SessionId -> Option<TaskId>,
                                                    times: seq<int>, minIdleMs: int)
    requires |times| >= 1
    requires IdleTarget(s, props, find).Some?
    requires IdleTarget(s, props, find).value.id !in s.idleDeferralTimers
    requires forall i :: 0 <= i < |times| ==> times[i] - IdleTarget(s, props, find).value.startedAt.value < minIdleMs
    ensures RepeatIdle(s, props, find, times, minIdleMs)
            == HandleSessionIdle(s, props, find, times[0], minIdleMs).state
    ensures var after := RepeatIdle(s, props, find, times, minIdleMs);
            after.idleDeferralTimers.Keys == s.idleDeferralTimers.Keys + {IdleTarget(s, props, find).value.id}
    decreases |times|
  {
    var first := HandleSessionIdle(s, props, find, times[0], minIdleMs).state;
    var task := IdleTarget(s, props, find).value;
    if |times| > 1 {
      assert IdleTarget(first, props, find) == IdleTarget(s, props, find);
      LaterIdlesAbsorbed(first, props, find, times[1..], minIdleMs);
    }
  }

  /** Idle signals delivered while a deferral is pending leave every map as it is. */
  lemma {:induction false} LaterIdlesAbsorbed(s: Scheduler, props: JsValue, find: SessionId -> Option<TaskId>,
                                              times: seq<int>, minIdleMs: int)
    requires IdleTarget(s, props, find).Some?
    requires IdleTarget(s, props, find).value.id in s.idleDeferralTimers
    requires forall i :: 0 <= i < |times| ==> times[i] - IdleTarget(s, props, find).value.startedAt.value < minIdleMs
    ensures RepeatIdle(s, props, find, times, minIdleMs) == s
    decreases |times|
  {
    if |times| > 0 {
      assert HandleSessionIdle(s, props, find, times[0], minIdleMs).state == s;
      LaterIdlesAbsorbed(s, props, find, times[1..], minIdleMs);
    }
  }

  /** The same idle event delivered at each of the given clock readings, in order. */
  function RepeatIdle(s: Scheduler, props: JsValue, find: SessionId -> Option<TaskId>, times: seq<int>, minIdleMs: int)
    : Scheduler
    decreases |times|
  {
    if |times| == 0 then s
    else RepeatIdle(HandleSessionIdle(s, props, find, times[0], minIdleMs).state, props, find, times[1..], minIdleMs)
  }

  /** The deferral timer firing: its entry is deleted first, then idle is re-emitted for its session. */
  function FireIdleDeferral(s: Scheduler, id: TaskId): (r: Step)
    ensures id !in r.state.idleDeferralTimers
    ensures id in s.idleDeferralTimers ==>
              && r.state == s.(idleDeferralTimers := s.idleDeferralTimers - {id})
              && r.effects == [EmitIdle(s.idleDeferralTimers[id].sessionID)]
    ensures id !in s.idleDeferralTimers ==> r == Unchanged(s)
  {
    if id in s.idleDeferralTimers then
      Step(s.(idleDeferralTimers := s.idleDeferralTimers - {id}), [EmitIdle(s.idleDeferralTimers[id].sessionID)])
    else Unchanged(s)
  }

  /**
   * Because the entry is gone before idle is re-emitted, the re-emitted signal is
   * evaluated afresh: still early, it arms a new timer instead of being absorbed;
   * past the threshold, it starts validation.
   */
  lemma FiredDeferralIsEvaluatedAfresh(s: Scheduler, props: JsValue, find: SessionId -> Option<TaskId>,
                                       now: int, minIdleMs: int)
    requires IdleTarget(s, props, find).Some?
    requires IdleTarget(s, props, find).value.id in s.idleDeferralTimers
    ensures var task := IdleTarget(s, props, find).value;
            var fired := FireIdleDeferral(s, task.id).state;
            var again := HandleSessionIdle(fired, props, find, now, minIdleMs);
            again.outcome != AlreadyDeferred
            && (now - task.startedAt.value >= minIdleMs <==> again.outcome == Validating)
  {
    var task := IdleTarget(s, props, find).value;
    var fired := FireIdleDeferral(s, task.id).state;
    assert IdleTarget(fired, props, find) == IdleTarget(s, props, find);
  }

  datatype IdleVerdict =
    | StatusChanged
    | NoValidOutput
    | IncompleteTodos
    | CompletionRequested
    | Swallowed

  /**
   * The asynchronous continuation: `statusAfterValidation` and `statusAfterTodoCheck`
   * are the task's status when each await resumes; a rejected promise lands in the
   * final `catch`, which only logs.
   */
  function IdleContinuation(statusAfterValidation: Status, hasValidOutput: AsyncBool,
                            statusAfterTodoCheck: Status, hasIncompleteTodos: AsyncBool): (v: IdleVerdict)
    // completion is requested only with real output, no open todos, and a task still running at both checks
    ensures v == CompletionRequested <==>
              && statusAfterValidation == Running && hasValidOutput == Resolved(true)
              && statusAfterTodoCheck == Running && hasIncompleteTodos == Resolved(false)
    ensures hasValidOutput == Rejected ==> v == Swallowed
    ensures hasValidOutput.Resolved? && statusAfterValidation != Running ==> v == StatusChanged
    ensures hasValidOutput == Resolved(false) && statusAfterValidation == Running ==> v == NoValidOutput
  {
    match hasValidOutput
    case Rejected => Swallowed
    case Resolved(valid) =>
      if statusAfterValidation != Running then StatusChanged
      else if !valid then NoValidOutput
      else
        match hasIncompleteTodos
        case Rejected => Swallowed
        case Resolved(incomplete) =>
          if statusAfterTodoCheck != Running then StatusChanged
          else if incomplete then IncompleteTodos
          else CompletionRequested
  }

  /** The continuation's only outward call is `tryCompleteTask`; it never touches the scheduler's maps. */
  function ResumeIdle(s: Scheduler, task: Task, statusAfterValidation: Status, hasValidOutput: AsyncBool,
                      statusAfterTodoCheck: Status, hasIncompleteTodos: AsyncBool): (r: Step)
    ensures r.state == s
    ensures r.effects == [TryComplete(task.id, IdleCompletionSource)] || r.effects == []
    ensures r.effects != [] <==>
              && statusAfterValidation == Running && hasValidOutput == Resolved(true)
              && statusAfterTodoCheck == Running && hasIncompleteTodos == Resolved(false)
  {
    match IdleContinuation(statusAfterValidation, hasValidOutput, statusAfterTodoCheck, hasIncompleteTodos)
    case CompletionRequested => Step(s, [TryComplete(task.id, IdleCompletionSource)])
    case _ => Unchanged(s)
  }
}

=== FILE: js.dfy ===
/**
 * JavaScript values as they reach the duck-typed event and configuration code:
 * just enough of the language to state `typeof`, truthiness and property access.
 */
module Js {

  import opened Base

  datatype JsValue =
    | JsUndefined
    | JsNull
    | JsBool(b: bool)
    | JsNum(n: int)
    | JsStr(s: string)
    | JsObj(fields: map<string, JsValue>)
    | JsArr(items: seq<JsValue>)
    | JsFunc(fid: nat)

  /** `typeof v === "object" && v !== null` (arrays are objects too). */
  predicate IsRecord(v: JsValue) {
    v.JsObj? || v.JsArr?
  }

  /** JavaScript truthiness (`NaN` is not modelled: numbers are integers). */
  predicate Truthy(v: JsValue) {
    match v
    case JsUndefined => false
    case JsNull => false
    case JsBool(b) => b
    case JsNum(n) => n != 0
    case JsStr(s) => s != ""
    case _ => true
  }

  /** `v[key]` on a record; the names probed by the model are never array indices or `length`. */
  function Get(v: JsValue, key: string): (r: JsValue)
    ensures r != JsUndefined ==> v.JsObj? && key in v.fields
  {
    if v.JsObj? && key in v.fields then v.fields[key] else JsUndefined
  }

  /** `typeof obj[key] === "string" ? obj[key] : undefined`. */
  function GetString(v: JsValue, key: string): (r: Option<string>)
    ensures r.Some? <==> Get(v, key).JsStr?
    ensures r.Some? ==> r.value == Get(v, key).s
  {
    match Get(v, key)
    case JsStr(s) => Some(s)
    case _ => None
  }

  /** A string that is present and truthy (non-empty). */
  predicate NonEmpty(o: Option<string>) {
    o.Some? && o.value != ""
  }

  /** `v == null`: the values `??` and `?.` fall through on. */
  predicate Nullish(v: JsValue) {
    v == JsUndefined || v == JsNull
  }

  /** `x ?? y`: only `undefined` and `null` fall through. */
  function Coalesce(x: JsValue, y: JsValue): (r: JsValue)
    ensures x != JsUndefined && x != JsNull ==> r == x
    ensures x == JsUndefined || x == JsNull ==> r == y
  {
    if x == JsUndefined || x == JsNull then y else x
  }
}

=== FILE: pluginconfig.dfy ===
/**
 * Plugin configuration merging and lenient parsing (plugin-config.ts). A
 * configuration is a JSON object, modelled as a map from top-level key to
 * value. The schema's `safeParse` and the shared `deepMerge` are parameters
 * with no assumed behaviour.
 */
module PluginConfig {
  import opened Base
  import opened Js
  import opened Seqs

  type Config = map<string, JsValue>

  /** `schema.safeParse(value)`: the parsed object on success, `None` on failure. */
  type SafeParse = Config -> Option<Config>

  /** The list-valued keys merged as duplicate-free unions. */
  const DisabledKeys: set<string> :=
    {"disabled_agents", "disabled_mcps", "disabled_hooks", "disabled_commands", "disabled_skills"}

  /** The object-valued keys merged with `deepMerge`. */
  const DeepMergedKeys: set<string> := {"agents", "categories", "claude_code"}

  /** No key is merged both ways. */
  lemma MergedKeysDisjoint()
    ensures DisabledKeys * DeepMergedKeys == {}
  {
  }

  /** `config[key]`; an absent key reads as `undefined`. */
  function Field(c: Config, key: string): JsValue {
    if key in c then c[key] else JsUndefined
  }

  /** `value ?? []` spread into an array; the schema admits only arrays for these keys. */
  function ListOrEmpty(v: JsValue): seq<JsValue> {
    if v.JsArr? then v.items else []
  }

  /** `[...new Set([...(base ?? []), ...(override ?? [])])]` */
  function UnionList(base: JsValue, override: JsValue): (r: seq<JsValue>)
    ensures NoDuplicates(r)
    ensures forall x :: x in r <==> x in ListOrEmpty(base) || x in ListOrEmpty(override)
    // base elements come first, in their own first-occurrence order
    ensures |Dedup(ListOrEmpty(base))| <= |r| && r[..|Dedup(ListOrEmpty(base))|] == Dedup(ListOrEmpty(base))
    // then the override's new elements, in their own first-occurrence order
    ensures r == Dedup(ListOrEmpty(base)) + DedupAfter(ListOrEmpty(override), ListOrEmpty(base))
  {
    var all := ListOrEmpty(base) + ListOrEmpty(override);
    DedupPrefix(ListOrEmpty(base), ListOrEmpty(override));
    DedupAppend(ListOrEmpty(base), ListOrEmpty(override));
    assert forall x :: x in Dedup(all) <==> x in all;
    Dedup(all)
  }

  /** `mergeConfigs(base, override)` */
  function MergeConfigs(base: Config, override: Config, deepMerge: (JsValue, JsValue) -> JsValue): (r: Config)
    // every key of either side survives, and the merged keys are always present
    ensures r.Keys == base.Keys + override.Keys + DisabledKeys + DeepMergedKeys
    // keys not merged specially: the override's value when it has the key, else the base's
    ensures forall k :: k in r && k !in DisabledKeys && k !in DeepMergedKeys ==>
              r[k] == if k in override then override[k] else base[k]
    ensures forall k :: k in DeepMergedKeys ==> r[k] == deepMerge(Field(base, k), Field(override, k))
    ensures forall k :: k in DisabledKeys ==> r[k] == JsArr(UnionList(Field(base, k), Field(override, k)))
  {
    var deep := DeepMerged(base, override, deepMerge);
    var unions := Unions(base, override);
    MergedKeysDisjoint();
    MergeLayers(base, override, deep, unions, DeepMergedKeys, DisabledKeys);
    base + override + deep + unions
  }

  /** Layering two maps over disjoint keys on top of `b` over `a`: the last layer holding a key wins. */
  lemma MergeLayers(a: Config, b: Config, d: Config, u: Config, dKeys: set<string>, uKeys: set<string>)
    requires d.Keys == dKeys && u.Keys == uKeys && dKeys * uKeys == {}
    ensures var m := a + b + d + u;
            && m.Keys == a.Keys + b.Keys + uKeys + dKeys
            && (forall k :: k in m && k !in uKeys && k !in dKeys ==> m[k] == if k in b then b[k] else a[k])
            && (forall k :: k in dKeys ==> m[k] == d[k])
            && (forall k :: k in uKeys ==> m[k] == u[k])
  {
    var m := a + b + d + u;
    forall k | k in d ensures m[k] == d[k] {
      assert k !in d.Keys * u.Keys;
    }
  }

  /** `agents`, `categories` and `claude_code`, each deep-merged. */
  function DeepMerged(base: Config, override: Config, deepMerge: (JsValue, JsValue) -> JsValue): (r: Config)
    ensures r.Keys == DeepMergedKeys
    ensures forall k :: k in r ==> r[k] == deepMerge(Field(base, k), Field(override, k))
  {
    map k | k in DeepMergedKeys :: deepMerge(Field(base, k), Field(override, k))
  }

  /** The five `disabled_*` lists, each the union of both sides. */
  function Unions(base: Config, override: Config): (r: Config)
    ensures r.Keys == DisabledKeys
    ensures forall k :: k in r ==> r[k] == JsArr(UnionList(Field(base, k), Field(override, k)))
  {
    map k | k in DisabledKeys :: JsArr(UnionList(Field(base, k), Field(override, k)))
  }

  /** A disabled list merged with itself keeps its first-occurrence order and loses only repeats. */
  lemma MergeDisabledIdempotent(c: Config, deepMerge: (JsValue, JsValue) -> JsValue, k: string)
    requires k in DisabledKeys
    requires k in c && c[k].JsArr? && NoDuplicates(c[k].items)
    ensures MergeConfigs(c, c, deepMerge)[k] == c[k]
  {
    var xs := c[k].items;
    var r := UnionList(c[k], c[k]);
    DedupOfDistinct(xs);
    assert r[..|xs|] == xs;
    assert |r| <= |xs| by {
      NoDuplicatesSubsetLength(r, xs);
    }
  }

  /** A duplicate-free sequence drawn from `ys` is no longer than `ys`'s distinct values, here `ys` itself. */
  lemma NoDuplicatesSubsetLength(r: seq<JsValue>, ys: seq<JsValue>)
    requires NoDuplicates(r) && NoDuplicates(ys)
    requires forall x :: x in r ==> x in ys
    ensures |r| <= |ys|
  {
    var rs := set x | x in r;
    var yset := set x | x in ys;
    assert rs <= yset;
    DistinctCard(r);
    DistinctCard(ys);
    assert |rs| <= |yset| by {
      SubsetCard(rs, yset);
    }
  }

  lemma SubsetCard(a: set<JsValue>, b: set<JsValue>)
    requires a <= b
    ensures |a| <= |b|
  {
    assert b == a + (b - a);
  }

  /** A duplicate-free sequence has as many distinct values as elements. */
  lemma {:induction false} DistinctCard(xs: seq<JsValue>)
    requires NoDuplicates(xs)
    ensures |set x | x in xs| == |xs|
    decreases |xs|
  {
    if |xs| > 0 {
      var init := xs[..|xs| - 1];
      DistinctCard(init);
      var last := xs[|xs| - 1];
      assert last !in init;
      assert (set x | x in xs) == (set x | x in init) + {last};
    }
  }

  /** `safeParse({ [key]: raw[key] })` succeeded with the key defined in its result. */
  predicate SectionParses(raw: Config, key: string, safeParse: SafeParse)
    requires key in raw
  {
    var parsed := safeParse(map[key := raw[key]]);
    parsed.Some? && Field(parsed.value, key) != JsUndefined
  }

  /**
   * `parseConfigPartially(raw)`: the full parse when the whole object is valid;
   * otherwise the object of the sections that parse on their own.
   */
  function ParseConfigPartially(raw: Config, safeParse: SafeParse): (r: Config)
    ensures safeParse(raw).Some? ==> r == safeParse(raw).value
    ensures safeParse(raw).None? ==>
              && (forall k :: k in r <==> k in raw && SectionParses(raw, k, safeParse))
              && (forall k :: k in r ==> r[k] == safeParse(map[k := raw[k]]).value[k])
  {
    match safeParse(raw)
    case Some(full) => full
    case None =>
      map k | k in raw && SectionParses(raw, k, safeParse) :: safeParse(map[k := raw[k]]).value[k]
  }

  /** A key the section parser rejects, or one it parses to `undefined` (an unknown key), is dropped. */
  lemma InvalidSectionsDropped(raw: Config, safeParse: SafeParse, k: string)
    requires safeParse(raw).None? && k in raw
    requires safeParse(map[k := raw[k]]).None? || Field(safeParse(map[k := raw[k]]).value, k) == JsUndefined
    ensures k !in ParseConfigPartially(raw, safeParse)
  {
  }
}

=== FILE: png.dfy ===
/**
 * The PNG container written by the desktop icon generator
 * (desktop/assets/create-icons.js): the CRC-32 of section 5.5 of the PNG
 * specification (ISO/IEC 15948), the chunk layout of its section 5.3 and the
 * signature and IHDR header of sections 5.2 and 11.2.2. The pixel data and its
 * zlib compression are not modelled: the compressed bytes are a parameter.
 */
module Png {
  import opened Base

  /** 2^32: the range of an unsigned 32-bit field. */
  const TwoTo32 := 0x1_0000_0000

  /** The reflected CRC-32 polynomial. */
  const Polynomial: bv32 := 0xEDB88320

  /**
   * One bit of the shift register, `(crc >>> 1) ^ (crc & 1 ? poly : 0)`,
   * written with a mask instead of a branch. JavaScript's bitwise operators
   * act on the 32-bit pattern a `bv32` is.
   */
  function StepBit(c: bv32): bv32 {
    (c >> 1) ^ (Polynomial & (0 - (c & 1)))
  }

  /** The mask form is the generator's conditional: the polynomial is applied exactly when the low bit is set. */
  lemma StepBitConditional(c: bv32)
    ensures StepBit(c) == (c >> 1) ^ (if c & 1 == 1 then Polynomial else 0)
  {
    if c & 1 == 1 {
      assert 0 - (c & 1) == 0xFFFF_FFFF;
    } else {
      assert c & 1 == 0;
    }
  }

  /** `n` steps of the shift register. */
  function StepBits(c: bv32, n: nat): bv32
    decreases n
  {
    if n == 0 then c else StepBits(StepBit(c), n - 1)
  }

  /** One byte: xor it into the low bits, then eight register steps. */
  function StepByte(c: bv32, b: Byte): bv32 {
    StepBits(c ^ (b as bv32), 8)
  }

  /** The register after feeding `bs` into a register holding `c`. */
  function Register(c: bv32, bs: seq<Byte>): bv32
    decreases |bs|, 1
  {
    if |bs| == 0 then c else Feed(c, bs[0], bs[1..])
  }

  /**
   * The register after feeding `b` and then `rest`. Kept apart from
   * `Register` so that unfolding `Register` once does not expose the bit
   * arithmetic of a step to proofs that only move CRCs around.
   */
  function Feed(c: bv32, b: Byte, rest: seq<Byte>): bv32
    decreases |rest| + 1, 0
  {
    Register(StepByte(c, b), rest)
  }

  /** The CRC of `bs`: register preset to all ones, result complemented. */
  function Crc(bs: seq<Byte>): bv32 {
    Register(0xFFFF_FFFF, bs) ^ 0xFFFF_FFFF
  }

  /** The inner loop of `crc32`: eight register steps on the register with a byte folded in. */
  method ShiftByte(start: bv32) returns (crc: bv32)
    ensures crc == StepBits(start, 8)
  {
    crc := start;
    var j := 0;
    while j < 8
      invariant 0 <= j <= 8
      invariant StepBits(crc, 8 - j) == StepBits(start, 8)
    {
      StepBitConditional(crc);
      crc := (crc >> 1) ^ (if crc & 1 == 1 then Polynomial else 0);
      j := j + 1;
    }
  }

  /** `crc32(buf)`, bit by bit as the generator computes it, as the unsigned number `>>> 0` yields. */
  method Crc32(buf: seq<Byte>) returns (r: int)
    ensures 0 <= r < TwoTo32
    ensures r == Crc(buf) as int
  {
    var crc := FeedAll(buf);
    r := Complement(crc);
  }

  /** The outer loop of `crc32`: every byte of `buf` fed into the preset register. */
  method FeedAll(buf: seq<Byte>) returns (crc: bv32)
    ensures Crc(buf) == crc ^ 0xFFFF_FFFF
  {
    crc := 0xFFFF_FFFF;
    var i := 0;
    while i < |buf|
      invariant 0 <= i <= |buf|
      invariant Register(crc, buf[i..]) == Register(0xFFFF_FFFF, buf)
    {
      ghost var before := crc;
      crc := FeedByte(crc, buf[i]);
      RegisterAdvance(before, crc, buf, i);
      i := i + 1;
    }
    CrcOfRegister(crc, buf);
  }

  /** A register that has consumed all of `buf` from the preset holds the CRC before its complement. */
  lemma CrcOfRegister(crc: bv32, buf: seq<Byte>)
    requires Register(crc, buf[|buf|..]) == Register(0xFFFF_FFFF, buf)
    ensures Crc(buf) == crc ^ 0xFFFF_FFFF
  {
    assert buf[|buf|..] == [];
  }

  /** One iteration of the outer loop: the byte folded into the register, then eight steps. */
  method FeedByte(crc: bv32, b: Byte) returns (next: bv32)
    ensures next == StepByte(crc, b)
  {
    next := ShiftByte(crc ^ (b as bv32));
  }

  /** `(crc ^ 0xFFFFFFFF) >>> 0`: the final complement, read as an unsigned number. */
  method Complement(crc: bv32) returns (r: int)
    ensures 0 <= r < TwoTo32
    ensures r == (crc ^ 0xFFFF_FFFF) as int
  {
    r := (crc ^ 0xFFFF_FFFF) as int;
  }

  /** After one more byte of `buf`, the register still leads to the same final value. */
  lemma RegisterAdvance(before: bv32, next: bv32, buf: seq<Byte>, i: nat)
    requires i < |buf| && next == StepByte(before, buf[i])
    ensures Register(next, buf[i + 1..]) == Register(before, buf[i..])
  {
    RegisterStep(before, buf[i..]);
    assert buf[i..][1..] == buf[i + 1..];
  }

  /** Feeding a non-empty input is feeding its first byte, then the rest. */
  lemma RegisterStep(c: bv32, bs: seq<Byte>)
    requires |bs| > 0
    ensures Register(c, bs) == Register(StepByte(c, bs[0]), bs[1..])
  {
    assert Register(c, bs) == Feed(c, bs[0], bs[1..]);
  }

  /** The CRC of nothing is 0: the preset and the final complement cancel. */
  lemma CrcEmpty()
    ensures Crc([]) == 0
  {
  }

  /**
   * The check value of the CRC-32 catalogue: the CRC of the ASCII digits
   * `123456789` is 0xCBF43926, which fixes the polynomial, the bit order,
   * the preset and the final complement.
   */
  lemma CrcCheckValue()
    ensures Crc([49, 50, 51, 52, 53, 54, 55, 56, 57]) == 0xCBF4_3926
  {
    RegisterDigits();
  }

  /** The register after `123456789`, before the final complement. */
  lemma RegisterDigits()
    ensures Register(0xFFFF_FFFF, [49, 50, 51, 52, 53, 54, 55, 56, 57]) == 0x340B_C6D9
  {
    var head: seq<Byte>, middle: seq<Byte>, tail: seq<Byte> := [49, 50, 51], [52, 53, 54], [55, 56, 57];
    DigitsHead();
    DigitsMiddle();
    DigitsTail();
    RegisterAppend(0xFFFF_FFFF, head, middle + tail);
    RegisterAppend(0x77B7_9C2D, middle, tail);
    DigitsConcat(head, middle, tail);
  }

  /** `123`, `456` and `789` together are `123456789`. */
  lemma DigitsConcat(head: seq<Byte>, middle: seq<Byte>, tail: seq<Byte>)
    requires head == [49, 50, 51] && middle == [52, 53, 54] && tail == [55, 56, 57]
    ensures head + (middle + tail) == [49, 50, 51, 52, 53, 54, 55, 56, 57]
  {
  }

  /** The register after `123`. */
  lemma DigitsHead()
    ensures Register(0xFFFF_FFFF, [49, 50, 51]) == 0x77B7_9C2D
  {
    var bs: seq<Byte> := [49, 50, 51];
    assert StepByte(0xFFFF_FFFF, 49) == 0x7C23_1048;
    assert StepByte(0x7C23_1048, 50) == 0xB0AC_BB32;
    assert StepByte(0xB0AC_BB32, 51) == 0x77B7_9C2D;
    RegisterStep(0xFFFF_FFFF, bs[0..]);
    assert bs[0..][1..] == bs[1..];
    RegisterStep(0x7C23_1048, bs[1..]);
    assert bs[1..][1..] == bs[2..];
    RegisterStep(0xB0AC_BB32, bs[2..]);
    assert bs[2..][1..] == [];
  }

  /** The register after `456`, following `123`. */
  lemma DigitsMiddle()
    ensures Register(0x77B7_9C2D, [52, 53, 54]) == 0xF68D_2C9E
  {
    var bs: seq<Byte> := [52, 53, 54];
    assert StepByte(0x77B7_9C2D, 52) == 0x641C_1F5C;
    assert StepByte(0x641C_1F5C, 53) == 0x340A_C5E3;
    assert StepByte(0x340A_C5E3, 54) == 0xF68D_2C9E;
    RegisterStep(0x77B7_9C2D, bs[0..]);
    assert bs[0..][1..] == bs[1..];
    RegisterStep(0x641C_1F5C, bs[1..]);
    assert bs[1..][1..] == bs[2..];
    RegisterStep(0x340A_C5E3, bs[2..]);
    assert bs[2..][1..] == [];
  }

  /** The register after `789`, following `123456`. */
  lemma DigitsTail()
    ensures Register(0xF68D_2C9E, [55, 56, 57]) == 0x340B_C6D9
  {
    var bs: seq<Byte> := [55, 56, 57];
    assert StepByte(0xF68D_2C9E, 55) == 0xAFFC_9660;
    assert StepByte(0xAFFC_9660, 56) == 0x651F_2550;
    assert StepByte(0x651F_2550, 57) == 0x340B_C6D9;
    RegisterStep(0xF68D_2C9E, bs[0..]);
    assert bs[0..][1..] == bs[1..];
    RegisterStep(0xAFFC_9660, bs[1..]);
    assert bs[1..][1..] == bs[2..];
    RegisterStep(0x651F_2550, bs[2..]);
    assert bs[2..][1..] == [];
  }

  /** The register can be fed piecewise: a CRC can be computed over a stream. */
  lemma {:induction false} RegisterAppend(c: bv32, a: seq<Byte>, b: seq<Byte>)
    ensures Register(c, a + b) == Register(Register(c, a), b)
    decreases |a|
  {
    if |a| > 0 {
      assert (a + b)[0] == a[0];
      assert (a + b)[1..] == a[1..] + b;
      RegisterAppend(StepByte(c, a[0]), a[1..], b);
    } else {
      assert a + b == b;
    }
  }

  /** A value as four big-endian bytes: `writeUInt32BE`. */
  function BigEndian32(n: int): (r: seq<Byte>)
    requires 0 <= n < TwoTo32
    ensures |r| == 4
  {
    [n / 0x100_0000, (n / 0x1_0000) % 0x100, (n / 0x100) % 0x100, n % 0x100]
  }

  /** Four big-endian bytes as a value: `readUInt32BE`. */
  function ReadBigEndian32(bs: seq<Byte>): (r: int)
    requires |bs| >= 4
    ensures 0 <= r < TwoTo32
  {
    var b: seq<int> := bs;
    b[0] * 0x100_0000 + b[1] * 0x1_0000 + b[2] * 0x100 + b[3]
  }

  /** Reading back a written field gives the value. */
  lemma ReadWrite32(n: int)
    requires 0 <= n < TwoTo32
    ensures ReadBigEndian32(BigEndian32(n)) == n
  {
    var q := n / 0x100;
    var p := q / 0x100;
    assert n == q * 0x100 + n % 0x100;
    assert q == p * 0x100 + q % 0x100;
    assert p == (p / 0x100) * 0x100 + p % 0x100;
    assert p == n / 0x1_0000;
    assert p / 0x100 == n / 0x100_0000;
  }

  /** Writing back a read field gives the bytes. */
  lemma WriteRead32(bs: seq<Byte>)
    requires |bs| == 4
    ensures BigEndian32(ReadBigEndian32(bs)) == bs
  {
    var b: seq<int> := bs;
    var n := ReadBigEndian32(bs);
    assert n / 0x100 == b[0] * 0x1_0000 + b[1] * 0x100 + b[2];
    assert n / 0x1_0000 == b[0] * 0x100 + b[1];
    assert n / 0x100_0000 == b[0];
  }

  /** The four bytes of the CRC field. */
  function CrcField(bs: seq<Byte>): (r: seq<Byte>)
    ensures |r| == 4 && ReadBigEndian32(r) == Crc(bs) as int
  {
    ReadWrite32(Crc(bs) as int);
    BigEndian32(Crc(bs) as int)
  }

  /**
   * `createChunk(type, data)`: length, type, data, CRC of type and data.
   * `writeUInt32BE` throws when the length does not fit in 32 bits.
   */
  function CreateChunk(chunkType: seq<Byte>, data: seq<Byte>): (r: Result<seq<Byte>>)
    ensures r.Thrown? <==> |data| >= TwoTo32
    ensures r.Ok? ==> |r.value| == 8 + |chunkType| + |data|
  {
    if |data| >= TwoTo32 then Thrown
    else Ok(BigEndian32(|data|) + chunkType + data + CrcField(chunkType + data))
  }

  /** A chunk read from the front of `bs`: its type, its data and the bytes after it. */
  datatype Chunk = Chunk(chunkType: seq<Byte>, data: seq<Byte>)

  /**
   * Reading one chunk with a four-byte type, as a PNG decoder does; `None`
   * when the bytes run out or the stored CRC does not match.
   */
  function ParseChunk(bs: seq<Byte>): (r: Option<(Chunk, seq<Byte>)>)
    ensures r.Some? ==> |r.value.0.chunkType| == 4 && |r.value.1| < |bs|
  {
    if |bs| < 8 then None
    else
      var n := ReadBigEndian32(bs);
      if |bs| < 12 + n then None
      else
        var chunkType, data := bs[4..8], bs[8..8 + n];
        if bs[8 + n..12 + n] != CrcField(chunkType + data) then None
        else Some((Chunk(chunkType, data), bs[12 + n..]))
  }

  /** A written chunk reads back as its type and data, whatever follows it. */
  lemma ParseCreateChunk(chunkType: seq<Byte>, data: seq<Byte>, rest: seq<Byte>)
    requires |chunkType| == 4 && |data| < TwoTo32
    ensures ParseChunk(CreateChunk(chunkType, data).value + rest) == Some((Chunk(chunkType, data), rest))
  {
    var n := |data|;
    var bs := CreateChunk(chunkType, data).value + rest;
    ReadWrite32(n);
    assert bs[..4] == BigEndian32(n);
    assert bs[4..8] == chunkType;
    assert bs[8..8 + n] == data;
    assert bs[8 + n..12 + n] == CrcField(chunkType + data);
    assert bs[12 + n..] == rest;
  }

  /** The length field holds the length of the data, and the CRC field the CRC of type and data only. */
  lemma ChunkFields(chunkType: seq<Byte>, data: seq<Byte>)
    requires |chunkType| == 4 && |data| < TwoTo32
    ensures var c := CreateChunk(chunkType, data).value;
            && ReadBigEndian32(c[..4]) == |data|
            && ReadBigEndian32(c[8 + |data|..]) == Crc(chunkType + data) as int
  {
    var c := CreateChunk(chunkType, data).value;
    ReadWrite32(|data|);
    assert c[..4] == BigEndian32(|data|);
    assert c[8 + |data|..] == CrcField(chunkType + data);
  }

  /** The eight-byte PNG signature. */
  const Signature: seq<Byte> := [137, 80, 78, 71, 13, 10, 26, 10]

  /** The ASCII chunk types. */
  const Ihdr: seq<Byte> := [73, 72, 68, 82]
  const Idat: seq<Byte> := [73, 68, 65, 84]
  const Iend: seq<Byte> := [73, 69, 78, 68]

  /** Bit depth 8, colour type 6 (RGBA), and no compression, filter or interlace variants. */
  const HeaderTail: seq<Byte> := [8, 6, 0, 0, 0]

  /**
   * The CRC of the IEND type, so of every empty IEND chunk. (The type is
   * passed in rather than written as a literal, so that the verifier follows
   * the steps below instead of evaluating the whole CRC at once.)
   */
  lemma IendCrc(t: seq<Byte>)
    requires t == Iend
    ensures Crc(t) == 0xAE42_6082
  {
    assert StepByte(0xFFFF_FFFF, 73) == 0x22FD_E946;
    assert StepByte(0x22FD_E946, 69) == 0x992B_AC53;
    assert StepByte(0x992B_AC53, 78) == 0x639F_4775;
    assert StepByte(0x639F_4775, 68) == 0x51BD_9F7D;
    RegisterStep(0xFFFF_FFFF, t);
    RegisterStep(0x22FD_E946, t[1..]);
    RegisterStep(0x992B_AC53, t[2..]);
    RegisterStep(0x639F_4775, t[3..]);
    assert t[3..][1..] == [];
  }

  /** The trailer every generated file ends with: the twelve bytes of an empty IEND chunk. */
  lemma IendChunkBytes(t: seq<Byte>)
    requires t == Iend
    ensures CreateChunk(t, []) == Ok([0, 0, 0, 0, 73, 69, 78, 68, 0xAE, 0x42, 0x60, 0x82])
  {
    var field := CrcField(t + []);
    IendField(t);
    var zero: seq<Byte> := [0, 0, 0, 0];
    assert BigEndian32(0) == zero;
    assert CreateChunk(t, []) == Ok(zero + t + [] + field);
    TrailerConcat(zero, t, field);
  }

  /** The CRC field of an IEND chunk. */
  lemma IendField(t: seq<Byte>)
    requires t == Iend
    ensures CrcField(t + []) == [0xAE, 0x42, 0x60, 0x82]
  {
    assert t + [] == t;
    IendCrc(t);
    var field := CrcField(t);
    assert ReadBigEndian32(field) == 0xAE42_6082;
    WriteRead32(field);
    IendCrcBytes();
  }

  /** The twelve trailer bytes laid out: zero length, `IEND`, CRC. */
  lemma TrailerConcat(zero: seq<Byte>, t: seq<Byte>, field: seq<Byte>)
    requires zero == [0, 0, 0, 0] && t == Iend && field == [0xAE, 0x42, 0x60, 0x82]
    ensures zero + t + [] + field == [0, 0, 0, 0, 73, 69, 78, 68, 0xAE, 0x42, 0x60, 0x82]
  {
  }

  /** The IEND CRC written big-endian. */
  lemma IendCrcBytes()
    ensures BigEndian32(0xAE42_6082) == [0xAE, 0x42, 0x60, 0x82]
  {
  }

  /** The 13 bytes of IHDR data for a square image; `writeUInt32BE` throws outside 32 bits. */
  function IhdrData(size: int): (r: Result<seq<Byte>>)
    ensures r.Thrown? <==> !(0 <= size < TwoTo32)
    ensures r.Ok? ==> && |r.value| == 13
                      && ReadBigEndian32(r.value[0..4]) == size
                      && ReadBigEndian32(r.value[4..8]) == size
                      && r.value[8..] == HeaderTail
  {
    if !(0 <= size < TwoTo32) then Thrown
    else
      ReadWrite32(size);
      var r := BigEndian32(size) + BigEndian32(size) + HeaderTail;
      assert r[0..4] == BigEndian32(size) && r[4..8] == BigEndian32(size);
      Ok(r)
  }

  /**
   * `createMinimalPNG(size)`: the signature, then IHDR, IDAT holding the
   * compressed image data, and an empty IEND.
   */
  function CreateMinimalPng(size: int, compressed: seq<Byte>): (r: Result<seq<Byte>>)
    ensures r.Thrown? <==> !(0 <= size < TwoTo32) || |compressed| >= TwoTo32
    ensures r.Ok? ==> IsSignedPng(r.value)
  {
    match IhdrData(size)
    case Thrown => Thrown
    case Ok(header) =>
      if |compressed| >= TwoTo32 then Thrown
      else
        var r := Signature + CreateChunk(Ihdr, header).value + CreateChunk(Idat, compressed).value
                 + CreateChunk(Iend, []).value;
        assert r[..8] == Signature;
        Ok(r)
  }

  /** The file opens with the PNG signature. */
  predicate IsSignedPng(bs: seq<Byte>) {
    |bs| >= 8 && bs[..8] == Signature
  }

  /** Reading the chunks of a PNG file body. */
  function ParseChunks(bs: seq<Byte>): (r: Option<seq<Chunk>>)
    decreases |bs|
  {
    if |bs| == 0 then Some([])
    else
      match ParseChunk(bs)
      case None => None
      case Some((c, rest)) =>
        match ParseChunks(rest)
        case None => None
        case Some(cs) => Some([c] + cs)
  }

  /** A chunk `createChunk` can write: a four-byte type and data whose length fits the length field. */
  predicate Writable(c: Chunk) {
    |c.chunkType| == 4 && |c.data| < TwoTo32
  }

  /** Chunks written one after another. */
  function WriteChunks(cs: seq<Chunk>): seq<Byte>
    requires forall i :: 0 <= i < |cs| ==> Writable(cs[i])
    decreases |cs|
  {
    if |cs| == 0 then []
    else
      assert Writable(cs[0]);
      CreateChunk(cs[0].chunkType, cs[0].data).value + WriteChunks(cs[1..])
  }

  /** A written chunk in front of chunk bytes is read, then the rest is. */
  lemma ParseChunksCons(c: Chunk, rest: seq<Byte>, tail: seq<Chunk>)
    requires Writable(c) && ParseChunks(rest) == Some(tail)
    ensures ParseChunks(CreateChunk(c.chunkType, c.data).value + rest) == Some([c] + tail)
  {
    ParseCreateChunk(c.chunkType, c.data, rest);
  }

  /** Writing a non-empty run of chunks writes the first, then the others. */
  lemma WriteChunksCons(cs: seq<Chunk>)
    requires |cs| > 0 && forall i :: 0 <= i < |cs| ==> Writable(cs[i])
    ensures Writable(cs[0]) && WriteChunks(cs) == CreateChunk(cs[0].chunkType, cs[0].data).value + WriteChunks(cs[1..])
  {
  }

  /** Any sequence of writable chunks reads back as itself. */
  lemma {:induction false} ParseWriteChunks(cs: seq<Chunk>)
    requires forall i :: 0 <= i < |cs| ==> Writable(cs[i])
    ensures ParseChunks(WriteChunks(cs)) == Some(cs)
    decreases |cs|
  {
    if |cs| > 0 {
      ParseWriteChunks(cs[1..]);
      ParseWriteStep(cs);
    }
  }

  /** The first chunk written in front of chunks that read back reads back with them. */
  lemma {:induction false} ParseWriteStep(cs: seq<Chunk>)
    requires |cs| > 0 && forall i :: 0 <= i < |cs| ==> Writable(cs[i])
    requires ParseChunks(WriteChunks(cs[1..])) == Some(cs[1..])
    ensures ParseChunks(WriteChunks(cs)) == Some(cs)
  {
    WriteChunksCons(cs);
    ParseChunksCons(cs[0], WriteChunks(cs[1..]), cs[1..]);
    assert [cs[0]] + cs[1..] == cs;
  }

  /** The chunks of a generated icon. */
  function IconChunks(header: seq<Byte>, compressed: seq<Byte>): seq<Chunk> {
    [Chunk(Ihdr, header), Chunk(Idat, compressed), Chunk(Iend, [])]
  }

  /** After the signature, a generated icon is its three chunks written in order. */
  lemma MinimalPngLayout(size: int, compressed: seq<Byte>)
    requires 0 <= size < TwoTo32 && |compressed| < TwoTo32
    ensures var cs := IconChunks(IhdrData(size).value, compressed);
            && (forall i :: 0 <= i < |cs| ==> Writable(cs[i]))
            && CreateMinimalPng(size, compressed).value == Signature + WriteChunks(cs)
  {
    var header := IhdrData(size).value;
    WriteThree(Chunk(Ihdr, header), Chunk(Idat, compressed), Chunk(Iend, []));
  }

  /** Three chunks written in order are the first, then the second, then the third. */
  lemma WriteThree(x: Chunk, y: Chunk, z: Chunk)
    requires Writable(x) && Writable(y) && Writable(z)
    ensures var cs := [x, y, z];
            && (forall i :: 0 <= i < |cs| ==> Writable(cs[i]))
            && WriteChunks(cs) == CreateChunk(x.chunkType, x.data).value + CreateChunk(y.chunkType, y.data).value
                                  + CreateChunk(z.chunkType, z.data).value
  {
    var cs := [x, y, z];
    WriteChunksCons(cs);
    assert cs[1..] == [y, z];
    WriteChunksCons(cs[1..]);
    assert cs[1..][1..] == [z];
    WriteChunksCons(cs[1..][1..]);
    assert cs[1..][1..][1..] == [];
  }

  /**
   * A generated icon reads back as IHDR with the requested width and height,
   * IDAT with the compressed data, and IEND, each with a valid CRC.
   */
  lemma ParseMinimalPng(size: int, compressed: seq<Byte>)
    requires 0 <= size < TwoTo32 && |compressed| < TwoTo32
    ensures var png := CreateMinimalPng(size, compressed).value;
            var header := IhdrData(size).value;
            && ParseChunks(png[8..]) == Some(IconChunks(header, compressed))
            && ReadBigEndian32(header[0..4]) == size && ReadBigEndian32(header[4..8]) == size
  {
    var cs := IconChunks(IhdrData(size).value, compressed);
    MinimalPngLayout(size, compressed);
    ParseWriteChunks(cs);
    var png := CreateMinimalPng(size, compressed).value;
    assert png[8..] == WriteChunks(cs);
  }
}

=== FILE: pruner.dfy ===
/**
 * The stale-task pruner's per-task callback (stale-task-pruner.ts,
 * `onTaskPruned`): force the task into `error`, hand back its concurrency key,
 * take it out of its launch queue if it was still waiting, and forget it.
 * Which tasks are stale is decided by the task poller, which is not part of
 * this model: the victims arrive as a sequence of ids.
 */
module StalePruner {
  import opened Base
  import opened Js
  import opened Seqs
  import opened Tasks
  import opened Cleanup

  /** `queuesByKey` after splicing the first `id` out of the queue under `key`; an emptied queue is deleted. */
  function SpliceFromQueue(queues: map<string, seq<TaskId>>, key: string, id: TaskId): (r: map<string, seq<TaskId>>)
    ensures key !in queues || id !in queues[key] ==> r == queues
    ensures key in queues && id in queues[key] ==>
              if |queues[key]| == 1 then r == queues - {key}
              else r == queues[key := RemoveFirst(queues[key], id)]
    // every other queue keeps its entries and their order
    ensures forall k :: k in queues && k != key ==> k in r && r[k] == queues[k]
    ensures r.Keys <= queues.Keys
  {
    if key in queues && id in queues[key] then
      var q := RemoveFirst(queues[key], id);
      if |q| == 0 then queues - {key} else queues[key := q]
    else queues
  }

  /** `onTaskPruned(taskId, task, errorMessage)`; the clock reading is `now`. */
  function OnTaskPruned(s: Scheduler, taskId: TaskId, task: Task, errorMessage: string, now: int): (r: Teardown)
    // the task is failed with the supplied message
    ensures r.task.status == Error && r.task.error == Some(errorMessage) && r.task.completedAt == Some(now)
    // a held key is released once and cleared
    ensures Releases(r.effects) == if HoldsKey(task) then [task.concurrencyKey.value] else []
    ensures !HoldsKey(r.task)
    ensures HoldsKey(task) ==> r.task.concurrencyKey.None?
    ensures r.task == task.(status := Error, error := Some(errorMessage), completedAt := Some(now),
                            concurrencyKey := r.task.concurrencyKey)
    ensures CleanupPendingByParent(task.id) in r.effects
    ensures Cleared(r.effects) == [taskId] && Cancels(r.effects) == []
    // pending-ness is read before the status is overwritten
    ensures task.status == Pending ==> r.state.queuesByKey == SpliceFromQueue(s.queuesByKey, QueueKey(task), taskId)
    ensures task.status != Pending ==> r.state.queuesByKey == s.queuesByKey
    // the registry and the session index forget the task; the timer maps are not touched
    ensures r.state.tasks == s.tasks - {taskId}
    ensures r.state.subagentSessions ==
              if NonEmpty(task.sessionID) then s.subagentSessions - {task.sessionID.value} else s.subagentSessions
    ensures r.state.idleDeferralTimers == s.idleDeferralTimers && r.state.completionTimers == s.completionTimers
  {
    var wasPending := task.status == Pending;
    var failed := task.(status := Error, error := Some(errorMessage), completedAt := Some(now));
    var release := HoldsKey(failed);
    var released := if release then failed.(concurrencyKey := None) else failed;
    var calls := (if release then [ReleaseKey(task.concurrencyKey.GetOr(""))] else [])
                 + [CleanupPendingByParent(task.id), ClearNotifications(taskId)];
    var queues := if wasPending then SpliceFromQueue(s.queuesByKey, QueueKey(task), taskId) else s.queuesByKey;
    var sessions := if NonEmpty(task.sessionID) then s.subagentSessions - {task.sessionID.value}
                    else s.subagentSessions;
    TeardownCalls(release, task.concurrencyKey.GetOr(""), task.id, taskId);
    Teardown(s.(tasks := s.tasks - {taskId}, queuesByKey := queues, subagentSessions := sessions), released, calls)
  }

  /**
   * Splicing a pending task out of its own queue keeps the queues well formed
   * once the task has left the registry: it sat in no other queue, at most once.
   */
  lemma SpliceKeepsQueuesWellFormed(s: Scheduler, taskId: TaskId)
    requires QueuesWellFormed(s) && taskId in s.tasks && s.tasks[taskId].status == Pending
    ensures var s' := s.(tasks := s.tasks - {taskId},
                         queuesByKey := SpliceFromQueue(s.queuesByKey, QueueKey(s.tasks[taskId]), taskId));
            QueuesWellFormed(s')
  {
    var task := s.tasks[taskId];
    var key := QueueKey(task);
    var queues := SpliceFromQueue(s.queuesByKey, key, taskId);
    var s' := s.(tasks := s.tasks - {taskId}, queuesByKey := queues);
    forall k | k in queues
      ensures |queues[k]| > 0 && NoDuplicates(queues[k])
      ensures forall i :: 0 <= i < |queues[k]| ==>
                && queues[k][i] in s'.tasks
                && s'.tasks[queues[k][i]].status == Pending
                && QueueKey(s'.tasks[queues[k][i]]) == k
    {
      if k == key && taskId in s.queuesByKey[key] {
        var q := s.queuesByKey[key];
        RemoveFirstDistinct(q, taskId);
        assert queues[k] == RemoveFirst(q, taskId);
        forall i | 0 <= i < |queues[k]| ensures queues[k][i] in q && queues[k][i] != taskId {
          assert queues[k][i] in RemoveFirst(q, taskId);
        }
      } else {
        assert queues[k] == s.queuesByKey[k];
      }
    }
  }

  /**
   * The precondition of `OnTaskPrunedPreservesValid` is needed: a timer armed
   * for the pruned task outlives its registration, since the pruner leaves the
   * timer maps alone.
   */
  lemma PrunedTimerOutlivesTask(s: Scheduler, taskId: TaskId, errorMessage: string, now: int)
    requires taskId in s.tasks
    requires taskId in s.idleDeferralTimers || taskId in s.completionTimers
    ensures !TimersRegistered(OnTaskPruned(s, taskId, s.tasks[taskId], errorMessage, now).state)
  {
  }

  /** Pruning a registered task keeps the scheduler invariant when it has no timer armed. */
  lemma OnTaskPrunedPreservesValid(s: Scheduler, taskId: TaskId, errorMessage: string, now: int)
    requires Valid(s) && taskId in s.tasks
    requires taskId !in s.idleDeferralTimers && taskId !in s.completionTimers
    ensures Valid(OnTaskPruned(s, taskId, s.tasks[taskId], errorMessage, now).state)
  {
    var task := s.tasks[taskId];
    var r := OnTaskPruned(s, taskId, task, errorMessage, now).state;
    if task.status == Pending {
      SpliceKeepsQueuesWellFormed(s, taskId);
    } else {
      forall k | k in r.queuesByKey
        ensures forall i :: 0 <= i < |r.queuesByKey[k]| ==> r.queuesByKey[k][i] in r.tasks
      {
        forall i | 0 <= i < |r.queuesByKey[k]| ensures r.queuesByKey[k][i] in r.tasks {
          assert s.tasks[s.queuesByKey[k][i]].status == Pending;
        }
      }
    }
  }

  /**
   * `pruneStaleState`: the poller's callback applied to each stale id in turn;
   * an id that is no longer registered is passed over.
   */
  function PruneStaleState(s: Scheduler, victims: seq<TaskId>, errorMessage: TaskId -> string, now: int): (r: Step)
    ensures forall i :: 0 <= i < |victims| ==> victims[i] !in r.state.tasks
    ensures forall id :: id in s.tasks && id !in victims ==> id in r.state.tasks && r.state.tasks[id] == s.tasks[id]
    ensures r.state.tasks.Keys <= s.tasks.Keys
    ensures r.state.idleDeferralTimers == s.idleDeferralTimers && r.state.completionTimers == s.completionTimers
    ensures Cancels(r.effects) == []
    // each registered victim's held key is released once, in sweep order, and its session forgotten
    ensures Releases(r.effects) == VictimKeys(s.tasks, victims)
    ensures r.state.subagentSessions == s.subagentSessions - VictimSessions(s.tasks, victims)
    decreases |victims|
  {
    if |victims| == 0 then Unchanged(s)
    else
      var id := victims[0];
      var first := if id in s.tasks then OnTaskPruned(s, id, s.tasks[id], errorMessage(id), now).state else s;
      var firstEffects := if id in s.tasks then OnTaskPruned(s, id, s.tasks[id], errorMessage(id), now).effects else [];
      var rest := PruneStaleState(first, victims[1..], errorMessage, now);
      ProjectionsAppend(firstEffects, rest.effects);
      PruneStepTasks(s.tasks, victims, first.tasks, rest.state.tasks);
      VictimSessionsStep(s.tasks, victims);
      Step(rest.state, firstEffects + rest.effects)
  }

  /** The keys the registered victims hold, in sweep order; a victim already pruned is not counted again. */
  function VictimKeys(tasks: map<TaskId, Task>, victims: seq<TaskId>): (r: seq<string>)
    ensures |r| <= |victims|
    decreases |victims|
  {
    if |victims| == 0 then []
    else
      var id := victims[0];
      if id in tasks then
        (if HoldsKey(tasks[id]) then [tasks[id].concurrencyKey.value] else []) + VictimKeys(tasks - {id}, victims[1..])
      else VictimKeys(tasks, victims[1..])
  }

  /** Every key released belongs to a registered victim that holds it. */
  lemma {:induction false} VictimKeysHeld(tasks: map<TaskId, Task>, victims: seq<TaskId>)
    ensures forall k :: k in VictimKeys(tasks, victims) ==>
              exists id :: id in victims && id in tasks && HoldsKey(tasks[id]) && k == tasks[id].concurrencyKey.value
    decreases |victims|
  {
    if |victims| > 0 {
      var id := victims[0];
      var rest := victims[1..];
      var left := if id in tasks then tasks - {id} else tasks;
      VictimKeysHeld(left, rest);
      forall k | k in VictimKeys(tasks, victims)
        ensures exists v :: v in victims && v in tasks && HoldsKey(tasks[v]) && k == tasks[v].concurrencyKey.value
      {
        if id in tasks && HoldsKey(tasks[id]) && k == tasks[id].concurrencyKey.value {
          assert id in victims;
        } else {
          assert k in VictimKeys(left, rest);
          var v :| v in rest && v in left && HoldsKey(left[v]) && k == left[v].concurrencyKey.value;
          assert v in victims && left[v] == tasks[v];
        }
      }
    }
  }

  /** The sessions of the registered victims. */
  function VictimSessions(tasks: map<TaskId, Task>, victims: seq<TaskId>): set<SessionId> {
    set id | id in victims && id in tasks && NonEmpty(tasks[id].sessionID) :: tasks[id].sessionID.value
  }

  /** The victims' sessions split into the first victim's and those of the rest among the tasks left. */
  lemma VictimSessionsStep(tasks: map<TaskId, Task>, victims: seq<TaskId>)
    requires |victims| > 0
    ensures var id := victims[0];
            VictimSessions(tasks, victims) ==
              if id in tasks then
                (if NonEmpty(tasks[id].sessionID) then {tasks[id].sessionID.value} else {})
                + VictimSessions(tasks - {id}, victims[1..])
              else VictimSessions(tasks, victims[1..])
  {
    var id := victims[0];
    assert forall v :: v in victims <==> v == id || v in victims[1..] by {
      assert victims == [id] + victims[1..];
    }
  }

  /** One pruning step followed by the rest of the sweep removes every victim and keeps every other task. */
  lemma PruneStepTasks(tasks: map<TaskId, Task>, victims: seq<TaskId>, first: map<TaskId, Task>, rest: map<TaskId, Task>)
    requires |victims| > 0
    requires first == if victims[0] in tasks then tasks - {victims[0]} else tasks
    requires forall i :: 0 <= i < |victims[1..]| ==> victims[1..][i] !in rest
    requires forall id :: id in first && id !in victims[1..] ==> id in rest && rest[id] == first[id]
    requires rest.Keys <= first.Keys
    ensures forall i :: 0 <= i < |victims| ==> victims[i] !in rest
    ensures forall id :: id in tasks && id !in victims ==> id in rest && rest[id] == tasks[id]
    ensures rest.Keys <= tasks.Keys
  {
    forall i | 0 < i < |victims| ensures victims[i] !in rest {
      assert victims[i] == victims[1..][i - 1];
    }
    forall id | id in tasks && id !in victims ensures id in rest && rest[id] == tasks[id] {
      assert id !in victims[1..];
    }
  }

  /** A sweep over victims without armed timers keeps the scheduler invariant. */
  lemma {:induction false} PruneStaleStatePreservesValid(s: Scheduler, victims: seq<TaskId>,
                                                         errorMessage: TaskId -> string, now: int)
    requires Valid(s)
    requires forall i :: 0 <= i < |victims| ==>
               victims[i] !in s.idleDeferralTimers && victims[i] !in s.completionTimers
    ensures Valid(PruneStaleState(s, victims, errorMessage, now).state)
    decreases |victims|
  {
    if |victims| > 0 {
      var id := victims[0];
      var first := if id in s.tasks then OnTaskPruned(s, id, s.tasks[id], errorMessage(id), now).state else s;
      if id in s.tasks {
        OnTaskPrunedPreservesValid(s, id, errorMessage(id), now);
      }
      PruneStaleStatePreservesValid(first, victims[1..], errorMessage, now);
    }
  }

  // ---------------------------------------------------------------- queues after a sweep

  /** `q` without the victims, in order. */
  function Unqueued(q: seq<TaskId>, victims: seq<TaskId>): (r: seq<TaskId>)
    ensures |r| <= |q|
    decreases |q|
  {
    if |q| == 0 then [] else (if q[0] in victims then [] else [q[0]]) + Unqueued(q[1..], victims)
  }

  /** An entry stays exactly when it is not a victim. */
  lemma {:induction false} UnqueuedMember(q: seq<TaskId>, victims: seq<TaskId>, x: TaskId)
    ensures x in Unqueued(q, victims) <==> x in q && x !in victims
    decreases |q|
  {
    if |q| > 0 {
      UnqueuedMember(q[1..], victims, x);
      assert q == [q[0]] + q[1..];
    }
  }

  /** Every launch queue without the victims; a queue left empty is gone. */
  function QueuesAfter(queues: map<string, seq<TaskId>>, victims: seq<TaskId>): (r: map<string, seq<TaskId>>)
    ensures r.Keys <= queues.Keys
  {
    map k | k in queues && Unqueued(queues[k], victims) != [] :: Unqueued(queues[k], victims)
  }

  /** A queue holding no victim is kept as it is. */
  lemma {:induction false} UnqueuedNone(q: seq<TaskId>, victims: seq<TaskId>)
    requires forall j :: 0 <= j < |q| ==> q[j] !in victims
    ensures Unqueued(q, victims) == q
    decreases |q|
  {
    if |q| > 0 {
      assert forall j :: 0 <= j < |q[1..]| ==> q[1..][j] == q[j + 1];
      UnqueuedNone(q[1..], victims);
      assert q == [q[0]] + q[1..];
    }
  }

  lemma {:induction false} UnqueuedAppend(a: seq<TaskId>, b: seq<TaskId>, victims: seq<TaskId>)
    ensures Unqueued(a + b, victims) == Unqueued(a, victims) + Unqueued(b, victims)
    decreases |a|
  {
    if |a| > 0 {
      var head := if a[0] in victims then [] else [a[0]];
      assert (a + b)[0] == a[0];
      assert (a + b)[1..] == a[1..] + b;
      assert Unqueued(a + b, victims) == head + Unqueued(a[1..] + b, victims);
      assert Unqueued(a, victims) == head + Unqueued(a[1..], victims);
      UnqueuedAppend(a[1..], b, victims);
      AppendAssoc(head, Unqueued(a[1..], victims), Unqueued(b, victims));
    } else {
      assert a + b == b;
    }
  }

  /** In a duplicate-free queue, splicing out the first `id` is removing `id`. */
  lemma UnqueuedRemoveFirst(q: seq<TaskId>, id: TaskId)
    requires NoDuplicates(q) && id in q
    ensures Unqueued(q, [id]) == RemoveFirst(q, id)
  {
    var i := FirstIndex(q, id);
    assert q == q[..i] + [id] + q[i + 1..];
    UnqueuedBefore(q, id);
    UnqueuedAfter(q, id, i);
    UnqueuedAround(q[..i], id, q[i + 1..]);
  }

  /** Nothing before the first `id` is `id`. */
  lemma UnqueuedBefore(q: seq<TaskId>, id: TaskId)
    ensures Unqueued(q[..FirstIndex(q, id)], [id]) == q[..FirstIndex(q, id)]
  {
    var pre := q[..FirstIndex(q, id)];
    forall j | 0 <= j < |pre| ensures pre[j] !in [id] {
      assert pre[j] == q[j];
    }
    UnqueuedNone(pre, [id]);
  }

  /** In a duplicate-free queue nothing after an `id` is `id`. */
  lemma UnqueuedAfter(q: seq<TaskId>, id: TaskId, i: nat)
    requires NoDuplicates(q) && i < |q| && q[i] == id
    ensures Unqueued(q[i + 1..], [id]) == q[i + 1..]
  {
    var post := q[i + 1..];
    forall j | 0 <= j < |post| ensures post[j] !in [id] {
      assert post[j] == q[i + 1 + j];
    }
    UnqueuedNone(post, [id]);
  }

  /** Removing `id` from `pre + [id] + post` drops that one entry. */
  lemma UnqueuedAround(pre: seq<TaskId>, id: TaskId, post: seq<TaskId>)
    ensures Unqueued(pre + [id] + post, [id]) == Unqueued(pre, [id]) + Unqueued(post, [id])
  {
    UnqueuedAppend(pre + [id], post, [id]);
    UnqueuedAppend(pre, [id], [id]);
    assert Unqueued([id], [id]) == [] by {
      assert [id][1..] == [];
    }
  }

  /** Removing one victim, then the rest, is removing them all. */
  lemma QueuesAfterCompose(queues: map<string, seq<TaskId>>, id: TaskId, rest: seq<TaskId>)
    ensures QueuesAfter(QueuesAfter(queues, [id]), rest) == QueuesAfter(queues, [id] + rest)
  {
    forall k | k in queues
      ensures Unqueued(Unqueued(queues[k], [id]), rest) == Unqueued(queues[k], [id] + rest)
    {
      UnqueuedCompose(queues[k], id, rest);
    }
    var lhs := QueuesAfter(QueuesAfter(queues, [id]), rest);
    var rhs := QueuesAfter(queues, [id] + rest);
    forall k | k in rhs ensures k in lhs {
      var x := rhs[k][0];
      UnqueuedMember(queues[k], [id] + rest, x);
      UnqueuedMember(queues[k], [id], x);
    }
  }

  lemma {:induction false} UnqueuedCompose(q: seq<TaskId>, id: TaskId, rest: seq<TaskId>)
    ensures Unqueued(Unqueued(q, [id]), rest) == Unqueued(q, [id] + rest)
    decreases |q|
  {
    if |q| > 0 {
      UnqueuedCompose(q[1..], id, rest);
      var head := if q[0] in [id] then [] else [q[0]];
      assert Unqueued(q, [id]) == head + Unqueued(q[1..], [id]);
      UnqueuedAppend(head, Unqueued(q[1..], [id]), rest);
      if head != [] {
        assert head[1..] == [];
      }
    }
  }

  /** Queues that do not hold `id` are all kept when `id` is removed. */
  lemma QueuesAfterUntouched(queues: map<string, seq<TaskId>>, id: TaskId)
    requires forall k :: k in queues ==> |queues[k]| > 0 && id !in queues[k]
    ensures QueuesAfter(queues, [id]) == queues
  {
    forall k | k in queues ensures Unqueued(queues[k], [id]) == queues[k] {
      UnqueuedNone(queues[k], [id]);
    }
  }

  /** When only the queue under `key` holds `id`, removing it is the splice. */
  lemma QueuesAfterSplice(queues: map<string, seq<TaskId>>, key: string, id: TaskId)
    requires key in queues && id in queues[key] && NoDuplicates(queues[key])
    requires forall k :: k in queues && k != key ==> |queues[k]| > 0 && id !in queues[k]
    ensures QueuesAfter(queues, [id]) == SpliceFromQueue(queues, key, id)
  {
    var after := QueuesAfter(queues, [id]);
    QueuesAfterOthers(queues, key, id);
    UnqueuedRemoveFirst(queues[key], id);
    ReplaceOrDrop(queues, after, key, RemoveFirst(queues[key], id));
  }

  /** Queues other than the one under `key` are kept when they do not hold `id`. */
  lemma QueuesAfterOthers(queues: map<string, seq<TaskId>>, key: string, id: TaskId)
    requires forall k :: k in queues && k != key ==> |queues[k]| > 0 && id !in queues[k]
    ensures forall k :: k in queues && k != key ==> k in QueuesAfter(queues, [id]) && QueuesAfter(queues, [id])[k] == queues[k]
  {
    forall k | k in queues && k != key ensures Unqueued(queues[k], [id]) == queues[k] {
      UnqueuedNone(queues[k], [id]);
    }
  }

  /** A map agreeing with `m` off `key` and holding `v` there unless `v` is empty. */
  lemma ReplaceOrDrop(m: map<string, seq<TaskId>>, after: map<string, seq<TaskId>>, key: string, v: seq<TaskId>)
    requires key in m && after.Keys <= m.Keys
    requires forall k :: k in m && k != key ==> k in after && after[k] == m[k]
    requires key in after <==> v != []
    requires key in after ==> after[key] == v
    ensures after == if v == [] then m - {key} else m[key := v]
  {
  }

  /** In well-formed queues an id is queued only under its own key, as a pending task. */
  lemma QueuedUnderOwnKey(s: Scheduler, id: TaskId, k: string)
    requires QueuesWellFormed(s) && k in s.queuesByKey && id in s.queuesByKey[k]
    ensures id in s.tasks && s.tasks[id].status == Pending && QueueKey(s.tasks[id]) == k
  {
    var j :| 0 <= j < |s.queuesByKey[k]| && s.queuesByKey[k][j] == id;
  }

  /** One pruning step on well-formed queues removes the id from them. */
  lemma PruneOneQueues(s: Scheduler, id: TaskId, errorMessage: string, now: int)
    requires QueuesWellFormed(s)
    ensures var first := if id in s.tasks then OnTaskPruned(s, id, s.tasks[id], errorMessage, now).state else s;
            first.queuesByKey == QueuesAfter(s.queuesByKey, [id])
  {
    var queues := s.queuesByKey;
    var pending := id in s.tasks && s.tasks[id].status == Pending;
    var key := if id in s.tasks then QueueKey(s.tasks[id]) else "";
    forall k | k in queues && !(pending && k == key) ensures |queues[k]| > 0 && id !in queues[k] {
      if id in queues[k] {
        QueuedUnderOwnKey(s, id, k);
      }
    }
    if pending && key in queues && id in queues[key] {
      QueuesAfterSplice(queues, key, id);
    } else {
      forall k | k in queues ensures |queues[k]| > 0 && id !in queues[k] {
      }
      QueuesAfterUntouched(queues, id);
    }
  }

  /** One pruning step keeps the queues well formed. */
  lemma PruneOneWellFormed(s: Scheduler, id: TaskId, errorMessage: string, now: int)
    requires QueuesWellFormed(s)
    ensures QueuesWellFormed(if id in s.tasks then OnTaskPruned(s, id, s.tasks[id], errorMessage, now).state else s)
  {
    if id in s.tasks {
      var r := OnTaskPruned(s, id, s.tasks[id], errorMessage, now).state;
      if s.tasks[id].status == Pending {
        SpliceKeepsQueuesWellFormed(s, id);
      } else {
        forall k | k in r.queuesByKey
          ensures forall i :: 0 <= i < |r.queuesByKey[k]| ==> r.queuesByKey[k][i] in r.tasks
        {
          forall i | 0 <= i < |r.queuesByKey[k]| ensures r.queuesByKey[k][i] in r.tasks {
            assert s.tasks[s.queuesByKey[k][i]].status == Pending;
          }
        }
      }
    }
  }

  /**
   * On well-formed queues the sweep takes every victim out of every launch
   * queue, keeping the other entries in order and dropping emptied queues.
   */
  lemma {:induction false} PruneStaleStateQueues(s: Scheduler, victims: seq<TaskId>,
                                                 errorMessage: TaskId -> string, now: int)
    requires QueuesWellFormed(s)
    ensures PruneStaleState(s, victims, errorMessage, now).state.queuesByKey == QueuesAfter(s.queuesByKey, victims)
    decreases |victims|
  {
    if |victims| == 0 {
      forall k | k in s.queuesByKey ensures Unqueued(s.queuesByKey[k], victims) == s.queuesByKey[k] {
        UnqueuedNone(s.queuesByKey[k], victims);
      }
    } else {
      var id := victims[0];
      var first := if id in s.tasks then OnTaskPruned(s, id, s.tasks[id], errorMessage(id), now).state else s;
      PruneOneQueues(s, id, errorMessage(id), now);
      PruneOneWellFormed(s, id, errorMessage(id), now);
      PruneStaleStateQueues(first, victims[1..], errorMessage, now);
      QueuesAfterCompose(s.queuesByKey, id, victims[1..]);
      assert [id] + victims[1..] == victims;
    }
  }
}

=== FILE: publish.dfy ===
/**
 * The pure parts of the release script (script/publish.ts): version bumping,
 * npm dist-tag derivation, the previous-beta-tag guess, the classification of
 * `npm publish` failures, and the batching of the platform packages. The
 * registry lookups, `git rev-parse` and `npm publish` itself are parameters.
 */
module Publish {
  import opened Base
  import opened Js
  import opened Strings
  import opened Seqs

  const PackageName: string := "oh-my-opencode"

  const PlatformPackages: seq<string> :=
    ["darwin-arm64", "darwin-x64", "linux-x64", "linux-arm64",
     "linux-x64-musl", "linux-arm64-musl", "windows-x64"]

  /** Platform packages are published this many at a time. */
  const BatchSize: nat := 2

  datatype Bump = Major | Minor | Patch

  // ---------------------------------------------------------------------
  // bumpVersion
  // ---------------------------------------------------------------------

  /**
   * A version component as JavaScript sees it after `.map(Number)` and array
   * destructuring: a number, `NaN`, or `undefined` when the component is missing.
   */
  datatype Component = Num(n: nat) | NotANumber | Missing

  /** `Number(s)` on a piece of a version string; only digit strings are numbers here. */
  function NumberOf(s: string): (c: Component)
    ensures c.Num? <==> AllDigits(s)
    ensures c.Num? ==> c.n == DigitsValue(s)
    ensures !c.Missing?
  {
    if AllDigits(s) then Num(DigitsValue(s)) else NotANumber
  }

  /** `x + 1`: `NaN` and `undefined` both give `NaN`. */
  function PlusOne(c: Component): (r: Component)
    ensures r.Num? <==> c.Num?
    ensures c.Num? ==> r.n == c.n + 1
  {
    if c.Num? then Num(c.n + 1) else NotANumber
  }

  /** Template interpolation `${x}`. */
  function Render(c: Component): (s: string)
    ensures '.' !in s && '-' !in s
  {
    match c
    case Num(n) => DecimalHasNo(n, '.'); DecimalHasNo(n, '-'); Decimal(n)
    case NotANumber => "NaN"
    case Missing => "undefined"
  }

  /** `[major, minor, patch] = parts.map(Number)` at position `i`. */
  function ComponentAt(parts: seq<string>, i: nat): Component {
    if i < |parts| then NumberOf(parts[i]) else Missing
  }

  /** `version.split("-")[0]`: everything before the first `-`. */
  function BaseVersion(version: string): (b: string)
    ensures '-' !in b
    ensures IsPrefix(b, version)
  {
    Split(version, '-')[0]
  }

  /** `a.b.c` from three rendered components. */
  function Dotted(a: string, b: string, c: string): string {
    a + "." + b + "." + c
  }

  /** `bumpVersion(version, type)` */
  function BumpVersion(version: string, kind: Bump): (r: string)
    // always three dot-separated components; the ones below the bumped one are zero
    ensures var parts := Split(r, '.');
            && |parts| == 3
            && (kind == Major ==> parts[1] == "0" && parts[2] == "0")
            && (kind == Minor ==> parts[2] == "0")
  {
    var parts := Split(BaseVersion(version), '.');
    var major := ComponentAt(parts, 0);
    var minor := ComponentAt(parts, 1);
    var patch := ComponentAt(parts, 2);
    match kind
    case Major => DottedSplit(Render(PlusOne(major)), "0", "0"); Dotted(Render(PlusOne(major)), "0", "0")
    case Minor => DottedSplit(Render(major), Render(PlusOne(minor)), "0"); Dotted(Render(major), Render(PlusOne(minor)), "0")
    case Patch =>
      DottedSplit(Render(major), Render(minor), Render(PlusOne(patch)));
      Dotted(Render(major), Render(minor), Render(PlusOne(patch)))
  }

  /** `String(n)` holds digits only, so no separator. */
  lemma DecimalHasNo(n: nat, c: char)
    requires !IsDigit(c)
    ensures c !in Decimal(n)
  {
  }

  /** Splitting `a.b.c` on `.` gives the three pieces back. */
  lemma DottedSplit(a: string, b: string, c: string)
    requires '.' !in a && '.' !in b && '.' !in c
    ensures Split(Dotted(a, b, c), '.') == [a, b, c]
  {
    assert Dotted(a, b, c) == a + ['.'] + (b + ['.'] + c);
    SplitAppend(a, '.', b + ['.'] + c);
    SplitAppend(b, '.', c);
    SplitWithout(c, '.');
  }

  /** The release version `M.m.p` written out in decimal. */
  function VersionString(major: nat, minor: nat, patch: nat): (v: string)
    ensures '-' !in v
    ensures Split(v, '.') == [Decimal(major), Decimal(minor), Decimal(patch)]
  {
    DecimalHasNo(major, '.'); DecimalHasNo(minor, '.'); DecimalHasNo(patch, '.');
    DecimalHasNo(major, '-'); DecimalHasNo(minor, '-'); DecimalHasNo(patch, '-');
    DottedSplit(Decimal(major), Decimal(minor), Decimal(patch));
    Dotted(Decimal(major), Decimal(minor), Decimal(patch))
  }

  /** A prerelease suffix (`-beta.7`, ...) has no effect on the bump. */
  lemma BumpDiscardsPrerelease(version: string, prerelease: string, kind: Bump)
    requires '-' !in version
    ensures BumpVersion(version + "-" + prerelease, kind) == BumpVersion(version, kind)
  {
    SplitAppend(version, '-', prerelease);
    SplitWithout(version, '-');
  }

  /**
   * On a well-formed version, with or without a prerelease suffix, major gives
   * (M+1).0.0, minor gives M.(m+1).0 and patch gives M.m.(p+1).
   */
  lemma BumpSemver(major: nat, minor: nat, patch: nat, suffix: string)
    requires suffix == "" || suffix[0] == '-'
    ensures BumpVersion(VersionString(major, minor, patch) + suffix, Major) == VersionString(major + 1, 0, 0)
    ensures BumpVersion(VersionString(major, minor, patch) + suffix, Minor) == VersionString(major, minor + 1, 0)
    ensures BumpVersion(VersionString(major, minor, patch) + suffix, Patch) == VersionString(major, minor, patch + 1)
  {
    var v := VersionString(major, minor, patch);
    BaseOfSuffixed(v, suffix);
    BaseOfSuffixed(v, "");
    assert v + "" == v;
    BumpRelease(major, minor, patch);
  }

  /** The base of a version followed by nothing or a `-` suffix is the version itself. */
  lemma BaseOfSuffixed(v: string, suffix: string)
    requires '-' !in v
    requires suffix == "" || suffix[0] == '-'
    ensures BaseVersion(v + suffix) == v
  {
    if suffix == "" {
      assert v + suffix == v;
      SplitWithout(v, '-');
    } else {
      assert v + suffix == v + ['-'] + suffix[1..];
      SplitAppend(v, '-', suffix[1..]);
    }
  }

  /** Bumping a release version `M.m.p` increments the chosen component. */
  lemma BumpRelease(major: nat, minor: nat, patch: nat)
    ensures BumpVersion(VersionString(major, minor, patch), Major) == VersionString(major + 1, 0, 0)
    ensures BumpVersion(VersionString(major, minor, patch), Minor) == VersionString(major, minor + 1, 0)
    ensures BumpVersion(VersionString(major, minor, patch), Patch) == VersionString(major, minor, patch + 1)
  {
    ReleaseComponents(major, minor, patch);
    assert Render(Num(0)) == "0";
  }

  /** The components `.map(Number)` reads from a release version are its three numbers. */
  lemma ReleaseComponents(major: nat, minor: nat, patch: nat)
    ensures var parts := Split(BaseVersion(VersionString(major, minor, patch)), '.');
            && ComponentAt(parts, 0) == Num(major)
            && ComponentAt(parts, 1) == Num(minor)
            && ComponentAt(parts, 2) == Num(patch)
  {
    var v := VersionString(major, minor, patch);
    SplitWithout(v, '-');
    assert BaseVersion(v) == v;
    DecimalRoundTrip(major);
    DecimalRoundTrip(minor);
    DecimalRoundTrip(patch);
  }

  /** The bump kind a `BUMP` value names; any other text names none. */
  function BumpOf(text: string): (r: Option<Bump>)
    ensures r == Some(Major) <==> text == "major"
    ensures r == Some(Minor) <==> text == "minor"
    ensures r == Some(Patch) <==> text == "patch"
  {
    if text == "major" then Some(Major)
    else if text == "minor" then Some(Minor)
    else if text == "patch" then Some(Patch)
    else None
  }

  /**
   * The version `main` publishes from the `VERSION` and `BUMP` variables:
   * `VERSION` when non-empty, else a bump of the previous version, patch when
   * `BUMP` is unset or empty. A `BUMP` naming no kind falls through
   * `bumpVersion`'s switch, so the version is `undefined` (`None`).
   */
  function NewVersion(previous: string, versionOverride: Option<string>, bump: Option<string>): (r: Option<string>)
    ensures NonEmpty(versionOverride) ==> r == Some(versionOverride.value)
    ensures !NonEmpty(versionOverride) && !NonEmpty(bump) ==> r == Some(BumpVersion(previous, Patch))
    ensures !NonEmpty(versionOverride) && NonEmpty(bump) ==>
              match BumpOf(bump.value)
              case Some(kind) => r == Some(BumpVersion(previous, kind))
              case None => r.None?
    // without an override, a version is produced exactly when `BUMP` is unset, empty or a known kind
    ensures !NonEmpty(versionOverride) ==> (r.Some? <==> !NonEmpty(bump) || BumpOf(bump.value).Some?)
  {
    if NonEmpty(versionOverride) then Some(versionOverride.value)
    else if !NonEmpty(bump) then Some(BumpVersion(previous, Patch))
    else match BumpOf(bump.value)
      case Some(kind) => Some(BumpVersion(previous, kind))
      case None => None
  }

  /** A misspelt `BUMP` without `VERSION` leaves the new version undefined. */
  lemma MisspeltBumpIsUndefined(previous: string)
    ensures NewVersion(previous, None, Some("majr")).None?
  {
  }

  // ---------------------------------------------------------------------
  // getDistTag
  // ---------------------------------------------------------------------

  /** `'-' in s` splits into at least two pieces. */
  lemma SplitAtPresent(s: string, c: char)
    requires c in s
    ensures |Split(s, c)| >= 2
  {
  }

  /** `getDistTag(version)`: no tag for a release, else the prerelease's first dot-segment, `"next"` if empty. */
  function GetDistTag(version: string): (r: Option<string>)
    ensures r.None? <==> '-' !in version
    ensures r.Some? ==> r.value != "" && '-' !in r.value && '.' !in r.value
  {
    if '-' !in version then None
    else
      SplitAtPresent(version, '-');
      var prerelease := Split(version, '-')[1];
      var tag := Split(prerelease, '.')[0];
      Some(if tag == "" then "next" else tag)
  }

  /**
   * For `base-tag` followed by nothing, a `.` or a `-`, the dist-tag is `tag`,
   * or `"next"` when `tag` is empty.
   */
  lemma DistTagOfPrerelease(base: string, tag: string, rest: string)
    requires '-' !in base && '-' !in tag && '.' !in tag
    requires rest == "" || rest[0] == '.' || rest[0] == '-'
    ensures GetDistTag(base + "-" + tag + rest) == Some(if tag == "" then "next" else tag)
  {
    var v := base + "-" + tag + rest;
    DashJoin(base, tag, rest);
    SplitAppend(base, '-', tag + rest);
    assert '-' in v by { assert v[|base|] == '-'; }
    PrereleaseTag(tag, rest);
  }

  /** `base-tag` followed by `rest` is `base`, a dash, and `tag + rest`. */
  lemma DashJoin(base: string, tag: string, rest: string)
    ensures base + "-" + tag + rest == base + ['-'] + (tag + rest)
  {
  }

  /** The part before the first `.` of the part before the first `-` of `tag + rest` is `tag`. */
  lemma PrereleaseTag(tag: string, rest: string)
    requires '-' !in tag && '.' !in tag
    requires rest == "" || rest[0] == '.' || rest[0] == '-'
    ensures Split(Split(tag + rest, '-')[0], '.')[0] == tag
  {
    FirstIndexAppend(tag, rest, '-');
    var j := FirstIndex(rest, '-');
    var pre := Split(tag + rest, '-')[0];
    assert pre == (tag + rest)[..|tag| + j];
    assert pre == tag + rest[..j];
    FirstIndexAppend(tag, rest[..j], '.');
    if j == 0 {
      assert pre == tag;
      SplitWithout(tag, '.');
    } else {
      assert FirstIndex(rest[..j], '.') == 0;
      assert pre[..|tag|] == tag;
    }
  }

  // ---------------------------------------------------------------------
  // findPreviousTag
  // ---------------------------------------------------------------------

  const BetaMarker: string := "-beta."

  /** Matches `\d+\.\d+\.\d+`. */
  predicate IsTriple(s: string) {
    var parts := Split(s, '.');
    |parts| == 3 && forall k :: 0 <= k < 3 ==> parts[k] != "" && AllDigits(parts[k])
  }

  datatype BetaVersion = BetaVersion(base: string, num: string)

  /** `version.match(/^(\d+\.\d+\.\d+)-beta\.(\d+)$/)` with its two groups. */
  function MatchBeta(v: string): (r: Option<BetaVersion>)
    ensures r.Some? ==>
              && v == r.value.base + BetaMarker + r.value.num
              && IsTriple(r.value.base)
              && r.value.num != "" && AllDigits(r.value.num)
  {
    var i := FirstIndex(v, '-');
    var base := v[..i];
    var rest := v[i..];
    if IsPrefix(BetaMarker, rest) && IsTriple(base) && rest[|BetaMarker|..] != "" && AllDigits(rest[|BetaMarker|..]) then
      assert v == base + BetaMarker + rest[|BetaMarker|..];
      Some(BetaVersion(base, rest[|BetaMarker|..]))
    else None
  }

  /** A `\d+\.\d+\.\d+` string has no `-`. */
  lemma TripleHasNoDash(s: string)
    requires IsTriple(s)
    ensures '-' !in s
  {
    var p := Split(s, '.');
    JoinSplit(s, '.');
    assert |p[1..]| == 2 && p[1..][0] == p[1];
    assert p[1..][1..] == [p[2]];
    assert Join(p[1..][1..], ".") == p[2];
    assert Join(p[1..], ".") == p[1] + "." + p[2];
    assert s == p[0] + "." + (p[1] + "." + p[2]);
    assert forall k :: 0 <= k < 3 ==> '-' !in p[k];
  }

  /** Every string of the form the pattern describes is matched, with the expected groups. */
  lemma MatchBetaComplete(base: string, num: string)
    requires IsTriple(base) && num != "" && AllDigits(num)
    ensures MatchBeta(base + BetaMarker + num) == Some(BetaVersion(base, num))
  {
    var v := base + BetaMarker + num;
    TripleHasNoDash(base);
    assert v == base + (BetaMarker + num);
    FirstIndexAppend(base, BetaMarker + num, '-');
    assert FirstIndex(v, '-') == |base|;
    assert v[..|base|] == base;
    assert v[|base|..] == BetaMarker + num;
    assert (BetaMarker + num)[|BetaMarker|..] == num;
  }

  /**
   * `findPreviousTag(currentVersion)`: for `x.y.z-beta.N` with N - 1 >= 1, the
   * tag `x.y.z-beta.(N-1)` when `git rev-parse v<tag>` finds it; otherwise none.
   */
  function FindPreviousTag(currentVersion: string, tagExists: string -> bool): (r: Option<string>)
    ensures '-' !in currentVersion ==> r.None?
    ensures r.Some? ==>
              && MatchBeta(currentVersion).Some?
              && var b := MatchBeta(currentVersion).value;
              && DigitsValue(b.num) >= 2
              && r.value == b.base + BetaMarker + Decimal(DigitsValue(b.num) - 1)
              && tagExists("v" + r.value)
  {
    match MatchBeta(currentVersion)
    case None => None
    case Some(b) =>
      MarkerHasDash(b.base, b.num);
      var prevNum := DigitsValue(b.num) - 1;
      if prevNum >= 1 then
        var prevTag := b.base + BetaMarker + Decimal(prevNum);
        if tagExists("v" + prevTag) then Some(prevTag) else None
      else None
  }

  /** A beta version holds a `-`: the one that opens its marker. */
  lemma MarkerHasDash(base: string, num: string)
    ensures '-' in base + BetaMarker + num
  {
    assert (base + BetaMarker + num)[|base|] == '-';
  }

  /** The previous beta of `M.m.p-beta.N` is `M.m.p-beta.(N-1)` exactly when N >= 2 and that tag exists. */
  lemma PreviousBetaTag(major: nat, minor: nat, patch: nat, n: nat, tagExists: string -> bool)
    ensures var base := VersionString(major, minor, patch);
            FindPreviousTag(base + BetaMarker + Decimal(n), tagExists)
            == if n >= 2 && tagExists("v" + base + BetaMarker + Decimal(n - 1))
               then Some(base + BetaMarker + Decimal(n - 1))
               else None
  {
    var base := VersionString(major, minor, patch);
    VersionStringIsTriple(major, minor, patch);
    MatchBetaComplete(base, Decimal(n));
    DecimalRoundTrip(n);
    if n >= 2 {
      VPrefixAssoc(base, BetaMarker, Decimal(n - 1));
    }
  }

  /** A release version written out in decimal matches `\d+\.\d+\.\d+`. */
  lemma VersionStringIsTriple(major: nat, minor: nat, patch: nat)
    ensures IsTriple(VersionString(major, minor, patch))
  {
  }

  /** The `v` of a tag name goes in front of the whole version. */
  lemma VPrefixAssoc(a: string, b: string, c: string)
    ensures "v" + (a + b + c) == "v" + a + b + c
  {
  }

  // ---------------------------------------------------------------------
  // publishPackage
  // ---------------------------------------------------------------------

  /** How `npm publish` ended: success, or a failure carrying its stderr and message. */
  datatype NpmRun = NpmSucceeded | NpmFailed(stderr: string, message: string)

  datatype PublishResult = PublishResult(success: bool, alreadyPublished: bool, error: Option<string>)

  /** `error?.stderr?.toString() || error?.message || ""` (an absent field reads as `""`). */
  function ErrorText(stderr: string, message: string): (t: string)
    ensures t == "" <==> stderr == "" && message == ""
    ensures stderr != "" ==> t == stderr
  {
    if stderr != "" then stderr else message
  }

  const ConflictPhrase: string := "cannot publish over"
  const LongConflictMessage: string := "You " + ConflictPhrase + " the previously published versions"

  /** The errors that say for certain that the version is already on the registry. */
  predicate DefinitelyPublished(text: string) {
    Contains(text, "EPUBLISHCONFLICT") || Contains(text, "E409")
    || Contains(text, ConflictPhrase) || Contains(text, LongConflictMessage)
  }

  /** The long conflict message is already caught by its shorter form. */
  lemma LongConflictMessageRedundant(text: string)
    requires Contains(text, LongConflictMessage)
    ensures Contains(text, ConflictPhrase)
  {
    assert |"You "| == 4;
    assert LongConflictMessage[4..4 + |ConflictPhrase|] == ConflictPhrase;
    ContainsAt(LongConflictMessage, ConflictPhrase, 4);
    ContainsTrans(text, LongConflictMessage, ConflictPhrase);
  }

  /**
   * `publishPackage(cwd, distTag, useProvenance, pkgName, version)`.
   * `existsBefore` and `existsAfter` are the two registry lookups, before the
   * publish in republish mode and after an E403.
   */
  function PublishPackage(republish: bool, pkgName: Option<string>, version: Option<string>,
                          existsBefore: bool, run: NpmRun, existsAfter: bool): (r: PublishResult)
    ensures r.alreadyPublished ==> r.success
    ensures r.success <==> r.error.None?
    // already published: skipped in republish mode, or a definite conflict, or an E403 the registry confirms
    ensures r.alreadyPublished <==>
              || (republish && NonEmpty(pkgName) && NonEmpty(version) && existsBefore)
              || (run.NpmFailed?
                  && var text := ErrorText(run.stderr, run.message);
                  DefinitelyPublished(text)
                  || (Contains(text, "E403") && NonEmpty(pkgName) && NonEmpty(version) && existsAfter))
    ensures r.success && !r.alreadyPublished <==>
              !(republish && NonEmpty(pkgName) && NonEmpty(version) && existsBefore) && run.NpmSucceeded?
    ensures !r.success ==> run.NpmFailed? && r.error == Some(ErrorText(run.stderr, run.message))
  {
    var known := NonEmpty(pkgName) && NonEmpty(version);
    if republish && known && existsBefore then PublishResult(true, true, None)
    else match run
      case NpmSucceeded => PublishResult(true, false, None)
      case NpmFailed(stderr, message) =>
        var text := ErrorText(stderr, message);
        if DefinitelyPublished(text) then PublishResult(true, true, None)
        else if Contains(text, "E403") then
          if known && existsAfter then PublishResult(true, true, None)
          else PublishResult(false, false, Some(text))
        else PublishResult(false, false, Some(text))
  }

  /** An error that is neither a conflict nor an E403 (a 404, say) fails whatever the registry reports. */
  lemma OtherErrorsFail(republish: bool, pkgName: Option<string>, version: Option<string>,
                        existsBefore: bool, stderr: string, message: string, existsAfter: bool)
    requires !(republish && NonEmpty(pkgName) && NonEmpty(version) && existsBefore)
    requires !DefinitelyPublished(ErrorText(stderr, message)) && !Contains(ErrorText(stderr, message), "E403")
    ensures PublishPackage(republish, pkgName, version, existsBefore, NpmFailed(stderr, message), existsAfter)
            == PublishResult(false, false, Some(ErrorText(stderr, message)))
  {
  }

  // ---------------------------------------------------------------------
  // publishAllPackages
  // ---------------------------------------------------------------------

  /** The batches laid end to end. */
  function Flatten(bs: seq<seq<string>>): seq<string>
    decreases |bs|
  {
    if |bs| == 0 then [] else Flatten(bs[..|bs| - 1]) + bs[|bs| - 1]
  }

  /** One more batch extends the flattening by that batch. */
  lemma FlattenSnoc(bs: seq<seq<string>>, b: seq<string>)
    ensures Flatten(bs + [b]) == Flatten(bs) + b
  {
    assert (bs + [b])[..|bs|] == bs;
  }

  /** `for (i = 0; i < n; i += size) batch = list.slice(i, i + size)` */
  method Batches(pkgs: seq<string>, size: nat) returns (bs: seq<seq<string>>)
    requires size > 0
    ensures Flatten(bs) == pkgs
    ensures forall k :: 0 <= k < |bs| ==> 1 <= |bs[k]| <= size
    ensures forall k :: 0 <= k < |bs| - 1 ==> |bs[k]| == size
    // the number of batches the script announces, `Math.ceil(n / size)`
    ensures |bs| * size >= |pkgs| && (|bs| == 0 || (|bs| - 1) * size < |pkgs|)
  {
    bs := [];
    var i := 0;
    while i < |pkgs|
      invariant i == |bs| * size
      invariant Flatten(bs) == pkgs[..if i <= |pkgs| then i else |pkgs|]
      invariant forall k :: 0 <= k < |bs| ==> 1 <= |bs[k]| <= size
      invariant forall k :: 0 <= k < |bs| && (k < |bs| - 1 || i <= |pkgs|) ==> |bs[k]| == size
      invariant |bs| == 0 || i - size < |pkgs|
      decreases |pkgs| - i
    {
      var end := if i + size <= |pkgs| then i + size else |pkgs|;
      var batch := pkgs[i..end];
      FlattenSnoc(bs, batch);
      assert pkgs[..i] + pkgs[i..end] == pkgs[..end];
      MulSucc(|bs|, size);
      bs := bs + [batch];
      i := i + size;
    }
    if |bs| > 0 {
      MulSucc(|bs| - 1, size);
    }
  }

  /** One more batch adds one batch size. */
  lemma MulSucc(n: nat, size: nat)
    ensures (n + 1) * size == n * size + size
  {
  }

  /** `oh-my-opencode-<platform>` */
  function PlatformPackageName(platform: string): string {
    PackageName + "-" + platform
  }

  /** How a `publishAllPackages` run ends. */
  datatype PublishAllOutcome =
    | AllPublished(attempted: seq<string>)
    | PlatformFailures(attempted: seq<string>, failures: seq<string>)
    | MainFailed(attempted: seq<string>)

  /** The packages whose result is not a success, in order. */
  function FailedPackages(names: seq<string>, result: string -> PublishResult): (r: seq<string>)
    ensures forall x :: x in r <==> x in names && !result(x).success
    ensures |r| <= |names|
  {
    if |names| == 0 then []
    else (if result(names[0]).success then [] else [names[0]]) + FailedPackages(names[1..], result)
  }

  /** The failures keep the list order: those of `a + b` are those of `a` followed by those of `b`. */
  lemma {:induction false} FailedPackagesAppend(a: seq<string>, b: seq<string>, result: string -> PublishResult)
    ensures FailedPackages(a + b, result) == FailedPackages(a, result) + FailedPackages(b, result)
    decreases |a|
  {
    if |a| > 0 {
      assert (a + b)[1..] == a[1..] + b;
      assert (a + b)[0] == a[0];
      FailedPackagesAppend(a[1..], b, result);
    } else {
      assert a + b == b;
    }
  }

  /**
   * `publishAllPackages(version)`: the platform packages in list order (batched,
   * with results collected batch by batch), then the main package, which is
   * attempted only when no platform package failed. `result` gives the outcome
   * of `publishPackage` for each package name.
   */
  function PublishAllPackages(skipPlatform: bool, result: string -> PublishResult): (r: PublishAllOutcome)
    ensures skipPlatform ==> r.attempted == [PackageName]
    ensures r.PlatformFailures? ==> PackageName !in r.attempted && r.failures != []
    ensures r.AllPublished? <==>
              && result(PackageName).success
              && (skipPlatform || forall p :: p in PlatformPackages ==> result(PlatformPackageName(p)).success)
    ensures r.PlatformFailures? ==>
              forall x :: x in r.failures <==>
                exists p :: p in PlatformPackages && x == PlatformPackageName(p) && !result(x).success
  {
    var names := seq(|PlatformPackages|, k requires 0 <= k < |PlatformPackages| => PlatformPackageName(PlatformPackages[k]));
    if skipPlatform then
      if result(PackageName).success then AllPublished([PackageName]) else MainFailed([PackageName])
    else
      var failures := FailedPackages(names, result);
      assert PackageName !in names by {
        forall k | 0 <= k < |names|
          ensures names[k] != PackageName
        {
          assert |names[k]| > |PackageName|;
        }
      }
      forall x | x in names
        ensures exists p :: p in PlatformPackages && x == PlatformPackageName(p)
      {
        var k :| 0 <= k < |names| && names[k] == x;
        assert PlatformPackages[k] in PlatformPackages;
      }
      forall p | p in PlatformPackages
        ensures PlatformPackageName(p) in names
      {
        var k :| 0 <= k < |PlatformPackages| && PlatformPackages[k] == p;
        assert names[k] == PlatformPackageName(p);
      }
      if failures != [] then
        assert failures[0] in failures;
        PlatformFailures(names, failures)
      else if result(PackageName).success then AllPublished(names + [PackageName])
      else MainFailed(names + [PackageName])
  }
}

=== FILE: rulesinjector.dfy ===
/**
 * The rules injector (rules-injector/injector.ts): resolving the touched
 * path, the parsed-rule cache keyed on a file's modification time and size,
 * and the loop that picks the rule files not yet injected into the session,
 * sorts them by distance and appends them to a tool's output. File-system
 * calls, the rule finder, the matcher, the front-matter parser, the hash and
 * the truncator are parameters.
 */
module RulesInjector {
  import opened Base
  import opened Js
  import opened Strings
  import opened Seqs

  // ---------------------------------------------------------------------
  // resolveFilePath
  // ---------------------------------------------------------------------

  /** `resolveFilePath(workspaceDirectory, path)`; `resolve` is `path.resolve`. */
  function ResolveFilePath(workspace: string, path: string, resolve: (string, string) -> string): (r: Option<string>)
    ensures r.None? <==> path == ""
    ensures IsPrefix("/", path) ==> r == Some(path)
    ensures path != "" && !IsPrefix("/", path) ==> r == Some(resolve(workspace, path))
  {
    if path == "" then None
    else if IsPrefix("/", path) then Some(path)
    else Some(resolve(workspace, path))
  }

  /** With a `resolve` that yields absolute paths, resolving a resolved path changes nothing. */
  lemma ResolveIdempotent(workspace: string, path: string, resolve: (string, string) -> string)
    requires forall w, p :: IsPrefix("/", resolve(w, p))
    requires path != ""
    ensures var once := ResolveFilePath(workspace, path, resolve).value;
            ResolveFilePath(workspace, once, resolve) == Some(once)
  {
  }

  // ---------------------------------------------------------------------
  // getCachedParsedRule
  // ---------------------------------------------------------------------

  datatype FileStat = FileStat(mtimeMs: int, size: int)

  /** What `parseRuleFrontmatter` returns. */
  datatype ParsedRule = ParsedRule(metadata: JsValue, body: string)

  datatype CacheEntry = CacheEntry(stat: FileStat, rule: ParsedRule)

  /** The module-level `parsedRuleCache`, keyed by real path. */
  type ParseCache = map<string, CacheEntry>

  /** The cache afterwards, the parsed rule (or a throw), and whether the file was read. */
  datatype Lookup = Lookup(cache: ParseCache, rule: Result<ParsedRule>, read: bool)

  /** The cached entry is still good: same modification time and same size. */
  predicate Fresh(cache: ParseCache, realPath: string, stat: FileStat) {
    realPath in cache && cache[realPath].stat == stat
  }

  /**
   * `getCachedParsedRule(filePath, realPath)`. `stat` is `statSync(filePath)`
   * (`None` when it throws) and `content` is `readFileSync(filePath)`; a read
   * that throws inside the `try` throws again in the `catch`.
   */
  function GetCachedParsedRule(cache: ParseCache, realPath: string, stat: Option<FileStat>,
                               content: Result<string>, parse: string -> ParsedRule): (r: Lookup)
    // the file is read exactly when there is no fresh entry
    ensures !r.read <==> stat.Some? && Fresh(cache, realPath, stat.value)
    ensures !r.read ==> r.rule == Ok(cache[realPath].rule) && r.cache == cache
    ensures r.read ==> r.rule == (if content.Ok? then Ok(parse(content.value)) else Thrown)
    // a failed stat never touches the cache; a fresh read under a good stat overwrites the entry
    ensures stat.None? || content.Thrown? ==> r.cache == cache
    ensures r.read && stat.Some? && content.Ok? ==>
              r.cache == cache[realPath := CacheEntry(stat.value, parse(content.value))]
  {
    match stat
    case None =>
      Lookup(cache, if content.Ok? then Ok(parse(content.value)) else Thrown, true)
    case Some(st) =>
      if Fresh(cache, realPath, st) then Lookup(cache, Ok(cache[realPath].rule), false)
      else match content
        case Ok(raw) => Lookup(cache[realPath := CacheEntry(st, parse(raw))], Ok(parse(raw)), true)
        case Thrown => Lookup(cache, Thrown, true)
  }

  /** After a successful read, the same stat is served from the cache, whatever the file now holds. */
  lemma SecondLookupHitsCache(cache: ParseCache, realPath: string, stat: FileStat, content: string,
                              later: Result<string>, parse: string -> ParsedRule)
    ensures var first := GetCachedParsedRule(cache, realPath, Some(stat), Ok(content), parse);
            var second := GetCachedParsedRule(first.cache, realPath, Some(stat), later, parse);
            && !second.read
            && second.rule == first.rule
            && second.cache == first.cache
  {
  }

  /** A changed modification time or size forces a re-read that replaces the entry. */
  lemma ChangedStatRereads(cache: ParseCache, realPath: string, stat: FileStat, content: string,
                           parse: string -> ParsedRule)
    requires realPath in cache && cache[realPath].stat != stat
    ensures var r := GetCachedParsedRule(cache, realPath, Some(stat), Ok(content), parse);
            r.read && r.rule == Ok(parse(content)) && r.cache[realPath] == CacheEntry(stat, parse(content))
  {
  }

  // ---------------------------------------------------------------------
  // processFilePathForInjection
  // ---------------------------------------------------------------------

  /** One file `findRuleFiles` proposes. */
  datatype Candidate = Candidate(path: string, realPath: string, isSingleFile: bool, distance: int)

  /** What `shouldApplyRule` answers. */
  datatype MatchResult = MatchResult(applies: bool, reason: Option<string>)

  datatype RuleToInject = RuleToInject(relativePath: string, matchReason: string, content: string, distance: int)

  /** The session's record of what it has been shown: real paths and content hashes. */
  datatype SessionRules = SessionRules(realPaths: set<string>, contentHashes: set<string>)

  /** The collaborators the loop calls. */
  datatype Env = Env(
    stat: string -> Option<FileStat>,
    read: string -> Result<string>,
    parse: string -> ParsedRule,
    shouldApply: (JsValue, string, Option<string>) -> MatchResult,
    hash: string -> string,
    relative: (string, string) -> string)

  const SingleFileReason: string := "copilot-instructions (always apply)"
  const DefaultReason: string := "matched"

  datatype Considered = Considered(session: SessionRules, cache: ParseCache, injected: Option<RuleToInject>)

  /** `relativePath`: relative to the project root when there is one, else the candidate's own path. */
  function RelativePath(c: Candidate, projectRoot: Option<string>, env: Env): string {
    if NonEmpty(projectRoot) then env.relative(projectRoot.value, c.path) else c.path
  }

  /** `matchReason`: fixed for a single instructions file, else the matcher's reason or "matched". */
  function MatchReason(c: Candidate, verdict: MatchResult): string {
    if c.isSingleFile then SingleFileReason else verdict.reason.GetOr(DefaultReason)
  }

  /** A parsed rule the loop keeps: a single file or one the matcher applies, with content the session has not seen. */
  predicate Admitted(c: Candidate, rule: ParsedRule, session: SessionRules, resolved: string,
                     projectRoot: Option<string>, env: Env) {
    && (c.isSingleFile || env.shouldApply(rule.metadata, resolved, projectRoot).applies)
    && env.hash(rule.body) !in session.contentHashes
  }

  /** One iteration of the candidate loop. */
  function Consider(c: Candidate, session: SessionRules, cache: ParseCache, resolved: string,
                    projectRoot: Option<string>, env: Env): (r: Considered)
    ensures c.realPath in session.realPaths ==> r == Considered(session, cache, None)
    ensures r.injected.None? ==> r.session == session
    ensures r.injected.Some? ==>
              && c.realPath !in session.realPaths
              && env.hash(r.injected.value.content) !in session.contentHashes
              && r.session == SessionRules(session.realPaths + {c.realPath},
                                           session.contentHashes + {env.hash(r.injected.value.content)})
              && r.injected.value.distance == c.distance
    // a new real path is looked up; a rule that parses and is admitted is injected, and only such a rule
    ensures c.realPath !in session.realPaths ==>
              var lookup := GetCachedParsedRule(cache, c.realPath, env.stat(c.path), env.read(c.path), env.parse);
              && r.cache == lookup.cache
              && (r.injected.Some? <==> lookup.rule.Ok? && Admitted(c, lookup.rule.value, session, resolved, projectRoot, env))
              && (r.injected.Some? ==>
                    r.injected.value == RuleToInject(RelativePath(c, projectRoot, env),
                                                     MatchReason(c, env.shouldApply(lookup.rule.value.metadata, resolved, projectRoot)),
                                                     lookup.rule.value.body, c.distance))
  {
    if c.realPath in session.realPaths then Considered(session, cache, None)
    else
      var lookup := GetCachedParsedRule(cache, c.realPath, env.stat(c.path), env.read(c.path), env.parse);
      match lookup.rule
      case Thrown => Considered(session, lookup.cache, None)
      case Ok(rule) =>
        var verdict := env.shouldApply(rule.metadata, resolved, projectRoot);
        if !c.isSingleFile && !verdict.applies then Considered(session, lookup.cache, None)
        else
          var h := env.hash(rule.body);
          if h in session.contentHashes then Considered(session, lookup.cache, None)
          else
            Considered(SessionRules(session.realPaths + {c.realPath}, session.contentHashes + {h}),
                       lookup.cache, Some(RuleToInject(RelativePath(c, projectRoot, env), MatchReason(c, verdict),
                                                       rule.body, c.distance)))
  }

  /** The session and parse cache the loop holds when it reaches a candidate. */
  datatype Turn = Turn(session: SessionRules, cache: ParseCache)

  /** The state before step `i`: the initial one, or what step `i - 1` left. */
  function Before(steps: seq<Considered>, i: nat, session: SessionRules, cache: ParseCache): Turn
    requires i <= |steps|
  {
    if i == 0 then Turn(session, cache) else Turn(steps[i - 1].session, steps[i - 1].cache)
  }

  /** The loop body as a step function: `Consider` of a candidate in a given state. */
  function Step(resolved: string, projectRoot: Option<string>, env: Env): (Candidate, Turn) -> Considered {
    (c: Candidate, t: Turn) => Consider(c, t.session, t.cache, resolved, projectRoot, env)
  }

  /** Each of the first `upTo` steps is `next` of its candidate in the state the earlier steps left. */
  predicate Traced(steps: seq<Considered>, candidates: seq<Candidate>, session: SessionRules, cache: ParseCache,
                   next: (Candidate, Turn) -> Considered, upTo: nat) {
    && |steps| == upTo <= |candidates|
    && forall i :: 0 <= i < upTo ==> steps[i] == next(candidates[i], Before(steps, i, session, cache))
  }

  /** The rules the steps injected, in step order. */
  function Injected(steps: seq<Considered>): seq<RuleToInject>
    decreases |steps|
  {
    if |steps| == 0 then []
    else
      var last := steps[|steps| - 1];
      Injected(steps[..|steps| - 1]) + (if last.injected.Some? then [last.injected.value] else [])
  }

  /** One more step extends the trace. */
  lemma TraceSnoc(steps: seq<Considered>, candidates: seq<Candidate>, session: SessionRules, cache: ParseCache,
                  next: (Candidate, Turn) -> Considered, step: Considered)
    requires Traced(steps, candidates, session, cache, next, |steps|)
    requires |steps| < |candidates|
    requires step == next(candidates[|steps|], Before(steps, |steps|, session, cache))
    ensures Traced(steps + [step], candidates, session, cache, next, |steps| + 1)
    ensures Before(steps + [step], |steps| + 1, session, cache) == Turn(step.session, step.cache)
  {
    var n := steps + [step];
    forall i | 0 <= i < |n|
      ensures n[i] == next(candidates[i], Before(n, i, session, cache))
    {
      assert Before(n, i, session, cache) == Before(steps, i, session, cache);
    }
  }

  /** One more step appends what it injected, if anything. */
  lemma InjectedSnoc(steps: seq<Considered>, step: Considered)
    ensures Injected(steps + [step]) == Injected(steps) + (if step.injected.Some? then [step.injected.value] else [])
  {
    assert (steps + [step])[..|steps|] == steps;
  }

  datatype Collected = Collected(
    toInject: seq<RuleToInject>,
    realPaths: seq<string>,
    hashes: seq<string>,
    sources: seq<nat>,
    session: SessionRules,
    cache: ParseCache,
    dirty: bool)

  /** The parallel sequences have one entry per injected rule; dirty says whether there is one. */
  predicate Shaped(r: Collected) {
    && (r.dirty <==> |r.toInject| > 0)
    && |r.realPaths| == |r.toInject| && |r.hashes| == |r.toInject| && |r.sources| == |r.toInject|
  }

  /** The injected rules are new to the session and pairwise distinct by real path and by content hash. */
  predicate NewAndDistinct(r: Collected, session: SessionRules, env: Env)
    requires Shaped(r)
  {
    && NoDuplicates(r.realPaths) && NoDuplicates(r.hashes)
    && (forall k :: 0 <= k < |r.toInject| ==>
          && r.realPaths[k] !in session.realPaths
          && r.hashes[k] !in session.contentHashes
          && r.hashes[k] == env.hash(r.toInject[k].content))
  }

  /** The session records exactly what was injected. */
  predicate Recorded(r: Collected, session: SessionRules) {
    && r.session.realPaths == session.realPaths + (set p | p in r.realPaths)
    && r.session.contentHashes == session.contentHashes + (set h | h in r.hashes)
  }

  /** `sources` names, in increasing order, the candidate below `upTo` each rule came from. */
  predicate Sourced(r: Collected, candidates: seq<Candidate>, upTo: nat)
    requires Shaped(r)
  {
    && (forall k :: 0 <= k < |r.sources| ==>
          && r.sources[k] < upTo <= |candidates|
          && candidates[r.sources[k]].realPath == r.realPaths[k]
          && candidates[r.sources[k]].distance == r.toInject[k].distance)
    && (forall k, l :: 0 <= k < l < |r.sources| ==> r.sources[k] < r.sources[l])
  }

  /** What the candidate loop keeps true after looking at the first `upTo` candidates. */
  predicate CollectedSoFar(r: Collected, session: SessionRules, env: Env, candidates: seq<Candidate>, upTo: nat) {
    Shaped(r) && NewAndDistinct(r, session, env) && Recorded(r, session) && Sourced(r, candidates, upTo)
  }

  /** The rule appended for candidate `i`. */
  function Inject(r: Collected, c: Candidate, i: nat, rule: RuleToInject, h: string, step: Considered): Collected {
    Collected(r.toInject + [rule], r.realPaths + [c.realPath], r.hashes + [h], r.sources + [i],
              step.session, step.cache, true)
  }

  lemma InjectKeepsDistinct(r: Collected, session: SessionRules, env: Env, c: Candidate, i: nat, rule: RuleToInject,
                            step: Considered)
    requires Shaped(r) && NewAndDistinct(r, session, env) && Recorded(r, session)
    requires c.realPath !in r.session.realPaths && env.hash(rule.content) !in r.session.contentHashes
    ensures var n := Inject(r, c, i, rule, env.hash(rule.content), step);
            Shaped(n) && NewAndDistinct(n, session, env)
  {
    var n := Inject(r, c, i, rule, env.hash(rule.content), step);
    assert c.realPath !in r.realPaths;
    assert env.hash(rule.content) !in r.hashes;
    NoDuplicatesSnoc(r.realPaths, c.realPath);
    NoDuplicatesSnoc(r.hashes, env.hash(rule.content));
    forall k | 0 <= k < |n.toInject|
      ensures && n.realPaths[k] !in session.realPaths
              && n.hashes[k] !in session.contentHashes
              && n.hashes[k] == env.hash(n.toInject[k].content)
    {
      if k < |r.toInject| {
        assert n.toInject[k] == r.toInject[k] && n.realPaths[k] == r.realPaths[k] && n.hashes[k] == r.hashes[k];
      } else {
        assert session.realPaths <= r.session.realPaths && session.contentHashes <= r.session.contentHashes;
      }
    }
  }

  lemma InjectKeepsRecorded(r: Collected, session: SessionRules, env: Env, c: Candidate, i: nat, rule: RuleToInject,
                            step: Considered)
    requires Recorded(r, session)
    requires step.session == SessionRules(r.session.realPaths + {c.realPath},
                                          r.session.contentHashes + {env.hash(rule.content)})
    ensures Recorded(Inject(r, c, i, rule, env.hash(rule.content), step), session)
  {
    var n := Inject(r, c, i, rule, env.hash(rule.content), step);
    assert (set p | p in n.realPaths) == (set p | p in r.realPaths) + {c.realPath};
    assert (set h | h in n.hashes) == (set h | h in r.hashes) + {env.hash(rule.content)};
  }

  lemma InjectKeepsSourced(r: Collected, candidates: seq<Candidate>, i: nat, rule: RuleToInject, h: string,
                           step: Considered)
    requires i < |candidates| && Shaped(r) && Sourced(r, candidates, i)
    requires rule.distance == candidates[i].distance
    ensures var n := Inject(r, candidates[i], i, rule, h, step);
            Shaped(n) && Sourced(n, candidates, i + 1)
  {
  }

  /** The collection after candidate `i` came to `step`. */
  function Advance(r: Collected, c: Candidate, i: nat, step: Considered, env: Env): Collected {
    if step.injected.Some? then Inject(r, c, i, step.injected.value, env.hash(step.injected.value.content), step)
    else r.(cache := step.cache)
  }

  /** What the candidate loop keeps true, together with its trace, after `upTo` candidates. */
  predicate LoopState(r: Collected, steps: seq<Considered>, candidates: seq<Candidate>, session: SessionRules,
                      cache: ParseCache, next: (Candidate, Turn) -> Considered, env: Env, upTo: nat) {
    && CollectedSoFar(r, session, env, candidates, upTo)
    && Traced(steps, candidates, session, cache, next, upTo)
    && r.toInject == Injected(steps)
    && Turn(r.session, r.cache) == Before(steps, upTo, session, cache)
  }

  /** The injection bookkeeping after one more candidate. */
  lemma AdvanceCollects(r: Collected, candidates: seq<Candidate>, session: SessionRules, env: Env, i: nat,
                        step: Considered)
    requires i < |candidates| && CollectedSoFar(r, session, env, candidates, i)
    requires step.injected.None? ==> step.session == r.session
    requires step.injected.Some? ==>
               && candidates[i].realPath !in r.session.realPaths
               && env.hash(step.injected.value.content) !in r.session.contentHashes
               && step.session == SessionRules(r.session.realPaths + {candidates[i].realPath},
                                               r.session.contentHashes + {env.hash(step.injected.value.content)})
               && step.injected.value.distance == candidates[i].distance
    ensures var n := Advance(r, candidates[i], i, step, env);
            && CollectedSoFar(n, session, env, candidates, i + 1)
            && n.toInject == r.toInject + (if step.injected.Some? then [step.injected.value] else [])
            && Turn(n.session, n.cache) == Turn(step.session, step.cache)
  {
    var c := candidates[i];
    if step.injected.Some? {
      var rule := step.injected.value;
      InjectKeepsDistinct(r, session, env, c, i, rule, step);
      InjectKeepsRecorded(r, session, env, c, i, rule, step);
      InjectKeepsSourced(r, candidates, i, rule, env.hash(rule.content), step);
    }
  }

  /** One more candidate keeps the loop state. */
  lemma AdvanceKeeps(r: Collected, steps: seq<Considered>, candidates: seq<Candidate>, session: SessionRules,
                     cache: ParseCache, next: (Candidate, Turn) -> Considered, env: Env, i: nat, step: Considered)
    requires i < |candidates| && LoopState(r, steps, candidates, session, cache, next, env, i)
    requires step == next(candidates[i], Turn(r.session, r.cache))
    requires step.injected.None? ==> step.session == r.session
    requires step.injected.Some? ==>
               && candidates[i].realPath !in r.session.realPaths
               && env.hash(step.injected.value.content) !in r.session.contentHashes
               && step.session == SessionRules(r.session.realPaths + {candidates[i].realPath},
                                               r.session.contentHashes + {env.hash(step.injected.value.content)})
               && step.injected.value.distance == candidates[i].distance
    ensures LoopState(Advance(r, candidates[i], i, step, env), steps + [step], candidates, session, cache, next, env, i + 1)
  {
    var n := Advance(r, candidates[i], i, step, env);
    TraceSnoc(steps, candidates, session, cache, next, step);
    InjectedSnoc(steps, step);
    AdvanceCollects(r, candidates, session, env, i, step);
  }

  /** Considering the next candidate in the loop's state keeps that state. */
  lemma ConsiderKeeps(r: Collected, steps: seq<Considered>, candidates: seq<Candidate>, session: SessionRules,
                      cache: ParseCache, resolved: string, projectRoot: Option<string>, env: Env, i: nat)
    requires i < |candidates| && LoopState(r, steps, candidates, session, cache, Step(resolved, projectRoot, env), env, i)
    ensures var step := Consider(candidates[i], r.session, r.cache, resolved, projectRoot, env);
            LoopState(Advance(r, candidates[i], i, step, env), steps + [step], candidates, session, cache,
                      Step(resolved, projectRoot, env), env, i + 1)
  {
    var step := Consider(candidates[i], r.session, r.cache, resolved, projectRoot, env);
    AdvanceKeeps(r, steps, candidates, session, cache, Step(resolved, projectRoot, env), env, i, step);
  }

  /**
   * The `for (const candidate of ruleFileCandidates)` loop. `steps` records
   * what each candidate came to: every candidate is considered in the state
   * the earlier ones left, and the rules collected are exactly those the
   * steps injected, in candidate order.
   */
  method CollectRules(candidates: seq<Candidate>, session: SessionRules, cache: ParseCache, resolved: string,
                      projectRoot: Option<string>, env: Env) returns (r: Collected, ghost steps: seq<Considered>)
    ensures CollectedSoFar(r, session, env, candidates, |candidates|)
    ensures Traced(steps, candidates, session, cache, Step(resolved, projectRoot, env), |candidates|)
    ensures r.toInject == Injected(steps)
    ensures Turn(r.session, r.cache) == Before(steps, |candidates|, session, cache)
  {
    r := Collected([], [], [], [], session, cache, false);
    steps := [];
    var i := 0;
    while i < |candidates|
      invariant 0 <= i <= |candidates|
      invariant LoopState(r, steps, candidates, session, cache, Step(resolved, projectRoot, env), env, i)
    {
      var step := Consider(candidates[i], r.session, r.cache, resolved, projectRoot, env);
      ConsiderKeeps(r, steps, candidates, session, cache, resolved, projectRoot, env, i);
      r := Advance(r, candidates[i], i, step, env);
      steps := steps + [step];
      i := i + 1;
    }
  }

  /** The text appended for one rule, given what the truncator returned. */
  function RuleBlock(rule: RuleToInject, result: string, truncated: bool): string {
    var notice := if truncated
      then "\n\n[Note: Content was truncated to save context window space. For full context, please read the file directly: "
           + rule.relativePath + "]"
      else "";
    "\n\n[Rule: " + rule.relativePath + "]\n[Match: " + rule.matchReason + "]\n" + result + notice
  }

  /** The blocks of all rules, in order; `truncate` is the truncator's answer for a content. */
  function Blocks(rules: seq<RuleToInject>, truncate: string -> (string, bool)): string
    decreases |rules|
  {
    if |rules| == 0 then ""
    else RuleBlock(rules[0], truncate(rules[0].content).0, truncate(rules[0].content).1) + Blocks(rules[1..], truncate)
  }

  function Distance(rule: RuleToInject): int {
    rule.distance
  }

  datatype Processed = Processed(
    output: string,
    session: SessionRules,
    cache: ParseCache,
    collected: seq<RuleToInject>,
    emitted: seq<RuleToInject>,
    saved: bool)

  /**
   * `processFilePathForInjection(filePath, sessionID, output)`. `resolve`,
   * `findProjectRoot` and `findRuleFiles` are parameters; `truncate` is the
   * session's truncator. `steps` and `found` record the candidate loop.
   */
  method ProcessFilePathForInjection(filePath: string, output: string, session: SessionRules, cache: ParseCache,
                                     workspace: string, resolve: (string, string) -> string,
                                     findProjectRoot: string -> Option<string>,
                                     findRuleFiles: (Option<string>, string) -> seq<Candidate>,
                                     env: Env, truncate: string -> (string, bool))
    returns (r: Processed, ghost steps: seq<Considered>, ghost found: Collected)
    ensures filePath == "" ==> r == Processed(output, session, cache, [], [], false)
    // the candidates are those found for the resolved path, each considered in turn
    ensures filePath != "" ==>
              var resolved := ResolveFilePath(workspace, filePath, resolve).value;
              var candidates := findRuleFiles(findProjectRoot(resolved), resolved);
              && Traced(steps, candidates, session, cache, Step(resolved, findProjectRoot(resolved), env), |candidates|)
              && CollectedSoFar(found, session, env, candidates, |candidates|)
              && r.collected == found.toInject == Injected(steps)
              && Turn(r.session, r.cache) == Before(steps, |candidates|, session, cache)
    // the session cache records exactly the injected rules, which were new and pairwise distinct
    ensures r.collected == found.toInject && r.session == found.session
    ensures Shaped(found) && Recorded(found, session) && NewAndDistinct(found, session, env)
    // the output is only ever extended
    ensures IsPrefix(output, r.output)
    // saved exactly when a new rule was injected; otherwise the output is untouched
    ensures r.saved <==> |r.emitted| > 0
    ensures !r.saved ==> r.output == output
    // emitted by ascending distance, exactly the collected rules, ties in collection order
    ensures SortedBy(r.emitted, Distance) && multiset(r.emitted) == multiset(r.collected)
    ensures forall d :: WithKey(r.emitted, Distance, d) == WithKey(r.collected, Distance, d)
    ensures r.output == output + Blocks(r.emitted, truncate)
  {
    var resolved := ResolveFilePath(workspace, filePath, resolve);
    if resolved.None? {
      steps := [];
      found := Collected([], [], [], [], session, cache, false);
      return Processed(output, session, cache, [], [], false), steps, found;
    }
    var projectRoot := findProjectRoot(resolved.value);
    var candidates := findRuleFiles(projectRoot, resolved.value);
    var collected;
    collected, steps := CollectRules(candidates, session, cache, resolved.value, projectRoot, env);
    found := collected;
    if |collected.toInject| == 0 {
      return Processed(output, collected.session, collected.cache, [], [], false), steps, found;
    }
    var sorted := SortBy(collected.toInject, Distance);
    forall d ensures WithKey(sorted, Distance, d) == WithKey(collected.toInject, Distance, d) {
      SortByStable(collected.toInject, Distance, d);
    }
    var text := output + Blocks(sorted, truncate);
    r := Processed(text, collected.session, collected.cache, collected.toInject, sorted, collected.dirty);
  }
}

=== FILE: seqs.dfy ===
/**
 * Sequence operations the modelled code gets from JavaScript built-ins:
 * `[...new Set(xs)]` / insertion-ordered `Map` keys (first occurrence wins
 * its place) and `Array.prototype.sort` with a numeric key comparator.
 */
module Seqs {

  predicate NoDuplicates<T(==)>(s: seq<T>) {
    forall i, j :: 0 <= i < j < |s| ==> s[i] != s[j]
  }

  /** Appending a value not yet present keeps a sequence free of repeats. */
  lemma NoDuplicatesSnoc<T>(s: seq<T>, x: T)
    requires NoDuplicates(s) && x !in s
    ensures NoDuplicates(s + [x])
  {
    forall i, j | 0 <= i < j < |s| + 1 ensures (s + [x])[i] != (s + [x])[j] {
      if j == |s| {
        assert (s + [x])[i] == s[i];
      }
    }
  }

  /** `[...new Set(xs)]`: each value once, at the place of its first occurrence. */
  function Dedup<T(==)>(xs: seq<T>): (r: seq<T>)
    ensures NoDuplicates(r)
    ensures forall i :: 0 <= i < |xs| ==> xs[i] in r
    ensures forall i :: 0 <= i < |r| ==> r[i] in xs
    ensures |r| <= |xs|
    decreases |xs|
  {
    if |xs| == 0 then []
    else
      var prev := Dedup(xs[..|xs| - 1]);
      var x := xs[|xs| - 1];
      if x in prev then prev else prev + [x]
  }

  /** Values already present keep their places when more values are appended. */
  lemma {:induction false} DedupPrefix<T>(a: seq<T>, b: seq<T>)
    ensures |Dedup(a)| <= |Dedup(a + b)|
    ensures Dedup(a + b)[..|Dedup(a)|] == Dedup(a)
    decreases |b|
  {
    if |b| == 0 {
      assert a + b == a;
    } else {
      var b' := b[..|b| - 1];
      DedupPrefix(a, b');
      assert (a + b)[..|a + b| - 1] == a + b';
    }
  }

  /** The values of `xs` not in `seen`, each once, at the place of its first occurrence in `xs`. */
  function DedupAfter<T(==)>(xs: seq<T>, seen: seq<T>): (r: seq<T>)
    ensures forall i :: 0 <= i < |r| ==> r[i] in xs && r[i] !in seen
    ensures forall i :: 0 <= i < |xs| && xs[i] !in seen ==> xs[i] in r
    decreases |xs|
  {
    if |xs| == 0 then []
    else
      var prev := DedupAfter(xs[..|xs| - 1], seen);
      var x := xs[|xs| - 1];
      assert xs == xs[..|xs| - 1] + [x];
      if x in seen || x in prev then prev else prev + [x]
  }

  /** De-duplicating `a + b` lists `a`'s values first, then `b`'s new ones in their own first-occurrence order. */
  lemma {:induction false} DedupAppend<T>(a: seq<T>, b: seq<T>)
    ensures Dedup(a + b) == Dedup(a) + DedupAfter(b, a)
    decreases |b|
  {
    if |b| == 0 {
      assert a + b == a;
      assert DedupAfter(b, a) == [];
    } else {
      var b' := b[..|b| - 1];
      var x := b[|b| - 1];
      assert b == b' + [x];
      DedupAppend(a, b');
      DedupAppendStep(a, b', x);
    }
  }

  /** The inductive step of `DedupAppend`: one more value at the end of `b`. */
  lemma {:induction false} DedupAppendStep<T>(a: seq<T>, b': seq<T>, x: T)
    requires Dedup(a + b') == Dedup(a) + DedupAfter(b', a)
    ensures Dedup(a + (b' + [x])) == Dedup(a) + DedupAfter(b' + [x], a)
  {
    AppendAssoc(a, b', [x]);
    DedupSnoc(a + b', x);
    DedupAfterSnoc(b', a, x);
    DedupMember(a, x);
    SnocAfterPrefix(Dedup(a), DedupAfter(b', a), x);
  }

  lemma AppendAssoc<T>(a: seq<T>, b: seq<T>, c: seq<T>)
    ensures a + (b + c) == (a + b) + c
  {
  }

  /** Appending `x` to `d + p` unless present is appending it to `p` unless present in either. */
  lemma SnocAfterPrefix<T>(d: seq<T>, p: seq<T>, x: T)
    ensures (if x in d + p then d + p else d + p + [x]) == d + (if x in d || x in p then p else p + [x])
  {
    if x !in d && x !in p {
      assert x !in d + p;
      assert d + p + [x] == d + (p + [x]);
    }
  }

  /** `Dedup` on a sequence one value longer. */
  lemma DedupSnoc<T>(xs: seq<T>, x: T)
    ensures Dedup(xs + [x]) == if x in Dedup(xs) then Dedup(xs) else Dedup(xs) + [x]
  {
    assert (xs + [x])[..|xs|] == xs;
  }

  /** `DedupAfter` on a sequence one value longer. */
  lemma DedupAfterSnoc<T>(xs: seq<T>, seen: seq<T>, x: T)
    ensures DedupAfter(xs + [x], seen) ==
              if x in seen || x in DedupAfter(xs, seen) then DedupAfter(xs, seen) else DedupAfter(xs, seen) + [x]
  {
    assert (xs + [x])[..|xs|] == xs;
  }

  /** A value survives the de-duplication exactly when it occurs. */
  lemma DedupMember<T>(xs: seq<T>, x: T)
    ensures x in Dedup(xs) <==> x in xs
  {
    if x in xs {
      var i :| 0 <= i < |xs| && xs[i] == x;
      assert xs[i] in Dedup(xs);
    }
    if x in Dedup(xs) {
      var i :| 0 <= i < |Dedup(xs)| && Dedup(xs)[i] == x;
      assert Dedup(xs)[i] in xs;
    }
  }

  /** Duplicate-free input is left as it is. */
  lemma {:induction false} DedupOfDistinct<T>(xs: seq<T>)
    requires NoDuplicates(xs)
    ensures Dedup(xs) == xs
    decreases |xs|
  {
    if |xs| > 0 {
      var init := xs[..|xs| - 1];
      DedupOfDistinct(init);
      assert xs[|xs| - 1] !in init;
      assert init + [xs[|xs| - 1]] == xs;
    }
  }

  predicate SortedBy<T>(s: seq<T>, key: T -> int) {
    forall i, j :: 0 <= i < j < |s| ==> key(s[i]) <= key(s[j])
  }

  /** Place `x` after every element whose key is not greater than its own (keeps sorting stable). */
  function InsertBy<T>(s: seq<T>, x: T, key: T -> int): (r: seq<T>)
    ensures multiset(r) == multiset(s) + multiset{x}
    ensures |r| == |s| + 1
    decreases |s|
  {
    if |s| == 0 then [x]
    else if key(x) < key(s[|s| - 1]) then
      var init := s[..|s| - 1];
      assert s == init + [s[|s| - 1]];
      InsertBy(init, x, key) + [s[|s| - 1]]
    else s + [x]
  }

  /** Inserting into a sorted sequence keeps it sorted; the last key is the larger of the old last key and `x`'s. */
  lemma {:induction false} InsertBySorted<T>(s: seq<T>, x: T, key: T -> int)
    requires SortedBy(s, key)
    ensures SortedBy(InsertBy(s, x, key), key)
    ensures var r := InsertBy(s, x, key);
            key(r[|r| - 1]) == if |s| == 0 || key(s[|s| - 1]) <= key(x) then key(x) else key(s[|s| - 1])
    decreases |s|
  {
    if |s| == 0 {
      assert InsertBy(s, x, key) == [x];
    } else if key(x) < key(s[|s| - 1]) {
      var init := s[..|s| - 1];
      var last := s[|s| - 1];
      SortedPrefix(s, key);
      InsertBySorted(init, x, key);
      var front := InsertBy(init, x, key);
      assert InsertBy(s, x, key) == front + [last];
      if |init| > 0 {
        assert key(init[|init| - 1]) <= key(last);
      }
      SortedBelow(front, key, key(last));
      SortedAppend(front, last, key);
    } else {
      assert InsertBy(s, x, key) == s + [x];
      SortedBelow(s, key, key(x));
      SortedAppend(s, x, key);
    }
  }

  /** A prefix of a sorted sequence is sorted. */
  lemma SortedPrefix<T>(s: seq<T>, key: T -> int)
    requires SortedBy(s, key) && |s| > 0
    ensures SortedBy(s[..|s| - 1], key)
  {
  }

  /** Every key of a sorted sequence is at most a bound on its last key. */
  lemma SortedBelow<T>(s: seq<T>, key: T -> int, bound: int)
    requires SortedBy(s, key) && |s| > 0 && key(s[|s| - 1]) <= bound
    ensures forall i :: 0 <= i < |s| ==> key(s[i]) <= bound
  {
    forall i | 0 <= i < |s| ensures key(s[i]) <= bound {
      if i < |s| - 1 {
        assert key(s[i]) <= key(s[|s| - 1]);
      }
    }
  }

  /** Appending an element whose key bounds every key keeps a sequence sorted. */
  lemma SortedAppend<T>(s: seq<T>, y: T, key: T -> int)
    requires SortedBy(s, key)
    requires forall i :: 0 <= i < |s| ==> key(s[i]) <= key(y)
    ensures SortedBy(s + [y], key)
  {
    var r := s + [y];
    forall i, j | 0 <= i < j < |r| ensures key(r[i]) <= key(r[j]) {
      if j == |s| {
        assert r[i] == s[i] && r[j] == y;
      } else {
        assert r[i] == s[i] && r[j] == s[j];
      }
    }
  }

  /** `xs.sort((a, b) => key(a) - key(b))`: a stable sort by key. */
  function SortBy<T>(xs: seq<T>, key: T -> int): (r: seq<T>)
    ensures SortedBy(r, key)
    ensures multiset(r) == multiset(xs)
    ensures |r| == |xs|
    decreases |xs|
  {
    if |xs| == 0 then []
    else
      var init := xs[..|xs| - 1];
      assert xs == init + [xs[|xs| - 1]];
      InsertBySorted(SortBy(init, key), xs[|xs| - 1], key);
      InsertBy(SortBy(init, key), xs[|xs| - 1], key)
  }

  /** The elements of `s` whose key is `k`, in their order in `s`. */
  function WithKey<T>(s: seq<T>, key: T -> int, k: int): seq<T>
    decreases |s|
  {
    if |s| == 0 then []
    else WithKey(s[..|s| - 1], key, k) + (if key(s[|s| - 1]) == k then [s[|s| - 1]] else [])
  }

  /** The elements of key `k` in `s + [y]`: those of `s`, then `y` if its key is `k`. */
  lemma WithKeySnoc<T>(s: seq<T>, y: T, key: T -> int, k: int)
    ensures WithKey(s + [y], key, k) == WithKey(s, key, k) + (if key(y) == k then [y] else [])
  {
    assert (s + [y])[..|s|] == s;
  }

  /** Inserting `x` puts it after every element of its own key. */
  lemma {:induction false} InsertByStable<T>(s: seq<T>, x: T, key: T -> int, k: int)
    ensures WithKey(InsertBy(s, x, key), key, k) == WithKey(s, key, k) + (if key(x) == k then [x] else [])
    decreases |s|
  {
    if |s| == 0 {
      WithKeySnoc(s, x, key, k);
      assert s + [x] == [x];
    } else if key(x) < key(s[|s| - 1]) {
      var init := s[..|s| - 1];
      var last := s[|s| - 1];
      var front := InsertBy(init, x, key);
      assert InsertBy(s, x, key) == front + [last];
      assert s == init + [last];
      InsertByStable(init, x, key, k);
      WithKeySnoc(front, last, key, k);
      WithKeySnoc(init, last, key, k);
      if key(x) == k {
        // `last` has a greater key than `x`, so it is not among the elements of key `k`
        assert WithKey(s, key, k) == WithKey(init, key, k);
        assert WithKey(front + [last], key, k) == WithKey(front, key, k);
        assert WithKey(front, key, k) == WithKey(init, key, k) + [x];
      } else {
        assert WithKey(front, key, k) == WithKey(init, key, k);
      }
    } else {
      assert InsertBy(s, x, key) == s + [x];
      WithKeySnoc(s, x, key, k);
    }
  }

  /**
   * `SortBy` is stable: the elements of each key come out in the order they
   * went in. With `SortedBy` and the multiset this fixes the result.
   */
  lemma {:induction false} SortByStable<T>(xs: seq<T>, key: T -> int, k: int)
    ensures WithKey(SortBy(xs, key), key, k) == WithKey(xs, key, k)
    decreases |xs|
  {
    if |xs| > 0 {
      var init := xs[..|xs| - 1];
      SortByStable(init, key, k);
      InsertByStable(SortBy(init, key), xs[|xs| - 1], key, k);
    }
  }

  /** `xs.findIndex(y => y == x)`, with `|xs|` standing for "not found". */
  function FirstIndex<T(==)>(xs: seq<T>, x: T): (i: nat)
    ensures i <= |xs|
    ensures i < |xs| ==> xs[i] == x
    ensures forall j :: 0 <= j < i ==> xs[j] != x
    decreases |xs|
  {
    if |xs| == 0 then 0
    else if xs[0] == x then 0
    else 1 + FirstIndex(xs[1..], x)
  }

  /** `xs.splice(xs.findIndex(y => y == x), 1)` guarded by "found": the first `x` taken out. */
  function RemoveFirst<T(==)>(xs: seq<T>, x: T): (r: seq<T>)
    ensures x !in xs ==> r == xs
    ensures x in xs ==> |r| == |xs| - 1
    ensures x in xs ==> r == xs[..FirstIndex(xs, x)] + xs[FirstIndex(xs, x) + 1..]
  {
    var i := FirstIndex(xs, x);
    if i == |xs| then xs else xs[..i] + xs[i + 1..]
  }

  /** Removing the first occurrence removes one copy and keeps everything else, in order. */
  lemma RemoveFirstMultiset<T>(xs: seq<T>, x: T)
    ensures multiset(RemoveFirst(xs, x)) == multiset(xs) - multiset{x}
  {
    var i := FirstIndex(xs, x);
    if i < |xs| {
      RemoveAtMultiset(xs, i);
    } else {
      assert multiset(xs)[x] == 0;
    }
  }

  /** Cutting the element at `i` out of a sequence removes one copy of it from the multiset. */
  lemma RemoveAtMultiset<T>(xs: seq<T>, i: nat)
    requires i < |xs|
    ensures multiset(xs[..i] + xs[i + 1..]) == multiset(xs) - multiset{xs[i]}
  {
    var front, back := xs[..i], xs[i + 1..];
    assert xs == front + [xs[i]] + back;
    assert multiset(xs) == multiset(front) + multiset{xs[i]} + multiset(back);
    assert multiset(front + back) == multiset(front) + multiset(back);
  }

  /** In a duplicate-free sequence, removal leaves no copy behind and no duplicates. */
  lemma RemoveFirstDistinct<T>(xs: seq<T>, x: T)
    requires NoDuplicates(xs)
    ensures NoDuplicates(RemoveFirst(xs, x))
    ensures x !in RemoveFirst(xs, x)
    ensures forall y :: y in RemoveFirst(xs, x) <==> y in xs && y != x
  {
    var i := FirstIndex(xs, x);
    var r := RemoveFirst(xs, x);
    if i < |xs| {
      assert forall k :: 0 <= k < |r| ==> r[k] == (if k < i then xs[k] else xs[k + 1]);
      forall y | y in xs && y != x ensures y in r {
        var k :| 0 <= k < |xs| && xs[k] == y;
        assert k != i;
        if k < i { assert r[k] == y; } else { assert r[k - 1] == y; }
      }
    }
  }
}

=== FILE: serverauth.dfy ===
/**
 * HTTP Basic authentication for the OpenCode server
 * (shared/opencode-server-auth.ts): the header built from the
 * `OPENCODE_SERVER_PASSWORD` and `OPENCODE_SERVER_USERNAME` environment
 * variables, and its injection into an SDK client of unknown shape. The
 * client's methods are opaque: which of them throw, and what `getConfig()`
 * returns, are parameters; `log` becomes the outcome's message.
 */
module ServerAuth {
  import opened Base
  import opened Js
  import opened Strings
  import opened Seqs
  import Utf8
  import Base64

  /** The username used when `OPENCODE_SERVER_USERNAME` is unset. */
  const DefaultUsername := "opencode"

  /** The scheme prefix of the header. */
  const BasicPrefix := "Basic "

  /**
   * `getServerBasicAuthHeader()`: none without a non-empty password;
   * otherwise `Basic ` and the Base64 of the UTF-8 bytes of `username:password`.
   */
  function GetServerBasicAuthHeader(password: Option<string>, username: Option<string>): (r: Option<string>)
    ensures r.None? <==> !NonEmpty(password)
    ensures r.Some? ==> IsPrefix(BasicPrefix, r.value)
    ensures r.Some? ==>
              Base64.Decode(r.value[|BasicPrefix|..]) == Some(Utf8.Encode(username.GetOr(DefaultUsername) + ":" + password.value))
  {
    if !NonEmpty(password) then None
    else
      var credentials := username.GetOr(DefaultUsername) + ":" + password.value;
      var header := BasicPrefix + Base64.Encode(Utf8.Encode(credentials));
      Base64.DecodeEncode(Utf8.Encode(credentials));
      assert header[|BasicPrefix|..] == Base64.Encode(Utf8.Encode(credentials));
      Some(header)
  }

  /**
   * A server reads the credentials back: decoding the token and splitting at
   * the first `:` returns the username (defaulted) and the password, as long
   * as the username itself holds no `:`.
   */
  lemma CredentialsRecoverable(password: string, username: Option<string>)
    requires password != ""
    requires ':' !in username.GetOr(DefaultUsername)
    ensures var header := GetServerBasicAuthHeader(Some(password), username);
            && header.Some?
            && var bytes := Base64.Decode(header.value[|BasicPrefix|..]);
            && bytes.Some?
            && var text := Utf8.Decode(bytes.value);
            && text.Some?
            && var colon := FirstIndex(text.value, ':');
            && colon < |text.value|
            && text.value[..colon] == username.GetOr(DefaultUsername)
            && text.value[colon + 1..] == password
  {
    var user := username.GetOr(DefaultUsername);
    Utf8.DecodeEncode(user + ":" + password);
    SplitCredentials(user, password);
  }

  /** `user:password` splits back at its first `:` when the user holds none. */
  lemma SplitCredentials(user: string, password: string)
    requires ':' !in user
    ensures var text := user + ":" + password;
            var colon := FirstIndex(text, ':');
            && colon < |text|
            && text[..colon] == user
            && text[colon + 1..] == password
  {
    FirstIndexAppend(user, ":" + password, ':');
    assert user + ":" + password == user + (":" + password);
  }

  /** A request's headers, by lower-cased name (the `Headers` class ignores case). */
  type Headers = map<string, string>

  const Authorization := "authorization"

  /**
   * The request interceptor: `Authorization` is set only when the request
   * has none (an empty value counts as none).
   */
  function Intercept(headers: Headers, auth: string): (r: Headers)
    ensures Authorization in headers && headers[Authorization] != "" ==> r == headers
    ensures !(Authorization in headers && headers[Authorization] != "") ==> r == headers[Authorization := auth]
    ensures forall name :: name != Authorization ==> (name in r <==> name in headers)
  {
    if Authorization in headers && headers[Authorization] != "" then headers
    else headers[Authorization := auth]
  }

  /** The headers a wrapped `fetch` sends: `Authorization` always replaced. */
  function WrappedFetchHeaders(headers: Headers, auth: string): (r: Headers)
    ensures Authorization in r && r[Authorization] == auth
    ensures forall name :: name != Authorization ==> (name in r <==> name in headers)
                                                     && (name in headers ==> r[name] == headers[name])
  {
    headers[Authorization := auth]
  }

  /** An interceptor never overrides an existing header, and once it has run it changes nothing more. */
  lemma InterceptIdempotent(headers: Headers, auth: string)
    requires auth != ""
    ensures Intercept(Intercept(headers, auth), auth) == Intercept(headers, auth)
    ensures Authorization in Intercept(headers, auth) && Intercept(headers, auth)[Authorization] != ""
  {
  }

  /** A change made to the client. */
  datatype Action =
    | SetConfigHeaders(auth: string)                    // `setConfig({ headers: { Authorization } })`
    | UseInterceptor(auth: string)                      // `interceptors.request.use(...)`
    | SetConfigFetch(baseFetch: JsValue, auth: string)  // `setConfig({ fetch: wrap(config.fetch) })`
    | AssignInternalFetch(baseFetch: JsValue, auth: string)  // `_client._config.fetch = wrap(...)`
    | AssignClientFetch(baseFetch: JsValue, auth: string)    // `client.fetch = wrap(...)`

  /** What `log` is called with. */
  datatype LogMessage = IncompatibleClient | NoCompatibleClient | InjectFailed

  /** The behaviour of the client's opaque parts. */
  datatype Host = Host(throws: Action -> bool, getConfig: Result<JsValue>)

  /** The calls made, in order (the last may have thrown), and the message logged. */
  datatype Injection = Injection(actions: seq<Action>, log: Option<LogMessage>)

  /**
   * Every call made returned normally, except the last one when the run
   * ended in a throw.
   */
  predicate NormalCalls(inj: Injection, host: Host) {
    forall i :: 0 <= i < |inj.actions| && (i < |inj.actions| - 1 || inj.log.None?) ==> !host.throws(inj.actions[i])
  }

  /** Run one strategy: skipped after a throw or when it does not apply; a throw ends the run. */
  function Attempt(acc: Injection, applies: bool, action: Action, host: Host): (r: Injection)
    ensures acc.log.Some? || !applies ==> r == acc
    ensures acc.log.None? && applies ==> r.actions == acc.actions + [action]
                                         && r.log == (if host.throws(action) then Some(InjectFailed) else None)
    ensures NormalCalls(acc, host) ==> NormalCalls(r, host)
  {
    if acc.log.Some? || !applies then acc
    else
      var r := Injection(acc.actions + [action], if host.throws(action) then Some(InjectFailed) else None);
      assert forall i :: 0 <= i < |acc.actions| ==> r.actions[i] == acc.actions[i];
      r
  }

  /** `getInternalClient(client)`: `client._client` when both are records. */
  function InternalClient(client: JsValue): (r: Option<JsValue>)
    ensures r.Some? ==> IsRecord(client) && IsRecord(r.value) && r.value == Get(client, "_client")
    ensures r.None? ==> !IsRecord(Get(client, "_client"))
  {
    var internal := Get(client, "_client");
    if IsRecord(internal) then Some(internal) else None
  }

  /** `interceptors.request.use` when both levels are records. */
  function InterceptorUse(internal: JsValue): JsValue {
    Get(Get(Get(internal, "interceptors"), "request"), "use")
  }

  /** The four strategies on the internal client, each tried whatever the others did. */
  function InjectInternal(internal: JsValue, auth: string, host: Host): (r: Injection)
    ensures forall a :: a in r.actions ==> !a.AssignClientFetch? && a.auth == auth
    ensures NormalCalls(r, host)
    ensures (forall a :: !host.throws(a)) && host.getConfig.Ok? ==>
              (r.log.Some? <==> r.actions == []) && r.log != Some(InjectFailed)
  {
    var hasSetConfig := Get(internal, "setConfig").JsFunc?;
    var s1 := Attempt(Injection([], None), hasSetConfig, SetConfigHeaders(auth), host);
    var s2 := Attempt(s1, InterceptorUse(internal).JsFunc?, UseInterceptor(auth), host);
    var s3 :=
      if s2.log.Some? || !(Get(internal, "getConfig").JsFunc? && hasSetConfig) then s2
      else
        match host.getConfig
        case Thrown => s2.(log := Some(InjectFailed))
        case Ok(config) =>
          var fetch := Get(config, "fetch");
          Attempt(s2, fetch.JsFunc?, SetConfigFetch(fetch, auth), host);
    var internalFetch := Get(Get(internal, "_config"), "fetch");
    var s4 := Attempt(s3, internalFetch.JsFunc?, AssignInternalFetch(internalFetch, auth), host);
    if s4.log.None? && s4.actions == [] then s4.(log := Some(IncompatibleClient)) else s4
  }

  /**
   * `injectServerAuthIntoClient(client)`: nothing without a header; the
   * internal client's strategies when there is one; otherwise the top-level
   * `fetch`. Every failure inside is caught and logged, so the call returns
   * normally for every client shape.
   */
  function InjectServerAuthIntoClient(client: JsValue, password: Option<string>, username: Option<string>,
                                      host: Host): (r: Injection)
    ensures !NonEmpty(password) ==> r == Injection([], None)
    ensures NonEmpty(password) ==> forall a :: a in r.actions ==> a.auth == GetServerBasicAuthHeader(password, username).value
    // an internal client is never bypassed through the top-level fetch
    ensures InternalClient(client).Some? ==> forall a :: a in r.actions ==> !a.AssignClientFetch?
    ensures InternalClient(client).None? ==> forall a :: a in r.actions ==> a.AssignClientFetch?
    // with nothing that throws, failure is logged only when no strategy applies
    ensures (&& NonEmpty(password) && (forall a :: !host.throws(a)) && host.getConfig.Ok?) ==>
              (r.log.Some? <==> r.actions == []) && r.log != Some(InjectFailed)
    ensures NormalCalls(r, host)
  {
    match GetServerBasicAuthHeader(password, username)
    case None => Injection([], None)
    case Some(auth) =>
      match InternalClient(client)
      case Some(internal) => InjectInternal(internal, auth, host)
      case None =>
        var fetch := Get(client, "fetch");
        if fetch.JsFunc? then Attempt(Injection([], None), true, AssignClientFetch(fetch, auth), host)
        else Injection([], Some(NoCompatibleClient))
  }

  /**
   * A client whose internal `setConfig` exists and does not throw always
   * gets the header through it, and the interceptor is registered too when
   * `use` exists: the strategies are not short-circuited.
   */
  lemma AllStrategiesTried(client: JsValue, password: string, username: Option<string>, host: Host)
    requires password != "" && InternalClient(client).Some?
    requires forall a :: !host.throws(a)
    requires Get(InternalClient(client).value, "setConfig").JsFunc?
    requires InterceptorUse(InternalClient(client).value).JsFunc?
    ensures var auth := GetServerBasicAuthHeader(Some(password), username).value;
            var r := InjectServerAuthIntoClient(client, Some(password), username, host);
            |r.actions| >= 2 && r.actions[0] == SetConfigHeaders(auth) && r.actions[1] == UseInterceptor(auth)
  {
    var auth := GetServerBasicAuthHeader(Some(password), username).value;
    InternalStrategiesTried(InternalClient(client).value, auth, host);
  }

  /** The internal strategies begin with `setConfig` and the interceptor when both exist and nothing throws. */
  lemma InternalStrategiesTried(internal: JsValue, auth: string, host: Host)
    requires forall a :: !host.throws(a)
    requires Get(internal, "setConfig").JsFunc? && InterceptorUse(internal).JsFunc?
    ensures var r := InjectInternal(internal, auth, host);
            |r.actions| >= 2 && r.actions[0] == SetConfigHeaders(auth) && r.actions[1] == UseInterceptor(auth)
  {
    var s1 := Attempt(Injection([], None), true, SetConfigHeaders(auth), host);
    var s2 := Attempt(s1, true, UseInterceptor(auth), host);
    assert s2.actions == [SetConfigHeaders(auth), UseInterceptor(auth)] && s2.log.None?;
  }
}

=== FILE: sessionstate.dfy ===
/**
 * The todo-continuation session store (todo-continuation-enforcer/session-state.ts):
 * per-session state with a last-access time, created on demand, swept by a
 * periodic prune after ten idle minutes, and emptied on shutdown. The store's
 * `SessionState` type is declared elsewhere; the model keeps the four fields
 * this file touches and carries every other field along untouched.
 */
module SessionStateStore {
  import opened Base
  import opened Js

  /** Entries idle for longer than this are pruned. */
  const SessionStateTtlMs: int := 10 * 60 * 1000
  /** How often the prune sweep runs. */
  const PruneIntervalMs: int := 2 * 60 * 1000

  /** A timer handle, as returned by `setTimeout`/`setInterval`. */
  type Handle = nat

  datatype SessionState = SessionState(
    countdownTimer: Option<Handle>,
    countdownInterval: Option<Handle>,
    inFlight: Option<bool>,
    countdownStartedAt: Option<int>,
    others: map<string, JsValue>)

  /** The `{}` a new session starts with. */
  const EmptyState: SessionState := SessionState(None, None, None, None, map[])

  datatype Tracked = Tracked(state: SessionState, lastAccessedAt: int)

  type Store = map<string, Tracked>

  datatype Got = Got(store: Store, state: SessionState)

  /** `getState`: the existing state, or a fresh empty one inserted; either way the access time is refreshed. */
  function GetState(store: Store, sessionID: string, now: int): (r: Got)
    ensures sessionID in r.store && r.store[sessionID] == Tracked(r.state, now)
    ensures r.state == (if sessionID in store then store[sessionID].state else EmptyState)
    ensures r.store == store[sessionID := Tracked(r.state, now)]
  {
    if sessionID in store then Got(store[sessionID := store[sessionID].(lastAccessedAt := now)], store[sessionID].state)
    else Got(store[sessionID := Tracked(EmptyState, now)], EmptyState)
  }

  /** `getExistingState`: never inserts; refreshes the access time of an entry it finds. */
  function GetExistingState(store: Store, sessionID: string, now: int): (r: (Store, Option<SessionState>))
    ensures r.0.Keys == store.Keys
    ensures r.1.Some? <==> sessionID in store
    ensures sessionID in store ==> r.1 == Some(store[sessionID].state) && r.0 == store[sessionID := Tracked(store[sessionID].state, now)]
    ensures sessionID !in store ==> r.0 == store
  {
    if sessionID in store then (store[sessionID := store[sessionID].(lastAccessedAt := now)], Some(store[sessionID].state))
    else (store, None)
  }

  /** A state with its countdown stopped: both timers gone, not in flight, no start time. */
  function Stopped(st: SessionState): (r: SessionState)
    ensures r.countdownTimer.None? && r.countdownInterval.None?
    ensures r.inFlight == Some(false) && r.countdownStartedAt.None?
    ensures r.others == st.others
  {
    st.(countdownTimer := None, countdownInterval := None, inFlight := Some(false), countdownStartedAt := None)
  }

  /** The timer handles `cancelCountdown` passes to `clearTimeout` and `clearInterval`, in that order. */
  function ClearedHandles(st: SessionState): (r: seq<Handle>)
    ensures |r| <= 2
    ensures st.countdownTimer.Some? ==> |r| > 0 && r[0] == st.countdownTimer.value
    ensures st.countdownInterval.Some? ==> |r| > 0 && r[|r| - 1] == st.countdownInterval.value
    ensures |r| == (if st.countdownTimer.Some? then 1 else 0) + (if st.countdownInterval.Some? then 1 else 0)
  {
    (if st.countdownTimer.Some? then [st.countdownTimer.value] else [])
    + (if st.countdownInterval.Some? then [st.countdownInterval.value] else [])
  }

  datatype Cancelled = Cancelled(store: Store, cleared: seq<Handle>)

  /** `cancelCountdown`: stops a known session's countdown; an unknown id changes nothing. */
  function CancelCountdown(store: Store, sessionID: string): (r: Cancelled)
    ensures sessionID !in store ==> r == Cancelled(store, [])
    ensures sessionID in store ==>
              && r.store == store[sessionID := store[sessionID].(state := Stopped(store[sessionID].state))]
              && r.cleared == ClearedHandles(store[sessionID].state)
    ensures r.store.Keys == store.Keys
  {
    if sessionID !in store then Cancelled(store, [])
    else
      var tracked := store[sessionID];
      Cancelled(store[sessionID := tracked.(state := Stopped(tracked.state))], ClearedHandles(tracked.state))
  }

  /** `cleanup`: the countdown is cancelled and the entry deleted. */
  function Cleanup(store: Store, sessionID: string): (r: Cancelled)
    ensures sessionID !in r.store
    ensures r.store == store - {sessionID}
    ensures r.cleared == if sessionID in store then ClearedHandles(store[sessionID].state) else []
  {
    var c := CancelCountdown(store, sessionID);
    Cancelled(c.store - {sessionID}, c.cleared)
  }

  /** An entry the prune sweep removes: idle strictly longer than the TTL. */
  predicate Expired(t: Tracked, now: int) {
    now - t.lastAccessedAt > SessionStateTtlMs
  }

  /** The periodic sweep: cancel and delete every expired entry, keep every other one as it is. */
  method PruneSweep(store: Store, now: int) returns (r: Store, cleared: set<Handle>)
    ensures forall id :: id in r <==> id in store && !Expired(store[id], now)
    ensures forall id :: id in r ==> r[id] == store[id]
    // the handles cleared are exactly the countdown handles of the expired entries
    ensures forall h :: h in cleared <==>
              exists id :: id in store && Expired(store[id], now) && h in ClearedHandles(store[id].state)
  {
    r := store;
    cleared := {};
    var todo := store.Keys;
    ghost var done: set<string> := {};
    while todo != {}
      invariant todo <= store.Keys && done <= store.Keys
      invariant forall id :: id in store ==> (id in todo <==> id !in done)
      invariant forall id :: id in r ==> id in store && r[id] == store[id]
      invariant forall id :: id in done ==> (id in r <==> !Expired(store[id], now))
      invariant forall id :: id in todo ==> id in r
      invariant ClearedFrom(store, now, done, cleared)
      decreases |todo|
    {
      var id :| id in todo;
      ClearedFromAdd(store, now, done, cleared, id);
      if Expired(r[id], now) {
        r := Cleanup(r, id).store;
        cleared := cleared + HandleSet(store[id].state);
      }
      todo := todo - {id};
      done := done + {id};
    }
  }

  /** The countdown handles of a state, as a set. */
  function HandleSet(st: SessionState): (r: set<Handle>)
    ensures forall h :: h in r <==> h in ClearedHandles(st)
  {
    set h | h in ClearedHandles(st)
  }

  /** `cleared` holds exactly the countdown handles of the expired entries among `done`. */
  ghost predicate ClearedFrom(store: Store, now: int, done: set<string>, cleared: set<Handle>) {
    forall h :: h in cleared <==>
      exists id :: id in done && id in store && Expired(store[id], now) && h in ClearedHandles(store[id].state)
  }

  /** Visiting one more entry adds its handles exactly when it has expired. */
  lemma ClearedFromAdd(store: Store, now: int, done: set<string>, cleared: set<Handle>, id: string)
    requires ClearedFrom(store, now, done, cleared) && id in store
    ensures ClearedFrom(store, now, done + {id},
                        if Expired(store[id], now) then cleared + HandleSet(store[id].state) else cleared)
  {
  }

  /** `cancelAllCountdowns`: every entry stays, every countdown stops. */
  function CancelAllCountdowns(store: Store): (r: Store)
    ensures r.Keys == store.Keys
    ensures forall id :: id in r ==> r[id] == store[id].(state := Stopped(store[id].state))
  {
    map id | id in store :: store[id].(state := Stopped(store[id].state))
  }

  /** `shutdown`: every countdown is cancelled (the handles cleared are returned) and the store emptied. */
  function Shutdown(store: Store): (r: (Store, set<Handle>))
    ensures r.0 == map[]
    ensures forall id :: id in store && store[id].state.countdownTimer.Some? ==> store[id].state.countdownTimer.value in r.1
    ensures forall id :: id in store && store[id].state.countdownInterval.Some? ==>
              store[id].state.countdownInterval.value in r.1
    // and no other handle is reported cleared
    ensures forall h :: h in r.1 ==> exists id :: id in store && h in ClearedHandles(store[id].state)
  {
    var timers := set id | id in store && store[id].state.countdownTimer.Some? :: store[id].state.countdownTimer.value;
    var intervals := set id | id in store && store[id].state.countdownInterval.Some? ::
                       store[id].state.countdownInterval.value;
    (map[], timers + intervals)
  }

  /** Once created, a state is found again by `getExistingState`, the same state `getState` handed out. */
  lemma GetStateThenExisting(store: Store, sessionID: string, t1: int, t2: int)
    ensures var got := GetState(store, sessionID, t1);
            GetExistingState(got.store, sessionID, t2).1 == Some(got.state)
  {
  }

  /** An entry accessed within the TTL survives the sweep; `cleanup` and `shutdown` make it unknown. */
  lemma AccessProtectsFromPrune(store: Store, sessionID: string, accessed: int, now: int)
    requires now - accessed <= SessionStateTtlMs
    ensures var got := GetState(store, sessionID, accessed);
            !Expired(got.store[sessionID], now)
    ensures GetExistingState(Cleanup(store, sessionID).store, sessionID, now).1.None?
    ensures GetExistingState(Shutdown(store).0, sessionID, now).1.None?
  {
  }
}

=== FILE: skilldiscovery.dfy ===
/**
 * Loading skills from the `skills.sources` configuration entries
 * (features/opencode-skill-loader/config-source-discovery.ts). The file
 * system (`stat`, the skill loaders), `path.join`, `path.relative`,
 * `picomatch`, the configuration normaliser and the de-duplication by name
 * are parameters; `extname` and `isAbsolute` follow Node's POSIX rules.
 */
module SkillSourceDiscovery {
  import opened Base
  import opened Js
  import opened Strings

  /** `MAX_RECURSIVE_DEPTH` */
  const MaxRecursiveDepth: nat := 10

  /** A loaded skill; only its name and where it came from matter here. */
  datatype Skill = Skill(name: string, path: Option<string>)

  /** `isHttpUrl(path)` */
  predicate IsHttpUrl(path: string) {
    IsPrefix("http://", path) || IsPrefix("https://", path)
  }

  /** `path.isAbsolute` on POSIX: a leading `/`. */
  predicate IsAbsolute(path: string) {
    |path| > 0 && path[0] == '/'
  }

  /** `toAbsolutePath(path, configDir)`: absolute paths as they are, others joined onto the directory. */
  function ToAbsolutePath(path: string, configDir: string, join: (string, string) -> string): (r: string)
    ensures IsAbsolute(path) ==> r == path
    ensures !IsAbsolute(path) ==> r == join(configDir, path)
  {
    if IsAbsolute(path) then path else join(configDir, path)
  }

  /** The path without its trailing slashes. */
  function StripTrailingSlashes(s: string): (r: string)
    ensures |r| <= |s| && r == s[..|r|]
    ensures r == [] || r[|r| - 1] != '/'
  {
    if |s| > 0 && s[|s| - 1] == '/' then StripTrailingSlashes(s[..|s| - 1]) else s
  }

  /** The text after the last `/`. */
  function AfterLastSlash(s: string): (r: string)
    ensures '/' !in r
    ensures |r| <= |s| && r == s[|s| - |r|..]
    ensures |r| < |s| ==> s[|s| - |r| - 1] == '/'
  {
    if |s| == 0 || s[|s| - 1] == '/' then ""
    else
      var prev := AfterLastSlash(s[..|s| - 1]);
      SnocSuffix(s, prev);
      prev + [s[|s| - 1]]
  }

  /** A suffix of `s` without its last character, extended by that character, is a suffix of `s`. */
  lemma SnocSuffix(s: string, prev: string)
    requires |s| > 0 && |prev| <= |s| - 1 && prev == s[..|s| - 1][|s| - 1 - |prev|..]
    ensures prev + [s[|s| - 1]] == s[|s| - |prev| - 1..]
  {
    assert s[..|s| - 1][|s| - 1 - |prev|..] == s[|s| - 1 - |prev|..|s| - 1];
  }

  /** The last path segment, as `path.basename` reads it. */
  function Basename(path: string): (r: string)
    ensures '/' !in r
  {
    AfterLastSlash(StripTrailingSlashes(path))
  }

  /** The position of the last `.`, if any. */
  function LastDot(s: string): (r: Option<nat>)
    ensures r.None? ==> '.' !in s
    ensures r.Some? ==> r.value < |s| && s[r.value] == '.' && forall j :: r.value < j < |s| ==> s[j] != '.'
  {
    if |s| == 0 then None
    else if s[|s| - 1] == '.' then Some(|s| - 1)
    else LastDot(s[..|s| - 1])
  }

  /** The extension of one segment: from its last `.`, unless there is none, it opens the segment, or the segment is `..`. */
  function SegmentExt(b: string): (r: string)
    ensures r == [] || (r[0] == '.' && '.' !in r[1..])
  {
    match LastDot(b)
    case None => ""
    case Some(d) => if d == 0 || b == ".." then "" else b[d..]
  }

  /** `path.extname(path)`: the extension of the last segment. */
  function Extname(path: string): (r: string)
    ensures r == [] || (r[0] == '.' && '.' !in r[1..] && '/' !in r)
  {
    SegmentExt(Basename(path))
  }

  /** `isMarkdownPath(path)` */
  predicate IsMarkdownPath(path: string) {
    ToLower(Extname(path)) == ".md"
  }

  /** The segment is longer than `.md` and ends in it, ignoring case. */
  predicate EndsWithMd(b: string) {
    |b| >= 4 && ToLower(b[|b| - 3..]) == ".md"
  }

  /** A segment whose extension reads `.md` is longer than `.md` and ends in it. */
  lemma MarkdownSegmentEnds(b: string)
    requires ToLower(SegmentExt(b)) == ".md"
    ensures EndsWithMd(b)
  {
    var d := LastDot(b).value;
    assert SegmentExt(b) == b[d..];
    assert |b[d..]| == 3;
  }

  /** A segment longer than `.md` that ends in it, ignoring case, has extension `.md` up to case. */
  lemma SegmentEndingIsMarkdown(b: string)
    requires EndsWithMd(b)
    ensures ToLower(SegmentExt(b)) == ".md"
  {
    var t := b[|b| - 3..];
    assert LowerChar(t[0]) == '.' && LowerChar(t[1]) == 'm' && LowerChar(t[2]) == 'd';
    assert b[|b| - 1] != '.';
    assert b[..|b| - 1][|b| - 2] != '.';
    assert b[..|b| - 1][..|b| - 2] == b[..|b| - 2];
    assert b[..|b| - 2][|b| - 3] == '.';
    assert LastDot(b) == Some(|b| - 3);
  }

  /** A path is markdown exactly when its last segment is longer than `.md` and ends in it, ignoring case. */
  lemma MarkdownIffSuffix(path: string)
    ensures IsMarkdownPath(path) <==> EndsWithMd(Basename(path))
  {
    var b := Basename(path);
    if IsMarkdownPath(path) {
      MarkdownSegmentEnds(b);
    }
    if EndsWithMd(b) {
      SegmentEndingIsMarkdown(b);
    }
  }

  /** `normalizePathForGlob(path)`: `path.split("\\").join("/")`. */
  function NormalizePathForGlob(path: string): (r: string)
    ensures r == ReplaceChar(path, '\\', '/')
  {
    JoinSplitIsReplace(path, '\\', '/');
    Join(Split(path, '\\'), "/")
  }

  /** Normalising keeps the length, leaves no backslash, and changes nothing a second time. */
  lemma NormalizeProperties(path: string)
    ensures |NormalizePathForGlob(path)| == |path|
    ensures '\\' !in NormalizePathForGlob(path)
    ensures NormalizePathForGlob(NormalizePathForGlob(path)) == NormalizePathForGlob(path)
    ensures forall k :: 0 <= k < |path| && path[k] != '\\' ==> NormalizePathForGlob(path)[k] == path[k]
  {
    var once := NormalizePathForGlob(path);
    var twice := NormalizePathForGlob(once);
    assert forall k :: 0 <= k < |once| ==> once[k] != '\\';
    assert |twice| == |once|;
    assert forall k :: 0 <= k < |once| ==> twice[k] == once[k];
  }

  /** The glob collaborators: `path.relative` and `picomatch.isMatch(rel, pattern, { dot, bash })`. */
  datatype Glob = Glob(relative: (string, string) -> string, isMatch: (string, string) -> bool)

  /** A skill survives the glob: it has a path whose normalised relative form matches. */
  predicate Matches(skill: Skill, baseDir: string, pattern: string, glob: Glob) {
    NonEmpty(skill.path)
    && glob.isMatch(NormalizePathForGlob(glob.relative(baseDir, skill.path.value)), pattern)
  }

  /** `filterByGlob(skills, sourceBaseDir, globPattern)` */
  function FilterByGlob(skills: seq<Skill>, baseDir: string, pattern: Option<string>, glob: Glob): (r: seq<Skill>)
    ensures !NonEmpty(pattern) ==> r == skills
    ensures |r| <= |skills|
    decreases |skills|
  {
    if !NonEmpty(pattern) || |skills| == 0 then skills
    else
      var rest := FilterByGlob(skills[..|skills| - 1], baseDir, pattern, glob);
      var last := skills[|skills| - 1];
      if Matches(last, baseDir, pattern.value, glob) then rest + [last] else rest
  }

  /** With a pattern, exactly the skills whose path matches it are kept. */
  lemma {:induction false} FilterByGlobKeeps(skills: seq<Skill>, baseDir: string, pattern: Option<string>, glob: Glob)
    requires NonEmpty(pattern)
    ensures forall s :: s in FilterByGlob(skills, baseDir, pattern, glob) <==>
                        s in skills && Matches(s, baseDir, pattern.value, glob)
    decreases |skills|
  {
    if |skills| > 0 {
      var init := skills[..|skills| - 1];
      FilterByGlobKeeps(init, baseDir, pattern, glob);
      assert forall s :: s in skills <==> s in init || s == skills[|skills| - 1];
    }
  }

  /** Filtering keeps the order: the filter of a concatenation is the concatenation of the filters. */
  lemma {:induction false} FilterByGlobAppend(a: seq<Skill>, b: seq<Skill>, baseDir: string, pattern: Option<string>,
                                              glob: Glob)
    ensures FilterByGlob(a + b, baseDir, pattern, glob)
            == FilterByGlob(a, baseDir, pattern, glob) + FilterByGlob(b, baseDir, pattern, glob)
    decreases |b|
  {
    if !NonEmpty(pattern) {
    } else if |b| == 0 {
      assert a + b == a;
    } else {
      FilterByGlobAppend(a, b[..|b| - 1], baseDir, pattern, glob);
      FilterByGlobAppendStep(a, b, baseDir, pattern, glob);
    }
  }

  /** Filtering `a + b` extends filtering `a + b` without its last skill by that skill when it matches. */
  lemma {:induction false} FilterByGlobAppendStep(a: seq<Skill>, b: seq<Skill>, baseDir: string, pattern: Option<string>, glob: Glob)
    requires NonEmpty(pattern) && |b| > 0
    requires FilterByGlob(a + b[..|b| - 1], baseDir, pattern, glob)
             == FilterByGlob(a, baseDir, pattern, glob) + FilterByGlob(b[..|b| - 1], baseDir, pattern, glob)
    ensures FilterByGlob(a + b, baseDir, pattern, glob)
            == FilterByGlob(a, baseDir, pattern, glob) + FilterByGlob(b, baseDir, pattern, glob)
  {
    var ab := a + b;
    var last := b[|b| - 1];
    assert ab[..|ab| - 1] == a + b[..|b| - 1];
    assert ab[|ab| - 1] == last;
    var fa := FilterByGlob(a, baseDir, pattern, glob);
    var fInit := FilterByGlob(b[..|b| - 1], baseDir, pattern, glob);
    if Matches(last, baseDir, pattern.value, glob) {
      assert FilterByGlob(ab, baseDir, pattern, glob) == (fa + fInit) + [last];
      assert FilterByGlob(b, baseDir, pattern, glob) == fInit + [last];
      assert (fa + fInit) + [last] == fa + (fInit + [last]);
    } else {
      assert FilterByGlob(ab, baseDir, pattern, glob) == fa + fInit;
      assert FilterByGlob(b, baseDir, pattern, glob) == fInit;
    }
  }

  /** What `fs.stat` reports, `Missing` when it rejects. */
  datatype StatKind = IsFile | IsDirectory | OtherKind | Missing

  /** The file-system and loader collaborators of `loadSourcePath`. */
  datatype Loader = Loader(
    join: (string, string) -> string,
    dirname: string -> string,
    stat: string -> StatKind,
    loadFile: string -> Option<Skill>,          // loadSkillFromPath on a markdown file
    loadDir: (string, nat) -> seq<Skill>,       // loadSkillsFromDir with a maximum depth
    glob: Glob)

  /** `maxDepth: recursive ? MAX_RECURSIVE_DEPTH : 0` */
  function ScanDepth(recursive: bool): (d: nat)
    ensures recursive ==> d == 10
    ensures !recursive ==> d == 0
  {
    if recursive then MaxRecursiveDepth else 0
  }

  /**
   * `loadSourcePath(options)`: URLs, missing paths, non-markdown files and
   * anything that is neither file nor directory give nothing; a markdown
   * file gives its skill, a directory its scan, each through the glob filter.
   */
  function LoadSourcePath(sourcePath: string, recursive: bool, pattern: Option<string>, configDir: string,
                          env: Loader): (r: seq<Skill>)
    ensures IsHttpUrl(sourcePath) ==> r == []
    ensures !IsHttpUrl(sourcePath) ==>
              var abs := ToAbsolutePath(sourcePath, configDir, env.join);
              && (env.stat(abs) == Missing || env.stat(abs) == OtherKind ==> r == [])
              && (env.stat(abs) == IsFile && !IsMarkdownPath(abs) ==> r == [])
              && (env.stat(abs) == IsFile && IsMarkdownPath(abs) ==>
                    r == match env.loadFile(abs)
                         case None => []
                         case Some(skill) => FilterByGlob([skill], env.dirname(abs), pattern, env.glob))
              && (env.stat(abs) == IsDirectory ==>
                    r == FilterByGlob(env.loadDir(abs, ScanDepth(recursive)), abs, pattern, env.glob))
    ensures forall s :: s in r ==> !NonEmpty(pattern) || NonEmpty(s.path)
  {
    if IsHttpUrl(sourcePath) then []
    else
      var abs := ToAbsolutePath(sourcePath, configDir, env.join);
      match env.stat(abs)
      case Missing => []
      case OtherKind => []
      case IsFile =>
        if !IsMarkdownPath(abs) then []
        else (match env.loadFile(abs)
              case None => []
              case Some(skill) =>
                FilteredHavePaths([skill], env.dirname(abs), pattern, env.glob);
                FilterByGlob([skill], env.dirname(abs), pattern, env.glob))
      case IsDirectory =>
        FilteredHavePaths(env.loadDir(abs, ScanDepth(recursive)), abs, pattern, env.glob);
        FilterByGlob(env.loadDir(abs, ScanDepth(recursive)), abs, pattern, env.glob)
  }

  /** With a pattern, every skill that survives the filter has a path. */
  lemma FilteredHavePaths(skills: seq<Skill>, baseDir: string, pattern: Option<string>, glob: Glob)
    ensures forall s :: s in FilterByGlob(skills, baseDir, pattern, glob) ==> !NonEmpty(pattern) || NonEmpty(s.path)
  {
    if NonEmpty(pattern) {
      FilterByGlobKeeps(skills, baseDir, pattern, glob);
    }
  }

  /** A configured source: a bare path, or an object with `path`, `recursive?` and `glob?`. */
  datatype Source = PathSource(path: string) | ObjectSource(path: string, recursive: Option<bool>, glob: Option<string>)

  /** The skills one source contributes: a bare path is flat and unfiltered; `recursive ?? false`. */
  function LoadSource(source: Source, configDir: string, env: Loader): (r: seq<Skill>)
    ensures source.PathSource? ==> r == LoadSourcePath(source.path, false, None, configDir, env)
    ensures source.ObjectSource? ==>
              r == LoadSourcePath(source.path, source.recursive.GetOr(false), source.glob, configDir, env)
  {
    match source
    case PathSource(p) => LoadSourcePath(p, false, None, configDir, env)
    case ObjectSource(p, rec, g) => LoadSourcePath(p, rec.GetOr(false), g, configDir, env)
  }

  /** `loadedBySource.flat()` */
  function LoadAll(sources: seq<Source>, configDir: string, env: Loader): (r: seq<Skill>)
    ensures forall s :: s in r <==> exists i :: 0 <= i < |sources| && s in LoadSource(sources[i], configDir, env)
  {
    if |sources| == 0 then []
    else
      var rest := LoadAll(sources[1..], configDir, env);
      assert forall i :: 1 <= i < |sources| ==> sources[i] == sources[1..][i - 1];
      LoadSource(sources[0], configDir, env) + rest
  }

  /** One source contributes exactly its own skills. */
  lemma LoadAllSingle(x: Source, configDir: string, env: Loader)
    ensures LoadAll([x], configDir, env) == LoadSource(x, configDir, env)
  {
    assert [x][1..] == [];
  }

  /** The flattening keeps source order: the skills of `a + b` are those of `a` followed by those of `b`. */
  lemma {:induction false} LoadAllAppend(a: seq<Source>, b: seq<Source>, configDir: string, env: Loader)
    ensures LoadAll(a + b, configDir, env) == LoadAll(a, configDir, env) + LoadAll(b, configDir, env)
    decreases |a|
  {
    if |a| > 0 {
      assert (a + b)[1..] == a[1..] + b;
      assert (a + b)[0] == a[0];
      LoadAllAppend(a[1..], b, configDir, env);
    } else {
      assert a + b == b;
    }
  }

  /**
   * `discoverConfigSourceSkills(options)`: no source gives nothing; otherwise
   * every source's skills, in source order, through the de-duplication.
   */
  function DiscoverConfigSourceSkills(sources: seq<Source>, configDir: string, env: Loader,
                                      dedupByName: seq<Skill> -> seq<Skill>): (r: seq<Skill>)
    ensures |sources| == 0 ==> r == []
    ensures |sources| > 0 ==> r == dedupByName(LoadAll(sources, configDir, env))
  {
    if |sources| == 0 then [] else dedupByName(LoadAll(sources, configDir, env))
  }

  /** URL sources contribute nothing to the discovery. */
  lemma UrlSourcesYieldNothing(source: Source, configDir: string, env: Loader)
    requires IsHttpUrl(source.path)
    ensures LoadSource(source, configDir, env) == []
  {
  }
}

=== FILE: sourcedetector.dfy ===
/**
 * Ultrawork message routing (keyword-detector/ultrawork/source-detector.ts):
 * planner agents first, then GPT models, then the default. `isGptModel` is
 * a parameter.
 */
module SourceDetector {
  import opened Base
  import opened Js
  import opened Strings

  /** The characters of the `[_-]+` runs. */
  predicate IsSeparator(c: char) {
    c == '_' || c == '-'
  }

  predicate IsAlnum(c: char) {
    'a' <= c <= 'z' || 'A' <= c <= 'Z' || '0' <= c <= '9'
  }

  /** The regular-expression class `\w`. */
  predicate IsWordChar(c: char) {
    IsAlnum(c) || c == '_'
  }

  /** The text after a leading run of separators. */
  function DropSeparators(s: string): (r: string)
    ensures |r| <= |s| && r == s[|s| - |r|..]
    ensures r == [] || !IsSeparator(r[0])
    ensures forall k :: 0 <= k < |s| - |r| ==> IsSeparator(s[k])
  {
    if |s| > 0 && IsSeparator(s[0]) then DropSeparators(s[1..]) else s
  }

  /** `s.replace(/[_-]+/g, " ")`: each maximal run of `_` and `-` becomes one space. */
  function CollapseSeparators(s: string): (r: string)
    ensures forall k :: 0 <= k < |r| ==> !IsSeparator(r[k])
    ensures |r| <= |s|
    ensures |r| == 0 <==> |s| == 0
    decreases |s|
  {
    if |s| == 0 then ""
    else if IsSeparator(s[0]) then " " + CollapseSeparators(DropSeparators(s[1..]))
    else [s[0]] + CollapseSeparators(s[1..])
  }

  /**
   * `\bplan\b` matches `s` at or after its first position, where `boundary`
   * says whether the character before `s` is not a word character and `isWord`
   * classifies word characters.
   */
  predicate PlanFrom(s: string, boundary: bool, isWord: char -> bool)
    decreases |s|
  {
    |s| > 0 && ((boundary && PlanHere(s, isWord)) || PlanFrom(s[1..], !isWord(s[0]), isWord))
  }

  /** `s` starts with `plan` followed by its end or a non-word character. */
  predicate PlanHere(s: string, isWord: char -> bool) {
    IsPrefix("plan", s) && (|s| == 4 || !isWord(s[4]))
  }

  /** `/\bplan\b/.test(s)` */
  predicate PlanAsWord(s: string) {
    PlanFrom(s, true, IsWordChar)
  }

  /** `isPlannerAgent(agentName)` */
  function IsPlannerAgent(agentName: Option<string>): (r: bool)
    ensures !NonEmpty(agentName) ==> !r
    // the whole-word test on the normalized name is the whole-word test on the
    // name itself with `_` and `-` counted as word boundaries
    ensures r <==>
              && NonEmpty(agentName)
              && var lower := ToLower(agentName.value);
              || Contains(lower, "prometheus") || Contains(lower, "planner")
              || PlanFrom(lower, true, IsAlnum)
  {
    if !NonEmpty(agentName) then false
    else
      var lower := ToLower(agentName.value);
      if Contains(lower, "prometheus") || Contains(lower, "planner") then true
      else
        CollapsePreservesPlanWords(lower, true);
        PlanAsWord(CollapseSeparators(lower))
  }

  /** A word free of separators and spaces is a prefix of the collapsed text exactly when it is a prefix of the text. */
  lemma {:induction false} CollapsePrefix(w: string, s: string)
    requires forall k :: 0 <= k < |w| ==> !IsSeparator(w[k]) && w[k] != ' '
    ensures IsPrefix(w, CollapseSeparators(s)) <==> IsPrefix(w, s)
    ensures IsPrefix(w, s) ==> CollapseSeparators(s) == w + CollapseSeparators(s[|w|..])
    decreases |w|
  {
    if |w| > 0 && |s| > 0 {
      if IsSeparator(s[0]) {
        assert CollapseSeparators(s)[0] == ' ';
      } else {
        CollapsePrefix(w[1..], s[1..]);
        CollapsePrefixKept(w, s);
      }
    } else if |w| == 0 {
      assert s[0..] == s;
    }
  }

  /** The step of `CollapsePrefix` over a kept first character. */
  lemma CollapsePrefixKept(w: string, s: string)
    requires |w| > 0 && |s| > 0 && !IsSeparator(s[0])
    requires IsPrefix(w[1..], CollapseSeparators(s[1..])) <==> IsPrefix(w[1..], s[1..])
    requires IsPrefix(w[1..], s[1..]) ==> CollapseSeparators(s[1..]) == w[1..] + CollapseSeparators(s[1..][|w| - 1..])
    ensures IsPrefix(w, CollapseSeparators(s)) <==> IsPrefix(w, s)
    ensures IsPrefix(w, s) ==> CollapseSeparators(s) == w + CollapseSeparators(s[|w|..])
  {
    var rest := CollapseSeparators(s[1..]);
    CollapseKept(s);
    ConsParts(s[0], rest);
    PrefixCons(w, s);
    PrefixCons(w, [s[0]] + rest);
    if IsPrefix(w, s) {
      DropAfterHead(s, |w|);
      ConsAppend(w, CollapseSeparators(s[|w|..]));
    }
  }

  /** A kept first character heads the collapsed text. */
  lemma CollapseKept(s: string)
    requires |s| > 0 && !IsSeparator(s[0])
    ensures CollapseSeparators(s) == [s[0]] + CollapseSeparators(s[1..])
  {
  }

  /** A `plan` starts the collapsed text exactly when one starts the text, with matching boundaries after it. */
  lemma PlanHereAgrees(s: string)
    ensures PlanHere(CollapseSeparators(s), IsWordChar) <==> PlanHere(s, IsAlnum)
  {
    CollapsePrefix("plan", s);
    if IsPrefix("plan", s) {
      var u := s[4..];
      var c := CollapseSeparators(s);
      assert c == "plan" + CollapseSeparators(u);
      if |u| > 0 {
        assert s[4] == u[0];
        assert c[4] == CollapseSeparators(u)[0];
        if IsSeparator(u[0]) {
          assert CollapseSeparators(u)[0] == ' ';
        } else {
          assert CollapseSeparators(u)[0] == u[0];
        }
      }
    }
  }

  /** A run of separators before `s` only ever leaves a boundary behind. */
  lemma {:induction false} SeparatorRun(s: string, boundary: bool)
    requires |s| > 0 && IsSeparator(s[0])
    ensures PlanFrom(s, boundary, IsAlnum) <==> PlanFrom(DropSeparators(s[1..]), true, IsAlnum)
    decreases |s|
  {
    var t := s[1..];
    PlanFromSeparator(s, boundary);
    if |t| > 0 && IsSeparator(t[0]) {
      SeparatorRun(t, true);
      assert DropSeparators(t) == DropSeparators(t[1..]);
    } else {
      assert DropSeparators(t) == t;
    }
  }

  /** A separator never starts `plan`, and the scan goes on after it with a boundary. */
  lemma PlanFromSeparator(s: string, boundary: bool)
    requires |s| > 0 && IsSeparator(s[0])
    ensures PlanFrom(s, boundary, IsAlnum) <==> PlanFrom(s[1..], true, IsAlnum)
  {
    assert !PlanHere(s, IsAlnum) by {
      assert s[0] != "plan"[0];
    }
  }

  /**
   * Collapsing the separator runs keeps exactly the whole-word occurrences of
   * `plan`, once `_` and `-` are read as boundaries in the original text.
   */
  lemma {:induction false} CollapsePreservesPlanWords(s: string, boundary: bool)
    ensures PlanFrom(CollapseSeparators(s), boundary, IsWordChar) <==> PlanFrom(s, boundary, IsAlnum)
    decreases |s|
  {
    if |s| > 0 {
      if IsSeparator(s[0]) {
        var rest := DropSeparators(s[1..]);
        CollapsePreservesPlanWords(rest, true);
        SeparatorStep(s, boundary);
        SeparatorRun(s, boundary);
      } else {
        CollapsePreservesPlanWords(s[1..], !IsAlnum(s[0]));
        PlanHereAgrees(s);
        WordStep(s, boundary);
      }
    }
  }

  /** One step of the collapsed scan over a separator run: a space, then the rest. */
  lemma SeparatorStep(s: string, boundary: bool)
    requires |s| > 0 && IsSeparator(s[0])
    ensures PlanFrom(CollapseSeparators(s), boundary, IsWordChar)
            <==> PlanFrom(CollapseSeparators(DropSeparators(s[1..])), true, IsWordChar)
  {
    var c := CollapseSeparators(s);
    assert c == " " + CollapseSeparators(DropSeparators(s[1..]));
    assert c[0] == ' ' && "plan"[0] == 'p';
    assert !PlanHere(c, IsWordChar);
    assert c[1..] == CollapseSeparators(DropSeparators(s[1..]));
  }

  /** One step of the collapsed scan over a character that is kept. */
  lemma WordStep(s: string, boundary: bool)
    requires |s| > 0 && !IsSeparator(s[0])
    ensures PlanFrom(CollapseSeparators(s), boundary, IsWordChar)
            <==> (boundary && PlanHere(CollapseSeparators(s), IsWordChar))
                 || PlanFrom(CollapseSeparators(s[1..]), !IsAlnum(s[0]), IsWordChar)
  {
    var c := CollapseSeparators(s);
    assert c == [s[0]] + CollapseSeparators(s[1..]);
    assert c[1..] == CollapseSeparators(s[1..]);
    assert IsWordChar(s[0]) == IsAlnum(s[0]);
  }

  /** The whole-word test, read on the raw text, finds a `plan` that starts a suffix. */
  lemma {:induction false} PlanAfterPrefix(a: string, t: string, boundary: bool)
    requires PlanFrom(t, if |a| == 0 then boundary else !IsAlnum(a[|a| - 1]), IsAlnum)
    ensures PlanFrom(a + t, boundary, IsAlnum)
    decreases |a|
  {
    if |a| > 0 {
      PlanAfterPrefix(a[1..], t, !IsAlnum(a[0]));
      assert (a + t)[1..] == a[1..] + t;
      if |a| == 1 {
        assert a[1..] + t == t;
      } else {
        assert a[1..][|a| - 2] == a[|a| - 1];
      }
    } else {
      assert a + t == t;
    }
  }

  /** `plan` between the ends of the name or non-alphanumeric characters (`-`, `_`, a space) marks a planner. */
  lemma PlanWordDetected(a: string, b: string)
    requires a == "" || !IsAlnum(a[|a| - 1])
    requires b == "" || !IsAlnum(b[0])
    ensures IsPlannerAgent(Some(a + "plan" + b))
  {
    var la := ToLower(a);
    var t := "plan" + ToLower(b);
    LowerAround(a, b);
    assert PlanHere(t, IsAlnum) by {
      if |b| > 0 {
        assert t[4] == LowerChar(b[0]);
        LowerKeepsAlnum(b[0]);
      }
    }
    assert PlanFrom(t, true, IsAlnum);
    if |a| > 0 {
      LowerKeepsAlnum(a[|a| - 1]);
    }
    PlanAfterPrefix(la, t, true);
  }

  /** Lower-casing distributes over the pieces around a lower-case `plan`. */
  lemma LowerAround(a: string, b: string)
    ensures ToLower(a + "plan" + b) == ToLower(a) + ("plan" + ToLower(b))
  {
    var l := ToLower(a + "plan" + b);
    var r := ToLower(a) + ("plan" + ToLower(b));
    assert |l| == |r|;
    forall k | 0 <= k < |l|
      ensures l[k] == r[k]
    {
      if k < |a| {
      } else if k < |a| + 4 {
        assert (a + "plan" + b)[k] == "plan"[k - |a|];
      } else {
        assert (a + "plan" + b)[k] == b[k - |a| - 4];
      }
    }
  }

  /** Lower-casing keeps a character alphanumeric or not. */
  lemma LowerKeepsAlnum(c: char)
    ensures IsAlnum(LowerChar(c)) == IsAlnum(c)
  {
  }

  /** Detection ignores letter case. */
  lemma PlannerDetectionIgnoresCase(name: string)
    ensures IsPlannerAgent(Some(ToLower(name))) == IsPlannerAgent(Some(name))
  {
    ToLowerIdempotent(name);
  }

  datatype UltraworkSource = PlannerSource | GptSource | DefaultSource

  /** `getUltraworkSource(agentName, modelID)`: planner over GPT over the default. */
  function GetUltraworkSource(agentName: Option<string>, modelID: Option<string>,
                              isGptModel: string -> bool): (r: UltraworkSource)
    ensures r == PlannerSource <==> IsPlannerAgent(agentName)
    ensures r == GptSource <==> !IsPlannerAgent(agentName) && NonEmpty(modelID) && isGptModel(modelID.value)
  {
    if IsPlannerAgent(agentName) then PlannerSource
    else if NonEmpty(modelID) && isGptModel(modelID.value) then GptSource
    else DefaultSource
  }
}

=== FILE: strings.dfy ===
/**
 * The string operations the modelled code borrows from JavaScript:
 * `startsWith`, `includes`, `split` on one character, `join`, ASCII
 * lower-casing and decimal rendering/parsing of non-negative integers.
 */
module Strings {
  import opened Seqs

  /** `s.startsWith(p)` */
  predicate IsPrefix(p: string, s: string) {
    |p| <= |s| && s[..|p|] == p
  }

  /** `s.includes(sub)`: `sub` occurs at some position of `s`. */
  predicate Contains(s: string, sub: string)
    decreases |s|
  {
    IsPrefix(sub, s) || (|s| > 0 && Contains(s[1..], sub))
  }

  /** A non-empty prefix is the first character followed by a prefix of the rest. */
  lemma PrefixCons(p: string, s: string)
    requires |p| > 0 && |s| > 0
    ensures IsPrefix(p, s) <==> p[0] == s[0] && IsPrefix(p[1..], s[1..])
  {
    if p[0] == s[0] && IsPrefix(p[1..], s[1..]) {
      assert s[..|p|] == [s[0]] + s[1..][..|p| - 1];
      assert p == [p[0]] + p[1..];
    }
  }

  /** The head and tail of a text built from one character and a rest. */
  lemma ConsParts(x: char, r: string)
    ensures ([x] + r)[0] == x && ([x] + r)[1..] == r
  {
  }

  /** Dropping `n` characters after the first is dropping `n + 1`. */
  lemma DropAfterHead(s: string, n: nat)
    requires 1 <= n <= |s|
    ensures s[1..][n - 1..] == s[n..]
  {
  }

  /** The first character, then the rest followed by `x`, is the text followed by `x`. */
  lemma ConsAppend(w: string, x: string)
    requires |w| > 0
    ensures [w[0]] + (w[1..] + x) == w + x
  {
    assert w == [w[0]] + w[1..];
  }

  /** Occurrence at a concrete position is exactly what `Contains` asks for. */
  lemma {:induction false} ContainsAt(s: string, sub: string, i: nat)
    requires i + |sub| <= |s| && s[i..i + |sub|] == sub
    ensures Contains(s, sub)
    decreases i
  {
    if i > 0 {
      assert s[1..][i - 1..i - 1 + |sub|] == sub;
      ContainsAt(s[1..], sub, i - 1);
    }
  }

  /** Text free of `c` in front shifts the first `c` by its length. */
  lemma {:induction false} FirstIndexAppend(a: string, b: string, c: char)
    requires c !in a
    ensures FirstIndex(a + b, c) == |a| + FirstIndex(b, c)
    decreases |a|
  {
    if |a| > 0 {
      assert (a + b)[1..] == a[1..] + b;
      FirstIndexAppend(a[1..], b, c);
    } else {
      assert a + b == b;
    }
  }

  /** A witness position for an occurrence `Contains` reports. */
  lemma {:induction false} ContainsWitness(s: string, sub: string) returns (i: nat)
    requires Contains(s, sub)
    ensures i + |sub| <= |s| && s[i..i + |sub|] == sub
    decreases |s|
  {
    if IsPrefix(sub, s) {
      i := 0;
    } else {
      var j := ContainsWitness(s[1..], sub);
      i := j + 1;
      assert s[i..i + |sub|] == s[1..][j..j + |sub|];
    }
  }

  /** Containment is transitive: text holding `mid` holds everything `mid` holds. */
  lemma ContainsTrans(s: string, mid: string, sub: string)
    requires Contains(s, mid) && Contains(mid, sub)
    ensures Contains(s, sub)
  {
    var i := ContainsWitness(s, mid);
    var j := ContainsWitness(mid, sub);
    var window := s[i..i + |mid|];
    assert window == mid;
    forall k | 0 <= k < |sub|
      ensures s[i + j + k] == sub[k]
    {
      assert sub[k] == mid[j + k] == window[j + k] == s[i + j + k];
    }
    assert s[i + j..i + j + |sub|] == sub;
    ContainsAt(s, sub, i + j);
  }

  /** `s.split(c)` for a one-character separator: never empty, and `"".split(c) == [""]`. */
  function Split(s: string, c: char): (parts: seq<string>)
    ensures |parts| >= 1
    ensures forall k :: 0 <= k < |parts| ==> c !in parts[k]
    decreases |s|
  {
    var i := FirstIndex(s, c);
    if i == |s| then [s] else [s[..i]] + Split(s[i + 1..], c)
  }

  /** `parts.join(sep)` */
  function Join(parts: seq<string>, sep: string): string {
    if |parts| == 0 then ""
    else if |parts| == 1 then parts[0]
    else parts[0] + sep + Join(parts[1..], sep)
  }

  /** Splitting text free of the separator gives the text back whole. */
  lemma SplitWithout(s: string, c: char)
    requires c !in s
    ensures Split(s, c) == [s]
  {
    assert FirstIndex(s, c) == |s|;
  }

  /** The first piece of a split stops at the first separator. */
  lemma {:induction false} SplitAppend(a: string, c: char, b: string)
    requires c !in a
    ensures Split(a + [c] + b, c) == [a] + Split(b, c)
  {
    var s := a + [c] + b;
    assert s[|a|] == c;
    assert FirstIndex(s, c) == |a|;
    assert s[..|a|] == a;
    assert s[|a| + 1..] == b;
  }

  /** Joining the pieces of a split with the same character restores the text. */
  lemma {:induction false} JoinSplit(s: string, c: char)
    ensures Join(Split(s, c), [c]) == s
    decreases |s|
  {
    var i := FirstIndex(s, c);
    if i < |s| {
      JoinSplit(s[i + 1..], c);
      JoinSplitRejoin(s, c);
    } else {
      SplitWithout(s, c);
    }
  }

  /** Text with a `c` rejoins once the text after the first `c` does. */
  lemma {:induction false} JoinSplitRejoin(s: string, c: char)
    requires FirstIndex(s, c) < |s|
    requires Join(Split(s[FirstIndex(s, c) + 1..], c), [c]) == s[FirstIndex(s, c) + 1..]
    ensures Join(Split(s, c), [c]) == s
  {
    var i := FirstIndex(s, c);
    var pre, tail := s[..i], s[i + 1..];
    SplitFirst(s, c);
    JoinCons(pre, Split(tail, c), [c]);
    Around(s, i);
  }

  /** Text is what comes before position `i`, the character there, and what follows. */
  lemma Around(s: string, i: nat)
    requires i < |s|
    ensures s[..i] + [s[i]] + s[i + 1..] == s
  {
  }

  /** Every `c` replaced by `d`, every other character kept. */
  function ReplaceChar(s: string, c: char, d: char): (r: string)
    ensures |r| == |s|
    ensures forall k :: 0 <= k < |s| ==> r[k] == (if s[k] == c then d else s[k])
  {
    seq(|s|, k requires 0 <= k < |s| => if s[k] == c then d else s[k])
  }

  /** Joining a non-empty tail behind one more piece puts one separator between them. */
  lemma JoinCons(a: string, ps: seq<string>, sep: string)
    requires |ps| >= 1
    ensures Join([a] + ps, sep) == a + sep + Join(ps, sep)
  {
    assert ([a] + ps)[1..] == ps;
  }

  /** Replacing in text that has a `c` only at position `i`'s first occurrence splits at `i`. */
  lemma ReplaceAtFirst(s: string, c: char, d: char, i: nat)
    requires i < |s| && s[i] == c
    requires forall j :: 0 <= j < i ==> s[j] != c
    ensures ReplaceChar(s, c, d) == s[..i] + [d] + ReplaceChar(s[i + 1..], c, d)
  {
    var r := ReplaceChar(s, c, d);
    var t := s[..i] + [d] + ReplaceChar(s[i + 1..], c, d);
    assert |r| == |t|;
    forall k | 0 <= k < |r|
      ensures r[k] == t[k]
    {
      if k > i {
        assert t[k] == ReplaceChar(s[i + 1..], c, d)[k - i - 1];
      }
    }
  }

  /** `s.split(c).join(d)` is the character-by-character replacement of `c` by `d`. */
  lemma {:induction false} JoinSplitIsReplace(s: string, c: char, d: char)
    ensures Join(Split(s, c), [d]) == ReplaceChar(s, c, d)
    decreases |s|
  {
    var i := FirstIndex(s, c);
    if i == |s| {
      ReplaceAbsent(s, c, d);
      SplitWithout(s, c);
    } else {
      JoinSplitIsReplace(s[i + 1..], c, d);
      JoinSplitStep(s, c, d);
    }
  }

  /** The replacement holds for text with a `c` once it holds for the text after the first `c`. */
  lemma {:induction false} JoinSplitStep(s: string, c: char, d: char)
    requires FirstIndex(s, c) < |s|
    requires Join(Split(s[FirstIndex(s, c) + 1..], c), [d]) == ReplaceChar(s[FirstIndex(s, c) + 1..], c, d)
    ensures Join(Split(s, c), [d]) == ReplaceChar(s, c, d)
  {
    var i := FirstIndex(s, c);
    var tail := s[i + 1..];
    SplitFirst(s, c);
    JoinCons(s[..i], Split(tail, c), [d]);
    ReplaceAtFirst(s, c, d, i);
  }

  /** Text with a `c` splits into the text before the first one and the split of the rest. */
  lemma SplitFirst(s: string, c: char)
    requires FirstIndex(s, c) < |s|
    ensures Split(s, c) == [s[..FirstIndex(s, c)]] + Split(s[FirstIndex(s, c) + 1..], c)
  {
  }

  /** Replacing a character the text does not hold changes nothing. */
  lemma ReplaceAbsent(s: string, c: char, d: char)
    requires forall j :: 0 <= j < |s| ==> s[j] != c
    ensures ReplaceChar(s, c, d) == s
  {
  }

  /** ASCII lower-casing of one character. */
  function LowerChar(c: char): char {
    if 'A' <= c <= 'Z' then (c as int - 'A' as int + 'a' as int) as char else c
  }

  /** `s.toLowerCase()` on the ASCII range. */
  function ToLower(s: string): (r: string)
    ensures |r| == |s|
    ensures forall k :: 0 <= k < |s| ==> r[k] == LowerChar(s[k])
  {
    seq(|s|, k requires 0 <= k < |s| => LowerChar(s[k]))
  }

  /** Lower-casing twice is lower-casing once. */
  lemma ToLowerIdempotent(s: string)
    ensures ToLower(ToLower(s)) == ToLower(s)
  {
    var once := ToLower(s);
    var twice := ToLower(once);
    assert forall k :: 0 <= k < |s| ==> twice[k] == once[k];
  }

  predicate IsDigit(c: char) {
    '0' <= c <= '9'
  }

  /** The text matches `\d*`. */
  predicate AllDigits(s: string) {
    forall k :: 0 <= k < |s| ==> IsDigit(s[k])
  }

  /** The value of a digit string read in base 10 (`""` reads as 0, as `Number("")` does). */
  function DigitsValue(s: string): nat
    requires AllDigits(s)
  {
    if |s| == 0 then 0
    else DigitsValue(s[..|s| - 1]) * 10 + (s[|s| - 1] as int - '0' as int)
  }

  /** `String(n)` for a non-negative integer. */
  function Decimal(n: nat): (r: string)
    ensures r != "" && AllDigits(r)
  {
    var last := [('0' as int + n % 10) as char];
    if n < 10 then last else Decimal(n / 10) + last
  }

  /** Rendering then reading a number gives the number back. */
  lemma {:induction false} DecimalRoundTrip(n: nat)
    ensures DigitsValue(Decimal(n)) == n
  {
    var s := Decimal(n);
    if n >= 10 {
      DecimalRoundTrip(n / 10);
      assert s[..|s| - 1] == Decimal(n / 10);
    }
  }
}

=== FILE: tasks.dfy ===
/**
 * Data model of the background-agent manager: the task record, the maps the
 * lifecycle handlers share (task registry, idle-deferral timers, completion
 * timers, sub-agent session index, per-key launch queues) and the calls the
 * handlers make into collaborators, recorded as an effect trace.
 */
module Tasks {
  import opened Base
  import opened Js
  import opened Seqs

  type TaskId = string
  type SessionId = string

  datatype Status = Pending | Running | Completed | Error | Cancelled

  datatype ModelRef = ModelRef(providerID: string, modelID: string)

  /** Advisory tool-call progress; `lastUpdate` is a clock reading in milliseconds. */
  datatype Progress = Progress(toolCalls: int, lastTool: Option<string>, lastUpdate: int)

  datatype Task = Task(
    id: TaskId,
    sessionID: Option<SessionId>,
    parentSessionID: SessionId,
    description: string,
    agent: string,
    model: Option<ModelRef>,
    status: Status,
    queuedAt: Option<int>,
    startedAt: Option<int>,
    completedAt: Option<int>,
    progress: Option<Progress>,
    concurrencyKey: Option<string>,
    error: Option<string>)

  /** `if (task.concurrencyKey)`: a key is held when it is present and non-empty. */
  predicate HoldsKey(t: Task) {
    NonEmpty(t.concurrencyKey)
  }

  /** The launch-queue key: `provider/model` when a model is resolved, else the agent name. */
  function QueueKey(t: Task): (k: string)
    ensures t.model.Some? ==> k == t.model.value.providerID + "/" + t.model.value.modelID
    ensures t.model.None? ==> k == t.agent
  {
    match t.model
    case Some(m) => m.providerID + "/" + m.modelID
    case None => t.agent
  }

  /** A pending idle re-evaluation: the session to re-announce and the delay it was armed with. */
  datatype Deferral = Deferral(sessionID: SessionId, delayMs: int)

  datatype Scheduler = Scheduler(
    tasks: map<TaskId, Task>,
    idleDeferralTimers: map<TaskId, Deferral>,
    completionTimers: set<TaskId>,
    subagentSessions: set<SessionId>,
    queuesByKey: map<string, seq<TaskId>>)

  /** Calls into collaborators the handlers make, in the order they make them. */
  datatype Effect =
    | ReleaseKey(key: string)
    | CleanupPendingByParent(taskId: TaskId)
    | ClearNotifications(taskId: TaskId)
    | CancelTask(taskId: TaskId, source: string, reason: string, skipNotification: bool)
    | ValidateOutput(sessionID: SessionId)
    | EmitIdle(sessionID: SessionId)
    | TryComplete(taskId: TaskId, source: string)

  /** The result of a handler: the new maps and the calls made along the way. */
  datatype Step = Step(state: Scheduler, effects: seq<Effect>)

  /** A step that changes nothing and calls nothing. */
  function Unchanged(s: Scheduler): (r: Step)
    ensures r.state == s && r.effects == []
  {
    Step(s, [])
  }

  /** Keys handed to the concurrency releaser, in order. */
  function Releases(es: seq<Effect>): seq<string> {
    if |es| == 0 then []
    else (if es[0].ReleaseKey? then [es[0].key] else []) + Releases(es[1..])
  }

  /** Task ids passed to `cancelTask`, in order. */
  function Cancels(es: seq<Effect>): seq<TaskId> {
    if |es| == 0 then []
    else (if es[0].CancelTask? then [es[0].taskId] else []) + Cancels(es[1..])
  }

  /** Task ids passed to `clearNotificationsForTask`, in order. */
  function Cleared(es: seq<Effect>): seq<TaskId> {
    if |es| == 0 then []
    else (if es[0].ClearNotifications? then [es[0].taskId] else []) + Cleared(es[1..])
  }

  /** The three projections distribute over concatenation of traces. */
  lemma ProjectionsAppend(a: seq<Effect>, b: seq<Effect>)
    ensures Releases(a + b) == Releases(a) + Releases(b)
    ensures Cancels(a + b) == Cancels(a) + Cancels(b)
    ensures Cleared(a + b) == Cleared(a) + Cleared(b)
  {
    ReleasesAppend(a, b);
    CancelsAppend(a, b);
    ClearedAppend(a, b);
  }

  /** Dropping the first call of a concatenation drops it from the front part. */
  lemma TailOfAppend(a: seq<Effect>, b: seq<Effect>)
    requires |a| > 0
    ensures (a + b)[1..] == a[1..] + b && (a + b)[0] == a[0]
  {
  }

  /** `Releases` distributes over concatenation. */
  lemma {:induction false} ReleasesAppend(a: seq<Effect>, b: seq<Effect>)
    ensures Releases(a + b) == Releases(a) + Releases(b)
    decreases |a|
  {
    if |a| == 0 {
      assert a + b == b;
    } else {
      TailOfAppend(a, b);
      ReleasesAppend(a[1..], b);
    }
  }

  /** `Cancels` distributes over concatenation. */
  lemma {:induction false} CancelsAppend(a: seq<Effect>, b: seq<Effect>)
    ensures Cancels(a + b) == Cancels(a) + Cancels(b)
    decreases |a|
  {
    if |a| == 0 {
      assert a + b == b;
    } else {
      TailOfAppend(a, b);
      CancelsAppend(a[1..], b);
    }
  }

  /** `Cleared` distributes over concatenation. */
  lemma {:induction false} ClearedAppend(a: seq<Effect>, b: seq<Effect>)
    ensures Cleared(a + b) == Cleared(a) + Cleared(b)
    decreases |a|
  {
    if |a| == 0 {
      assert a + b == b;
    } else {
      TailOfAppend(a, b);
      ClearedAppend(a[1..], b);
    }
  }

  /** The projections of a one-call trace. */
  lemma ProjectionsSingle(e: Effect)
    ensures Releases([e]) == if e.ReleaseKey? then [e.key] else []
    ensures Cancels([e]) == if e.CancelTask? then [e.taskId] else []
    ensures Cleared([e]) == if e.ClearNotifications? then [e.taskId] else []
  {
    assert [e][1..] == [];
  }

  /** Every registry entry is filed under its own id. */
  ghost predicate RegistryKeyed(s: Scheduler) {
    forall id :: id in s.tasks ==> s.tasks[id].id == id
  }

  /** No timer entry outlives its task's registration. */
  ghost predicate TimersRegistered(s: Scheduler) {
    && s.idleDeferralTimers.Keys <= s.tasks.Keys
    && s.completionTimers <= s.tasks.Keys
  }

  /**
   * Launch queues are never empty, hold each task at most once, and hold only
   * registered pending tasks filed under their own queue key.
   */
  ghost predicate QueuesWellFormed(s: Scheduler) {
    forall k :: k in s.queuesByKey ==>
      && |s.queuesByKey[k]| > 0
      && NoDuplicates(s.queuesByKey[k])
      && forall i :: 0 <= i < |s.queuesByKey[k]| ==>
           && s.queuesByKey[k][i] in s.tasks
           && s.tasks[s.queuesByKey[k][i]].status == Pending
           && QueueKey(s.tasks[s.queuesByKey[k][i]]) == k
  }

  ghost predicate Valid(s: Scheduler) {
    RegistryKeyed(s) && TimersRegistered(s) && QueuesWellFormed(s)
  }

  /** `findBySession` resolved in the registry: an id it returns that is not registered is no match. */
  function Lookup(s: Scheduler, find: SessionId -> Option<TaskId>, sid: SessionId): (r: Option<Task>)
    ensures r.Some? ==> find(sid).Some? && find(sid).value in s.tasks && r.value == s.tasks[find(sid).value]
    ensures r.None? ==> find(sid).None? || find(sid).value !in s.tasks
  {
    match find(sid)
    case Some(id) => if id in s.tasks then Some(s.tasks[id]) else None
    case None => None
  }
}

=== FILE: tokens.dfy ===
/**
 * What the two context-usage hooks (preemptive-compaction.ts and
 * context-window-monitor.ts) share: reading token usage off a finished
 * assistant message, summing the input side, and the context limits.
 * Token counts are integers, and a usage ratio `total / limit >= p / 100`
 * is stated as `100 * total >= p * limit`.
 */
module TokenUsage {
  import opened Base
  import opened Js

  const DefaultActualLimit: int := 200000
  const OneMillionLimit: int := 1000000

  /**
   * The limit for a provider: the 1M window for "anthropic" when either
   * 1M-context environment flag is "true", otherwise 200000.
   */
  function ActualLimit(providerID: string, oneMillionContext: bool): (limit: int)
    ensures limit == (if providerID == "anthropic" && oneMillionContext then OneMillionLimit else DefaultActualLimit)
    ensures limit > 0
  {
    var anthropicLimit := if oneMillionContext then OneMillionLimit else DefaultActualLimit;
    if providerID == "anthropic" then anthropicLimit else DefaultActualLimit
  }

  /** `x ?? 0` on a number-typed field. */
  function NumOrZero(v: JsValue): (n: int)
    ensures v.JsNum? ==> n == v.n
    ensures !v.JsNum? ==> n == 0
  {
    if v.JsNum? then v.n else 0
  }

  /** `(tokens?.input ?? 0) + (tokens?.cache?.read ?? 0)`: the input side of the last turn. */
  function TotalInput(tokens: JsValue): int {
    NumOrZero(Get(tokens, "input")) + NumOrZero(Get(Get(tokens, "cache"), "read"))
  }

  /** `total / limit >= percent / 100` without floating point. */
  predicate AtLeastPercent(total: int, limit: int, percent: int) {
    100 * total >= percent * limit
  }

  /** What a qualifying `message.updated` event caches. */
  datatype Usage = Usage(sessionID: string, providerID: string, modelID: Option<string>, tokens: JsValue)

  /**
   * `props?.info` of a `message.updated` event when it is a finished assistant
   * message carrying a session id, a provider id and token usage; `None` otherwise.
   */
  function FinishedAssistantUsage(props: JsValue): (r: Option<Usage>)
    ensures r.Some? <==>
              var info := Get(props, "info");
              && Truthy(info) && Get(info, "role") == JsStr("assistant") && Truthy(Get(info, "finish"))
              && NonEmpty(GetString(info, "sessionID")) && NonEmpty(GetString(info, "providerID"))
              && Truthy(Get(info, "tokens"))
    ensures r.Some? ==>
              var info := Get(props, "info");
              && r.value.sessionID == GetString(info, "sessionID").value && r.value.sessionID != ""
              && r.value.providerID == GetString(info, "providerID").value && r.value.providerID != ""
              && r.value.modelID == GetString(info, "modelID")
              && r.value.tokens == Get(info, "tokens")
  {
    var info := Get(props, "info");
    if !Truthy(info) || Get(info, "role") != JsStr("assistant") || !Truthy(Get(info, "finish")) then None
    else
      var sid := GetString(info, "sessionID");
      var provider := GetString(info, "providerID");
      if !NonEmpty(sid) || !NonEmpty(provider) || !Truthy(Get(info, "tokens")) then None
      else Some(Usage(sid.value, provider.value, GetString(info, "modelID"), Get(info, "tokens")))
  }

  /** `props?.info?.id` of a `session.deleted` event, when it is a non-empty string. */
  function DeletedSessionId(props: JsValue): (r: Option<string>)
    ensures r.Some? <==> NonEmpty(GetString(Get(props, "info"), "id"))
    ensures r.Some? ==> r.value == GetString(Get(props, "info"), "id").value
  {
    var id := GetString(Get(props, "info"), "id");
    if NonEmpty(id) then id else None
  }
}

=== FILE: transcript.dfy ===
/**
 * The per-session transcript cache of the Claude Code hook bridge
 * (hooks/claude-code-hooks/transcript.ts). A transcript entry is kept as the
 * tool-use record it serialises (the JSON text is a rendering of it); the
 * clock, the `session.messages` response, the temp-file names and the
 * outcome of each file write are parameters.
 */
module TranscriptCache {
  import opened Base
  import opened Js

  /** One `tool_use` line of the transcript: the transformed tool name and its input. */
  datatype Entry = ToolUse(name: string, input: JsValue)

  /** `TRANSCRIPT_CACHE_TTL_MS`: five minutes. */
  const TranscriptCacheTtlMs: int := 5 * 60 * 1000

  datatype CacheEntry = CacheEntry(baseEntries: seq<Entry>, tempPath: Option<string>, createdAt: int)

  type Cache = map<string, CacheEntry>

  /** `isCacheValid(entry)`: younger than the time-to-live, strictly. */
  predicate IsCacheValid(entry: CacheEntry, now: int) {
    now - entry.createdAt < TranscriptCacheTtlMs
  }

  /** A part that is a completed tool call with a truthy input. */
  predicate IsCompletedTool(part: JsValue) {
    && Get(part, "type") == JsStr("tool")
    && Get(Get(part, "state"), "status") == JsStr("completed")
    && Truthy(Get(Get(part, "state"), "input"))
  }

  /** The entry a completed tool part becomes; `transform` is `transformToolName`. */
  function EntryOf(part: JsValue, transform: JsValue -> string): Entry {
    ToolUse(transform(Get(part, "tool")), Get(Get(part, "state"), "input"))
  }

  /** `buildCurrentEntry(toolName, toolInput)` */
  function CurrentEntry(toolName: string, toolInput: JsValue, transform: JsValue -> string): Entry {
    ToolUse(transform(JsStr(toolName)), toolInput)
  }

  /**
   * The inner loop over an assistant message's parts: completed tool calls
   * become entries in order; `part.type` on a `null` or `undefined` part throws.
   */
  function PartEntries(parts: seq<JsValue>, transform: JsValue -> string): (r: Result<seq<Entry>>)
    ensures r.Thrown? <==> exists k :: 0 <= k < |parts| && Nullish(parts[k])
    ensures r.Ok? ==> |r.value| <= |parts|
    decreases |parts|
  {
    if |parts| == 0 then Ok([])
    else if Nullish(parts[0]) then Thrown
    else
      var rest := PartEntries(parts[1..], transform);
      assert forall k :: 1 <= k < |parts| ==> parts[k] == parts[1..][k - 1];
      if rest.Thrown? then Thrown
      else if IsCompletedTool(parts[0]) then Ok([EntryOf(parts[0], transform)] + rest.value)
      else rest
  }

  /**
   * One message of the outer loop: only assistant messages count; `msg.info`
   * throws on a `null` or `undefined` message; `msg.parts || []` iterates an
   * array, a string yields characters that are never tool parts, and any
   * other truthy value is not iterable and throws.
   */
  function MessageEntries(msg: JsValue, transform: JsValue -> string): (r: Result<seq<Entry>>)
    ensures Nullish(msg) ==> r.Thrown?
    ensures !Nullish(msg) && Get(Get(msg, "info"), "role") != JsStr("assistant") ==> r == Ok([])
    ensures r.Ok? && r.value != [] ==> Get(msg, "parts").JsArr?
    ensures (&& !Nullish(msg) && Get(Get(msg, "info"), "role") == JsStr("assistant")
             && Get(msg, "parts").JsArr?) ==> r == PartEntries(Get(msg, "parts").items, transform)
  {
    if Nullish(msg) then Thrown
    else if Get(Get(msg, "info"), "role") != JsStr("assistant") then Ok([])
    else
      var parts := Get(msg, "parts");
      if !Truthy(parts) then Ok([])
      else
        match parts
        case JsArr(items) => PartEntries(items, transform)
        case JsStr(_) => Ok([])
        case _ => Thrown
  }

  /** Entries of one piece followed by the entries of the next; a throw in either throws. */
  function Then(first: Result<seq<Entry>>, rest: Result<seq<Entry>>): Result<seq<Entry>> {
    if first.Thrown? || rest.Thrown? then Thrown else Ok(first.value + rest.value)
  }

  /** `parseMessagesToEntries(messages)`: the messages' entries in message order. */
  function ParseMessagesToEntries(messages: seq<JsValue>, transform: JsValue -> string): (r: Result<seq<Entry>>)
    ensures r.Thrown? <==> exists i :: 0 <= i < |messages| && MessageEntries(messages[i], transform).Thrown?
    ensures (forall i :: 0 <= i < |messages| ==>
               !Nullish(messages[i]) && Get(Get(messages[i], "info"), "role") != JsStr("assistant"))
            ==> r == Ok([])
    decreases |messages|
  {
    if |messages| == 0 then Ok([])
    else
      var first := MessageEntries(messages[0], transform);
      var rest := ParseMessagesToEntries(messages[1..], transform);
      ParseCons(messages, transform, rest);
      Then(first, rest)
  }

  /** The facts about parsing a non-empty list follow from those about its tail. */
  lemma ParseCons(messages: seq<JsValue>, transform: JsValue -> string, rest: Result<seq<Entry>>)
    requires |messages| > 0
    requires rest.Thrown? <==> exists i :: 0 <= i < |messages[1..]| && MessageEntries(messages[1..][i], transform).Thrown?
    requires (forall i :: 0 <= i < |messages[1..]| ==>
                !Nullish(messages[1..][i]) && Get(Get(messages[1..][i], "info"), "role") != JsStr("assistant"))
             ==> rest == Ok([])
    ensures var r := Then(MessageEntries(messages[0], transform), rest);
            && (r.Thrown? <==> exists i :: 0 <= i < |messages| && MessageEntries(messages[i], transform).Thrown?)
            && ((forall i :: 0 <= i < |messages| ==>
                   !Nullish(messages[i]) && Get(Get(messages[i], "info"), "role") != JsStr("assistant"))
                ==> r == Ok([]))
  {
    var first := MessageEntries(messages[0], transform);
    assert forall i :: 1 <= i < |messages| ==> messages[i] == messages[1..][i - 1];
    if forall i :: 0 <= i < |messages| ==>
         !Nullish(messages[i]) && Get(Get(messages[i], "info"), "role") != JsStr("assistant")
    {
      assert first == Ok([]) && rest == Ok([]);
      assert first.value + rest.value == [];
    }
  }

  /** Parsing a concatenation concatenates the parses, and a throw anywhere throws. */
  lemma {:induction false} ParseAppend(a: seq<JsValue>, b: seq<JsValue>, transform: JsValue -> string)
    ensures ParseMessagesToEntries(a + b, transform)
            == Then(ParseMessagesToEntries(a, transform), ParseMessagesToEntries(b, transform))
    decreases |a|
  {
    if |a| == 0 {
      assert a + b == b;
      var pb := ParseMessagesToEntries(b, transform);
      assert pb.Ok? ==> [] + pb.value == pb.value;
    } else {
      var ab := a + b;
      assert ab[0] == a[0];
      assert ab[1..] == a[1..] + b;
      ParseAppend(a[1..], b, transform);
      var first := MessageEntries(a[0], transform);
      var pa := ParseMessagesToEntries(a[1..], transform);
      var pb := ParseMessagesToEntries(b, transform);
      assert ParseMessagesToEntries(ab, transform) == Then(first, Then(pa, pb));
      assert ParseMessagesToEntries(a, transform) == Then(first, pa);
      ThenAssociative(first, pa, pb);
    }
  }

  /** Chaining three pieces does not depend on grouping. */
  lemma ThenAssociative(x: Result<seq<Entry>>, y: Result<seq<Entry>>, z: Result<seq<Entry>>)
    ensures Then(x, Then(y, z)) == Then(Then(x, y), z)
  {
    if x.Ok? && y.Ok? && z.Ok? {
      assert x.value + (y.value + z.value) == (x.value + y.value) + z.value;
    }
  }

  /** Every entry comes from a completed tool part, and every completed tool part gives an entry. */
  lemma {:induction false} PartEntriesMembers(parts: seq<JsValue>, transform: JsValue -> string)
    requires PartEntries(parts, transform).Ok?
    ensures forall e :: e in PartEntries(parts, transform).value ==>
              exists k :: 0 <= k < |parts| && IsCompletedTool(parts[k]) && e == EntryOf(parts[k], transform)
    ensures forall k :: 0 <= k < |parts| && IsCompletedTool(parts[k]) ==>
              EntryOf(parts[k], transform) in PartEntries(parts, transform).value
    decreases |parts|
  {
    if |parts| > 0 {
      var rest := parts[1..];
      PartEntriesMembers(rest, transform);
      assert forall k :: 1 <= k < |parts| ==> parts[k] == rest[k - 1];
      var r := PartEntries(parts, transform).value;
      forall e | e in r
        ensures exists k :: 0 <= k < |parts| && IsCompletedTool(parts[k]) && e == EntryOf(parts[k], transform)
      {
        if IsCompletedTool(parts[0]) && e == EntryOf(parts[0], transform) {
        } else {
          assert e in PartEntries(rest, transform).value;
          var j :| 0 <= j < |rest| && IsCompletedTool(rest[j]) && e == EntryOf(rest[j], transform);
          assert parts[j + 1] == rest[j];
        }
      }
    }
  }

  /** What one part contributes: a throw if it is nullish, its entry if it is a completed tool call, else nothing. */
  function PartEntry(part: JsValue, transform: JsValue -> string): Result<seq<Entry>> {
    if Nullish(part) then Thrown
    else if IsCompletedTool(part) then Ok([EntryOf(part, transform)])
    else Ok([])
  }

  /** The parts are taken one at a time, front first. */
  lemma PartEntriesCons(parts: seq<JsValue>, transform: JsValue -> string)
    requires |parts| > 0
    ensures PartEntries(parts, transform) == Then(PartEntry(parts[0], transform), PartEntries(parts[1..], transform))
  {
    var rest := PartEntries(parts[1..], transform);
    if !Nullish(parts[0]) && !IsCompletedTool(parts[0]) && rest.Ok? {
      assert [] + rest.value == rest.value;
    }
  }

  /** One part on its own contributes exactly `PartEntry`. */
  lemma PartEntriesSingle(part: JsValue, transform: JsValue -> string)
    ensures PartEntries([part], transform) == PartEntry(part, transform)
  {
    PartEntriesCons([part], transform);
    assert [part][1..] == [];
    var e := PartEntry(part, transform);
    assert e.Ok? ==> e.value + [] == e.value;
  }

  /**
   * The entries of a concatenation of parts are those of the first run
   * followed by those of the second, and a throw in either throws. With
   * `PartEntriesSingle` this fixes the order and the multiplicity of the
   * entries: one per completed tool part, in part order.
   */
  lemma {:induction false} PartEntriesAppend(a: seq<JsValue>, b: seq<JsValue>, transform: JsValue -> string)
    ensures PartEntries(a + b, transform) == Then(PartEntries(a, transform), PartEntries(b, transform))
    decreases |a|
  {
    if |a| == 0 {
      assert a + b == b;
      var pb := PartEntries(b, transform);
      assert pb.Ok? ==> [] + pb.value == pb.value;
    } else {
      PartEntriesAppend(a[1..], b, transform);
      PartEntriesAppendStep(a, b, transform);
    }
  }

  /** The inductive step of `PartEntriesAppend`, given the statement for the tail of `a`. */
  lemma {:induction false} PartEntriesAppendStep(a: seq<JsValue>, b: seq<JsValue>, transform: JsValue -> string)
    requires |a| > 0
    requires PartEntries(a[1..] + b, transform) == Then(PartEntries(a[1..], transform), PartEntries(b, transform))
    ensures PartEntries(a + b, transform) == Then(PartEntries(a, transform), PartEntries(b, transform))
  {
    var ab := a + b;
    assert ab[0] == a[0];
    assert ab[1..] == a[1..] + b;
    var x, y, z := PartEntry(a[0], transform), PartEntries(a[1..], transform), PartEntries(b, transform);
    PartEntriesCons(ab, transform);
    assert PartEntries(ab, transform) == Then(x, Then(y, z));
    PartEntriesCons(a, transform);
    ThenAssociative(x, y, z);
  }

  /** A single message parses to that message's entries. */
  lemma ParseSingle(msg: JsValue, transform: JsValue -> string)
    ensures ParseMessagesToEntries([msg], transform) == MessageEntries(msg, transform)
  {
    assert [msg][1..] == [];
    var m := MessageEntries(msg, transform);
    assert m.Ok? ==> m.value + [] == m.value;
  }

  /** `response["200"]` as the code evaluates it: on an array `"200"` is an element index. */
  function StatusKeyAsWritten(response: JsValue): JsValue {
    match response
    case JsArr(items) => if |items| > 200 then items[200] else JsUndefined
    case _ => Get(response, "200")
  }

  /** `response["200"] ?? response.data ?? (Array.isArray(response) ? response : [])` as written. */
  function ResponseMessagesAsWritten(response: JsValue): (r: JsValue)
    requires !Nullish(response)
  {
    Coalesce(StatusKeyAsWritten(response),
             Coalesce(Get(response, "data"), if response.JsArr? then response else JsArr([])))
  }

  /**
   * An array response of more than 200 messages whose 201st is an object:
   * as written the code takes that one message for the message list, which
   * is not an array, so the history is dropped; read as intended the same
   * response yields the entries of its first message and more.
   */
  lemma LongArrayResponseDropsHistory(items: seq<JsValue>, transform: JsValue -> string)
    requires |items| > 200 && items[200].JsObj?
    requires ParseMessagesToEntries(items, transform).Ok?
    requires MessageEntries(items[0], transform).Ok? && MessageEntries(items[0], transform).value != []
    ensures !ResponseMessagesAsWritten(JsArr(items)).JsArr?
    ensures BaseEntries(Ok(JsArr(items)), transform).Ok?
    ensures BaseEntries(Ok(JsArr(items)), transform).value != []
  {
    FirstEntriesKept(items, transform);
  }

  /** A parse that succeeds begins with the entries of the first message. */
  lemma FirstEntriesKept(items: seq<JsValue>, transform: JsValue -> string)
    requires |items| > 0 && ParseMessagesToEntries(items, transform).Ok?
    requires MessageEntries(items[0], transform).Ok?
    ensures MessageEntries(items[0], transform).value <= ParseMessagesToEntries(items, transform).value
  {
    var first := MessageEntries(items[0], transform);
    var rest := ParseMessagesToEntries(items[1..], transform);
    assert ParseMessagesToEntries(items, transform) == Then(first, rest);
  }

  /** The two readings differ only on an array response of more than 200 messages. */
  lemma ReadingsAgreeOffLongArrays(response: JsValue)
    requires !Nullish(response)
    requires response.JsArr? ==> |response.items| <= 200
    ensures ResponseMessagesAsWritten(response) == ResponseMessages(response)
  {
  }

  /**
   * The messages of the response as evidently intended: a `"200"` member,
   * else a `data` member, else the response itself when it is an array.
   */
  function ResponseMessages(response: JsValue): (r: JsValue)
    requires !Nullish(response)
    ensures response.JsArr? ==> r == response
    ensures response.JsObj? && "200" in response.fields && !Nullish(response.fields["200"]) ==> r == response.fields["200"]
    ensures !response.JsArr? && Nullish(Get(response, "200")) && Nullish(Get(response, "data")) ==> r == JsArr([])
  {
    Coalesce(Get(response, "200"),
             Coalesce(Get(response, "data"), if response.JsArr? then response else JsArr([])))
  }

  /** The fetched base entries; reading a member of a `null` or `undefined` response throws. */
  function BaseEntries(response: Result<JsValue>, transform: JsValue -> string): (r: Result<seq<Entry>>)
    ensures response.Thrown? || Nullish(response.value) ==> r.Thrown?
    ensures response.Ok? && response.value.JsArr? ==> r == ParseMessagesToEntries(response.value.items, transform)
    ensures (&& response.Ok? && !Nullish(response.value) && !ResponseMessages(response.value).JsArr?) ==> r == Ok([])
  {
    match response
    case Thrown => Thrown
    case Ok(v) =>
      if Nullish(v) then Thrown
      else
        var messages := ResponseMessages(v);
        if messages.JsArr? then ParseMessagesToEntries(messages.items, transform) else Ok([])
  }

  /** The cache after `clearTranscriptCache` and the temp files it unlinks. */
  datatype Cleared = Cleared(cache: Cache, unlinked: set<string>)

  /** A cached entry owns a temp file worth unlinking. */
  predicate HasTempFile(cache: Cache, id: string) {
    id in cache && NonEmpty(cache[id].tempPath)
  }

  /** `clearTranscriptCache(sessionId?)`: one session when an id is given, every session otherwise. */
  function ClearTranscriptCache(cache: Cache, sessionId: Option<string>): (r: Cleared)
    ensures NonEmpty(sessionId) ==> sessionId.value !in r.cache
    ensures NonEmpty(sessionId) ==> forall id :: id != sessionId.value ==>
              (id in r.cache <==> id in cache) && (id in cache ==> r.cache[id] == cache[id])
    ensures NonEmpty(sessionId) ==>
              r.unlinked == if HasTempFile(cache, sessionId.value) then {cache[sessionId.value].tempPath.value} else {}
    ensures !NonEmpty(sessionId) ==> r.cache == map[]
    ensures !NonEmpty(sessionId) ==> forall p :: p in r.unlinked <==>
              exists id :: HasTempFile(cache, id) && p == cache[id].tempPath.value
  {
    if NonEmpty(sessionId) then
      var id := sessionId.value;
      Cleared(cache - {id}, if HasTempFile(cache, id) then {cache[id].tempPath.value} else {})
    else
      Cleared(map[], set id | id in cache && HasTempFile(cache, id) :: cache[id].tempPath.value)
  }

  /** What one `buildTranscriptFromSession` call leaves behind. */
  datatype Build = Build(
    cache: Cache,
    fetched: bool,                // `session.messages` was called
    unlinked: Option<string>,     // the previous temp file removed on a refetch
    written: Option<seq<Entry>>,  // the entries of the transcript file returned
    path: Option<string>)         // the returned path, `null` as `None`

  /** The session's entry is missing or expired, so the call fetches. */
  predicate NeedsFetch(cache: Cache, sessionId: string, now: int) {
    !(sessionId in cache && IsCacheValid(cache[sessionId], now))
  }

  /**
   * `buildTranscriptFromSession(client, sessionId, directory, toolName, toolInput)`.
   * `now` is `Date.now()`; `response` is the awaited `session.messages` call;
   * `tempPath` and `fallbackPath` are the two random file names; `writeOk` and
   * `fallbackWriteOk` say whether each `writeFileSync` succeeds.
   */
  function BuildTranscriptFromSession(cache: Cache, sessionId: string, now: int, response: Result<JsValue>,
                                      toolName: string, toolInput: JsValue, transform: JsValue -> string,
                                      tempPath: string, fallbackPath: string,
                                      writeOk: bool, fallbackWriteOk: bool): (r: Build)
    ensures r.fetched <==> NeedsFetch(cache, sessionId, now)
    // no other session's entry is touched
    ensures forall id :: id != sessionId ==>
              (id in r.cache <==> id in cache) && (id in cache ==> r.cache[id] == cache[id])
    ensures r.path.Some? <==> r.written.Some?
    ensures r.written.Some? ==> |r.written.value| >= 1
                                && r.written.value[|r.written.value| - 1] == CurrentEntry(toolName, toolInput, transform)
    // a valid cached entry is reused without fetching
    ensures !r.fetched && writeOk ==>
              && sessionId in r.cache
              && r.written == Some(cache[sessionId].baseEntries + [CurrentEntry(toolName, toolInput, transform)])
              && r.cache[sessionId] == cache[sessionId].(tempPath := Some(tempPath))
    // a refetch caches the parsed history, stamped now, and drops the old temp file
    ensures r.fetched && BaseEntries(response, transform).Ok? ==>
              && sessionId in r.cache
              && r.cache[sessionId].baseEntries == BaseEntries(response, transform).value
              && r.cache[sessionId].createdAt == now
              && r.unlinked == (if HasTempFile(cache, sessionId) then cache[sessionId].tempPath else None)
              && r.cache[sessionId].tempPath == (if writeOk then Some(tempPath) else None)
    ensures r.fetched && BaseEntries(response, transform).Ok? && writeOk ==>
              r.written == Some(BaseEntries(response, transform).value + [CurrentEntry(toolName, toolInput, transform)])
              && r.path == Some(tempPath)
    // any failure falls back to a transcript of the current call alone
    ensures (r.fetched && BaseEntries(response, transform).Thrown?) || !writeOk ==>
              && r.written == (if fallbackWriteOk then Some([CurrentEntry(toolName, toolInput, transform)]) else None)
              && r.path == (if fallbackWriteOk then Some(fallbackPath) else None)
    ensures r.fetched && BaseEntries(response, transform).Thrown? ==> r.cache == cache && r.unlinked == None
  {
    var current := CurrentEntry(toolName, toolInput, transform);
    var fallback := Build(cache, true, None,
                          if fallbackWriteOk then Some([current]) else None,
                          if fallbackWriteOk then Some(fallbackPath) else None);
    if !NeedsFetch(cache, sessionId, now) then
      var base := cache[sessionId].baseEntries;
      if writeOk then
        Build(cache[sessionId := cache[sessionId].(tempPath := Some(tempPath))], false, None,
              Some(base + [current]), Some(tempPath))
      else fallback.(fetched := false)
    else
      match BaseEntries(response, transform)
      case Thrown => fallback
      case Ok(base) =>
        var unlinked := if HasTempFile(cache, sessionId) then cache[sessionId].tempPath else None;
        var refreshed := cache[sessionId := CacheEntry(base, None, now)];
        if writeOk then
          Build(refreshed[sessionId := refreshed[sessionId].(tempPath := Some(tempPath))], true, unlinked,
                Some(base + [current]), Some(tempPath))
        else fallback.(cache := refreshed, unlinked := unlinked)
  }

  /**
   * Within the time-to-live of a successful fetch, a second tool call reuses
   * the cached history whatever the server would answer: it does not fetch,
   * and its transcript is the first call's history plus its own entry.
   */
  lemma SecondCallReusesHistory(cache: Cache, sessionId: string, now1: int, now2: int,
                                response1: Result<JsValue>, response2: Result<JsValue>,
                                tool1: string, input1: JsValue, tool2: string, input2: JsValue,
                                transform: JsValue -> string, path1: string, path2: string,
                                fallback1: string, fallback2: string, fallbackOk: bool)
    requires NeedsFetch(cache, sessionId, now1)
    requires BaseEntries(response1, transform).Ok?
    requires 0 <= now2 - now1 < TranscriptCacheTtlMs
    ensures var first := BuildTranscriptFromSession(cache, sessionId, now1, response1, tool1, input1, transform,
                                                    path1, fallback1, true, fallbackOk);
            var second := BuildTranscriptFromSession(first.cache, sessionId, now2, response2, tool2, input2,
                                                     transform, path2, fallback2, true, fallbackOk);
            && !second.fetched
            && second.written == Some(BaseEntries(response1, transform).value + [CurrentEntry(tool2, input2, transform)])
            && second.cache[sessionId].tempPath == Some(path2)
  {
  }

  /** An entry at least five minutes old is refetched. */
  lemma ExpiredEntryRefetches(cache: Cache, sessionId: string, now: int)
    requires sessionId in cache && now - cache[sessionId].createdAt >= TranscriptCacheTtlMs
    ensures NeedsFetch(cache, sessionId, now)
  {
  }

  /** After a session is cleared, its next tool call fetches the history again. */
  lemma ClearedSessionRefetches(cache: Cache, sessionId: string, now: int)
    requires sessionId != ""
    ensures NeedsFetch(ClearTranscriptCache(cache, Some(sessionId)).cache, sessionId, now)
    ensures NeedsFetch(ClearTranscriptCache(cache, None).cache, sessionId, now)
  {
  }
}

=== FILE: utf8.dfy ===
/**
 * UTF-8, as `Buffer.from(text, "utf8")` produces it: each Unicode scalar
 * value becomes one to four bytes. A decoder is given so that the encoding
 * can be shown to lose nothing.
 */
module Utf8 {
  import opened Base

  /** The bytes of one character. */
  function EncodeChar(c: char): (r: seq<Byte>)
    ensures 1 <= |r| <= 4
  {
    var n := c as int;
    if n < 0x80 then [n]
    else if n < 0x800 then [0xC0 + n / 64, 0x80 + n % 64]
    else if n < 0x10000 then [0xE0 + n / 4096, 0x80 + (n / 64) % 64, 0x80 + n % 64]
    else [0xF0 + n / 262144, 0x80 + (n / 4096) % 64, 0x80 + (n / 64) % 64, 0x80 + n % 64]
  }

  /** `Buffer.from(s, "utf8")` */
  function Encode(s: string): (r: seq<Byte>)
    ensures |s| <= |r| <= 4 * |s|
  {
    if |s| == 0 then [] else EncodeChar(s[0]) + Encode(s[1..])
  }

  /** A continuation byte `10xxxxxx`. */
  predicate IsContinuation(b: Byte) {
    0x80 <= b < 0xC0
  }

  /** A value that names a character: a scalar value outside the surrogate range. */
  predicate IsScalar(n: int) {
    (0 <= n < 0xD800) || (0xE000 <= n <= 0x10FFFF)
  }

  /** The length of the sequence a lead byte opens, 0 for a byte that cannot open one. */
  function SequenceLength(b: Byte): (k: nat)
    ensures k <= 4
  {
    if b < 0x80 then 1
    else if 0xC0 <= b < 0xE0 then 2
    else if 0xE0 <= b < 0xF0 then 3
    else if 0xF0 <= b < 0xF8 then 4
    else 0
  }

  /** The value a well-formed sequence carries. */
  function SequenceValue(bs: seq<Byte>): int
    requires 1 <= |bs| <= 4
  {
    var b: seq<int> := bs;
    if |b| == 1 then b[0]
    else if |b| == 2 then (b[0] - 0xC0) * 64 + (b[1] - 0x80)
    else if |b| == 3 then (b[0] - 0xE0) * 4096 + (b[1] - 0x80) * 64 + (b[2] - 0x80)
    else (b[0] - 0xF0) * 262144 + (b[1] - 0x80) * 4096 + (b[2] - 0x80) * 64 + (b[3] - 0x80)
  }

  /** The first character of `bs` and the bytes it used, if they form one. */
  function DecodeChar(bs: seq<Byte>): (r: Option<(char, nat)>)
    ensures r.Some? ==> 1 <= r.value.1 <= |bs|
  {
    if |bs| == 0 then None
    else
      var k := SequenceLength(bs[0]);
      if k == 0 || |bs| < k then None
      else if exists j :: 1 <= j < k && !IsContinuation(bs[j]) then None
      else
        var n := SequenceValue(bs[..k]);
        if IsScalar(n) then Some((n as char, k)) else None
  }

  /** Reading text back from its bytes; `None` for malformed input. */
  function Decode(bs: seq<Byte>): (r: Option<string>)
    decreases |bs|
  {
    if |bs| == 0 then Some("")
    else
      match DecodeChar(bs)
      case None => None
      case Some((c, k)) =>
        match Decode(bs[k..])
        case None => None
        case Some(rest) => Some([c] + rest)
  }

  /** A lead byte, its continuation bytes and a scalar value decode to that character. */
  lemma DecodeWellFormed(bs: seq<Byte>, k: nat, n: int)
    requires 1 <= k <= |bs| && SequenceLength(bs[0]) == k
    requires forall j :: 1 <= j < k ==> IsContinuation(bs[j])
    requires SequenceValue(bs[..k]) == n && IsScalar(n)
    ensures DecodeChar(bs) == Some((n as char, k))
  {
  }

  /** The bytes of a character form a well-formed sequence carrying its value. */
  lemma EncodeCharWellFormed(c: char)
    ensures var e := EncodeChar(c);
            && SequenceLength(e[0]) == |e|
            && (forall j :: 1 <= j < |e| ==> IsContinuation(e[j]))
            && SequenceValue(e) == c as int
  {
    var n := c as int;
    if n < 0x80 {
    } else if n < 0x800 {
      assert n == (n / 64) * 64 + n % 64;
    } else if n < 0x10000 {
      ThreeDigits(n);
    } else {
      FourDigits(n);
    }
  }

  /** Base-64 digits of a value below 2^16. */
  lemma ThreeDigits(n: int)
    requires 0 <= n < 0x10000
    ensures n == (n / 4096) * 4096 + ((n / 64) % 64) * 64 + n % 64
    ensures n / 4096 < 16
  {
    var q := n / 64;
    assert n == q * 64 + n % 64;
    assert q == (q / 64) * 64 + q % 64;
    assert q / 64 == n / 4096;
  }

  /** Base-64 digits of a value below 2^21. */
  lemma FourDigits(n: int)
    requires 0 <= n <= 0x10FFFF
    ensures n == (n / 262144) * 262144 + ((n / 4096) % 64) * 4096 + ((n / 64) % 64) * 64 + n % 64
    ensures n / 262144 < 8
  {
    var q := n / 64;
    var p := q / 64;
    assert n == q * 64 + n % 64;
    assert q == p * 64 + q % 64;
    assert p == (p / 64) * 64 + p % 64;
    assert p == n / 4096;
    assert p / 64 == n / 262144;
  }

  /** One encoded character decodes to itself, using exactly its own bytes. */
  lemma DecodeEncodedChar(c: char, rest: seq<Byte>)
    ensures DecodeChar(EncodeChar(c) + rest) == Some((c, |EncodeChar(c)|))
  {
    var e := EncodeChar(c);
    var bs := e + rest;
    assert bs[..|e|] == e;
    EncodeCharWellFormed(c);
    DecodeWellFormed(bs, |e|, c as int);
  }

  /** Decoding the encoding gives the text back. */
  lemma {:induction false} DecodeEncode(s: string)
    ensures Decode(Encode(s)) == Some(s)
    decreases |s|
  {
    if |s| > 0 {
      var e := EncodeChar(s[0]);
      var rest := Encode(s[1..]);
      DecodeEncodedChar(s[0], rest);
      assert (e + rest)[|e|..] == rest;
      DecodeEncode(s[1..]);
      assert [s[0]] + s[1..] == s;
    }
  }

  /** Different texts never share an encoding. */
  lemma EncodeInjective(s: string, t: string)
    requires Encode(s) == Encode(t)
    ensures s == t
  {
    DecodeEncode(s);
    DecodeEncode(t);
  }

  /** Encoding distributes over concatenation. */
  lemma {:induction false} EncodeAppend(s: string, t: string)
    ensures Encode(s + t) == Encode(s) + Encode(t)
    decreases |s|
  {
    if |s| > 0 {
      assert (s + t)[0] == s[0];
      assert (s + t)[1..] == s[1..] + t;
      EncodeAppend(s[1..], t);
    } else {
      assert s + t == t;
    }
  }
}
